=== FILE: README.md ===
# nuevatel.gmapsm, modelled in Dafny

The gateway connects short-message applications to an SS7 network. Toward
the applications it speaks a small binary RPC protocol over TCP:

- A frame starts with a 4-octet header: the version, the sequence number
  as two big-endian octets, and the message type.
- For a message type below 128 (type-value) one value octet follows. For
  any other type a length octet follows, then that many octets of
  information elements (IEs).
- A message also carries a time to live, which is not written to the
  wire.
- Each IE is a type-length-value field. A field whose type is below 128
  is type-value: a single value octet and no length.
- An IE is either basic (Byte, Integer, Long, Byte-array, Date or
  Timestamp) or a composite of basic IEs. The TLV fields are laid out in
  the network byte order.

Toward the network the gateway speaks MAP (3GPP TS 29.002) through a
foreign transport that delivers and accepts "gblocks". It runs three kinds
of dialog:

- ForwardMOSM: an MO-ForwardSM from the network, relayed to an
  application as a FORWARD_MO_SM_REQUEST.
- SendRIFSM: a SendRoutingInfoForSM that an application asks for; the HLR
  answer goes back as an advice.
- ForwardMTSM: an MT-ForwardSM that an application asks for; the outcome
  goes back as an advice.

Each dialog walks a state machine. A periodic check escalates a dialog
that is left waiting, ending in a U-ABORT. Dialogs live in a cache keyed by
dialog id and are swept when they expire.

The model has one module per component of the repository:

- `Wrappers`: the optional value, and the keyed lookup every collection
  of the repository uses.
- `Bytes`: octets, C's truncating division, character/octet conversion.
- `IeTypes`, `BasicIe`, `Tlv`, `CompositeIe`, `Messages`, `MessageTypes`:
  the wire format and the message registry.
- `BaseConn`: futures, the sequence counter, the handler table, the
  connection pool and its round-robin `nextOnline`, and the echo action.
- `AppConn`: the read-loop framing, the binary handler, the dispatcher,
  registration and construction.
- `AppClient`: properties and construction of the client, and the
  failsafe sweep.
- `Executor`: the thread pool.
- `Properties`: the properties file parser.
- `GBlock`: the digit, semi-octet (TBCD) and address helpers of the MAP
  side.
- `Dialogs`: the dialog states, the guard of `setDialogState`, the
  dialog cache and its sweep.
- `GMapSm`: the three dialogs, the routing of gblocks, and the two
  application actions that start dialogs.

The model replaces everything outside the core with parameters:

- Times are integers passed in as `now`.
- A blocking wait for an answer becomes an `arrived` or `response`
  input.
- Whether the pool has a connection online is an `online` input.
- A gblock becomes an `Event` record holding the fields the handlers
  read.

## Model

| member | source | states |
|---|---|---|
| Bytes.CDiv | base/appconn/basicie.hpp:354-357 | C's `/` by a positive divisor: the Euclidean quotient for a non-negative dividend, truncated toward zero for a negative one |
| Bytes.CRem | base/appconn/basicie.hpp:354-357 | C's `%` by a positive divisor: the remainder takes the sign of the dividend |
| Bytes.LowNibble | base/appconn/basicie.hpp:335-338 | `x & 0x0f` is a value in 0..15 |
| Bytes.Truncate | base/appconn/message.hpp:424-428 | storing into an `unsigned char` keeps a value in 0..255 unchanged |
| Bytes.OrBelow | gmap/gmapconn.hpp:527 | the bitwise or of two values below `2^k` stays below `2^k` |
| Bytes.OrDisjoint | gmap/gmapconn.hpp:527 | the bitwise or of a value below `2^k` and a multiple of `2^k` is their sum |
| Bytes.OrByte | gmap/gmapconn.hpp:527 | the bitwise or of two octets is again an octet, so the or-assignment of the semi-octet loop needs no truncation |
| Bytes.OctetsOf | base/appconn/basicie.hpp:242-248 | the octets of a string, one per character, each character's own code when it fits an octet |
| Bytes.StringOf | base/appconn/basicie.hpp:292-302 | the string of octets, one octet-sized character per octet |
| Bytes.OctetsOfStringOf | base/appconn/basicie.hpp:292-302 | the octets of the string built from octets are those octets |
| Bytes.StringOfOctetsOf | base/appconn/basicie.hpp:242-248 | a string of octet-sized characters is rebuilt from its octets |
| Bytes.BigEndian | base/appconn/basicie.hpp:141-145 | the `n` low octets of a value, most significant first, as the integer encoders shift them out |
| Bytes.BeValueOfBigEndian | base/appconn/basicie.hpp:134-139 | reading back `n` big-endian octets of `x` gives `x` modulo `256^n` |
| Bytes.BigEndianOfBeValue | base/appconn/basicie.hpp:134-139 | writing back the value of some octets reproduces them |
| Bytes.BeValueOfSmall | base/appconn/basicie.hpp:134-139 | a value that fits in `n` octets is read back unchanged |
| Bytes.BeValueBound | base/appconn/appconn.hpp:54 | the value of `n` octets is below `256^n` |
| IeTypes.CodeOf | base/appconn/ie.hpp:99-104 | the codes of the six basic kinds; only the byte kind has a code below 128, so only it uses the TV layout |
| IeTypes.KindOf | base/appconn/ie.hpp:99-104 | a code names a basic kind exactly when it is one of the six codes, and then the kind's code is that code |
| IeTypes.CodesAreDistinct | base/appconn/ie.hpp:99-104 | distinct kinds have distinct codes, so the kind of a basic element can be read back from its code |
| BasicIe.TypeOf | base/appconn/basicie.hpp:73-75 | each element reports the code of its kind; only a byte element has a TV code |
| BasicIe.PackDigits | base/appconn/basicie.hpp:363-366 | one packed octet holds the units digit low and the tens digit high |
| BasicIe.Unpack | base/appconn/basicie.hpp:343-344 | the high nibble read as tens and the low as units gives a value in 0..165 |
| BasicIe.UnpackPack | base/appconn/basicie.hpp:343-344 | unpacking a packed number gives its last two decimal digits, and the octet is BCD |
| BasicIe.PackUnpack | base/appconn/basicie.hpp:363-366 | packing the value of a BCD octet gives the octet back |
| BasicIe.PackYear | base/appconn/basicie.hpp:354-358 | a year is written as two octets of BCD digits |
| BasicIe.DivTenTwice | base/appconn/basicie.hpp:354-358 | dividing by ten twice, as the encoder does, is dividing by a hundred |
| BasicIe.UnpackPackYear | base/appconn/basicie.hpp:335-338 | a year in 0..9999 is read back from its two BCD octets |
| BasicIe.PackUnpackYear | base/appconn/basicie.hpp:354-358 | two BCD octets are reproduced from the year they denote |
| BasicIe.LastTwoDigits | base/appconn/basicie.hpp:363-366 | only the last two decimal digits of a number reach its packed octet |
| BasicIe.EncodeDate | base/appconn/basicie.hpp:352-367 | a date takes four value octets |
| BasicIe.EncodeTimestamp | base/appconn/basicie.hpp:444-473 | a timestamp takes eight value octets |
| BasicIe.Encode | base/appconn/basicie.hpp:267-272 | the value of a byte array is its octets; every other kind has the fixed length its decoder reads |
| BasicIe.Decode | base/appconn/basicie.hpp:134-139 | an element is built exactly for a basic code with enough octets; it reports that code, an integer comes back as 16 unsigned bits and a long as 32 |
| BasicIe.DecodeDate | base/appconn/basicie.hpp:333-350 | when the four octets hold decimal digits, encoding the decoded date gives them back |
| BasicIe.DecodeTimestamp | base/appconn/basicie.hpp:412-440 | when the first seven octets hold decimal digits, encoding the decoded timestamp gives back all eight, the weekday octet included |
| BasicIe.DateRoundTrip | base/appconn/basicie.hpp:333-350 | decoding the encoding of a date in range gives it back |
| BasicIe.TimestampRoundTrip | base/appconn/basicie.hpp:412-442 | decoding the encoding of a timestamp in range gives it back |
| BasicIe.RoundTrip | base/appconn/basicie.hpp:267-272 | decoding the value of a representable element under its own code gives it back |
| BasicIe.IntegerKeepsLow16 | base/appconn/basicie.hpp:141-145 | any integer crosses the wire as its low 16 bits, read back unsigned |
| BasicIe.LongKeepsLow32 | base/appconn/basicie.hpp:199-205 | any long crosses the wire as its low 32 bits, read back unsigned |
| BasicIe.EncodeDecode | base/appconn/basicie.hpp:333-350 | re-encoding a decoded element reproduces the octets it was read from (all of a byte array, the fixed prefix otherwise) |
| BasicIe.BeforeNul | base/appconn/basicie.hpp:292-302 | the octets before the first NUL: a prefix without NUL, followed by a NUL when shorter |
| BasicIe.GetIeString | base/appconn/basicie.hpp:292-302 | the C string of a byte array: its characters are the octets before the first NUL |
| BasicIe.StringRoundTrip | base/appconn/basicie.hpp:242-248 | a string without NUL is read back unchanged from the byte array built from it |
| BasicIe.NoNulIsWhole | base/appconn/basicie.hpp:292-302 | octets without NUL are read whole |
| Tlv.EncodeField | base/appconn/compositeie.hpp:116-143 | a TV field takes two octets, a TLV field two plus its value |
| Tlv.Split | base/appconn/compositeie.hpp:77-109 | the scan of a well-framed buffer yields encodable fields, at most one per two octets |
| Tlv.SplitJoin | base/appconn/compositeie.hpp:77-109 | scanning written fields recovers exactly those fields |
| Tlv.JoinSplit | base/appconn/compositeie.hpp:116-143 | writing the scanned fields reproduces the buffer |
| Tlv.KeysFrom | base/appconn/compositeie.hpp:122-124 | the codes of a set from a bound upward, each in the set and above the bound |
| Tlv.KeysFromComplete | base/appconn/compositeie.hpp:122-124 | the list is strictly ascending and holds every code of the set above the bound |
| Tlv.AscendingKeysSpec | base/appconn/compositeie.hpp:122-124 | a map is written in strictly ascending key order, each key exactly once, as a `std::map` iterates |
| CompositeIe.PutIe | base/appconn/compositeie.hpp:191-235 | a basic element replaces the child of its type and a composite is ignored; every other child stays and the children stay valid |
| CompositeIe.PutAll | base/appconn/compositeie.hpp:60-69 | putting elements one by one keeps the children valid |
| CompositeIe.NewComposite | base/appconn/compositeie.hpp:60-69 | the vector constructor keeps the type; a TV composite keeps only its value octet; the result is valid |
| CompositeIe.RemoveIe | base/appconn/compositeie.hpp:265-272 | the child of that type is gone and every other child stays as it was |
| CompositeIe.GetIeByte | base/appconn/compositeie.hpp:278-289 | the byte child's value, or 0 without one |
| CompositeIe.GetIeInteger | base/appconn/compositeie.hpp:295-306 | the integer child's value, or 0 without one |
| CompositeIe.GetIeLong | base/appconn/compositeie.hpp:312-323 | the long child's value, or 0 without one |
| CompositeIe.GetIeByteArray | base/appconn/compositeie.hpp:330-345 | the byte array child's octets, or none (length 0) without one |
| CompositeIe.GetIeStringOf | base/appconn/compositeie.hpp:351-362 | the byte array child read as a C string, or "" without one |
| CompositeIe.GetIeDate | base/appconn/compositeie.hpp:368-383 | the date child when there is one; none stands for the uninitialised `tm` |
| CompositeIe.GetIeTimestamp | base/appconn/compositeie.hpp:389-404 | the timestamp child when there is one; none stands for the uninitialised `tm` |
| CompositeIe.ChildFields | base/appconn/compositeie.hpp:116-143 | one field per listed child, carrying that child's value, each encodable |
| CompositeIe.Value | base/appconn/compositeie.hpp:116-143 | the value of a TV composite is its one value octet |
| CompositeIe.CollectBasic | base/appconn/compositeie.hpp:77-109 | the scan keeps exactly the basic types that occur among the fields, each filed under its type |
| CompositeIe.DecodeComposite | base/appconn/compositeie.hpp:77-109 | the decoding constructor keeps the type and uses the TV layout exactly below 128 |
| CompositeIe.LastFieldWins | base/appconn/compositeie.hpp:101-105 | the last field of a basic type decides the child of that type |
| CompositeIe.ChildFieldsDecode | base/appconn/compositeie.hpp:165-175 | each field written from a representable child decodes back to that child |
| CompositeIe.CollectLastChild | base/appconn/compositeie.hpp:101-105 | the children decoded from a list of fields are those of all but the last, updated by the last |
| CompositeIe.CollectChildFields | base/appconn/compositeie.hpp:77-109 | scanning the fields of distinct children gives back exactly those children |
| CompositeIe.ChildrenRoundTrip | base/appconn/compositeie.hpp:77-109 | decoding the written children, in ascending type order, gives the children back |
| CompositeIe.CompositeRoundTrip | base/appconn/compositeie.hpp:77-109 | decoding the value of a representable composite gives the composite back |
| MessageTypes.GroupsExclusive | base/appconn/message.hpp:337-361 | a message type is in at most one of the advice, request and response groups |
| MessageTypes.Put | base/appconn/message.hpp:403-406 | a type replaces any type of the same code; every other code keeps its type |
| MessageTypes.GetLinkedType | base/appconn/message.hpp:424-428 | the linked type of a known code, narrowed from `int` to a byte; 0 for an unknown code |
| MessageTypes.BaseTypes | base/appconn/message.hpp:389-395 | the collection every connection starts with is filed by type code |
| MessageTypes.BaseTypesContents | base/appconn/message.hpp:437-441 | it holds exactly the five base types, and each request links to a response that links back |
| Messages.PutChild | base/appconn/message.hpp:165-174 | a composite is filed under its own type, replacing any element there; every other element is unchanged and a valid element map stays valid |
| Messages.PutChildren | base/appconn/message.hpp:64-76 | putting a vector of valid elements keeps the element map valid |
| Messages.NewMessage | base/appconn/message.hpp:64-76 | the vector constructor: the header fields as given, time to live 4000, the value octet for a TV type, and a valid message |
| Messages.GetCompositeIe | base/appconn/message.hpp:153-163 | a composite comes back exactly when the type is present and holds a composite, and it is the stored element |
| Messages.IeFields | base/appconn/compositeie.hpp:116-143 | one field per listed type, in the listed order, each carrying that element's value and each within the one-octet length |
| Messages.GetMessage | base/appconn/message.hpp:181-203 | the frame: version, the low 16 bits of the sequence number big-endian, the type, then the value octet (TV) or the length octet and the payload (TLV) |
| Messages.DecodeIe | base/appconn/message.hpp:140-144 | the element built from a field has the field's type, and is basic exactly when the type is a basic type |
| Messages.CollectIes | base/appconn/message.hpp:86-121 | the elements the decoding scan builds are filed under their own types |
| Messages.CollectIesKeys | base/appconn/message.hpp:86-121 | the scan keeps exactly the types that occur among the fields |
| Messages.DecodeMessage | base/appconn/message.hpp:86-121 | the decoding constructor: the header as given, the default time to live, and a TV body exactly for a type below 128 |
| Messages.ParseFrame | base/appconn/appconn.hpp:53-66 | the handler's message carries the frame's version, type and big-endian sequence number with the default time to live; a TV type takes octet 4 as its value, any other type gets a TLV body |
| Messages.ParseFrameIgnoresTail | base/appconn/appconn.hpp:60-66 | only the frame's own octets are decoded; whatever follows them in the buffer is ignored |
| Messages.FrameSequenceNumber | base/appconn/appconn.hpp:54 | the sequence number read from a frame is `(b[1] << 8) + b[2]`, always in 0..65535 |
| Messages.IeRoundTrip | base/appconn/message.hpp:140-144 | decoding the value of a representable element gives the element back |
| Messages.CollectIesAgree | base/appconn/message.hpp:86-121 | when each field decodes to the element its type has in a map, every element the scan builds is that element of the map |
| Messages.CollectIeFields | base/appconn/message.hpp:86-121 | scanning the fields written for a list of element types gives back exactly the elements under those types, and every field decodes |
| Messages.PayloadRoundTrip | base/appconn/message.hpp:86-121 | decoding the payload of representable elements gives the element map back |
| Messages.FrameSequenceNumberOf | base/appconn/message.hpp:181-203 | a sequence number in 0..65535 is read back unchanged from the frame |
| Messages.FrameOfPayload | base/appconn/message.hpp:181-203 | a TLV frame whose length octet counts its payload is complete and carries exactly that payload |
| Messages.Payload | base/appconn/message.hpp:181-203 | the value of a TLV message is empty exactly when the message has no elements |
| Messages.TlvFrameValue | base/appconn/message.hpp:181-203 | the frame of a TLV message is complete and its value octets are the payload |
| Messages.FrameRoundTrip | base/appconn/message.hpp:181-203 | parsing the frame of a representable message gives the message back |
| BaseConn.NewFuture | base/appconn/baseconn.hpp:42-45 | a fresh future holds nothing and makes its reader wait |
| BaseConn.SetFuture | base/appconn/baseconn.hpp:53-60 | the slot takes the value only while it is empty; the reader is released either way |
| BaseConn.GetFuture | base/appconn/baseconn.hpp:67-71 | the reader waits exactly while the future is unset, then gets the slot |
| BaseConn.FirstSome | base/appconn/baseconn.hpp:53-60 | the first non-null value of a sequence, none exactly when all are null |
| BaseConn.FirstSetWins | base/appconn/baseconn.hpp:53-60 | after any run of `set` calls the reader is released and sees the first non-null value ever set |
| BaseConn.NextSequenceNumber | base/appconn/baseconn.hpp:304-309 | the counter steps by one below 0xffff and never leaves 0..0xffff |
| BaseConn.SequenceWraps | base/appconn/baseconn.hpp:304-309 | from 0 the k-th number drawn is k modulo 0x10000 |
| BaseConn.PutAction | base/appconn/baseconn.hpp:141-144 | the action is filed under its message type and every other type keeps its action |
| Wrappers.Find | base/appconn/baseconn.hpp:152-157 | a value is found exactly when one is filed under the key, and it is the filed one; the getters of message types (message.hpp:413-418), composite children (compositeie.hpp:252-259) and cached dialogs (gmapconn.hpp:280-286) are the same lookup |
| BaseConn.EchoReply | base/appconn/baseconn.hpp:539-542 | the echo action answers with a valid echo response of the same sequence number carrying 0xaa |
| BaseConn.NewHandler | base/appconn/baseconn.hpp:191-194 | a new response handler holds no response and waits |
| BaseConn.HandlerSetResponse | base/appconn/baseconn.hpp:202-210 | the handler records the response, stops waiting and sets the caller's future when there is one |
| BaseConn.NewConn | base/appconn/baseconn.hpp:264-271 | a new connection starts at sequence 0, id and index -1, offline, with no handlers |
| BaseConn.DrawSequenceNumber | base/appconn/baseconn.hpp:304-309 | drawing a number changes nothing but the counter, which becomes the number drawn |
| BaseConn.PutResponseHandler | base/appconn/baseconn.hpp:332-336 | the handler is filed under the sequence number; other handlers and the rest of the connection stay |
| BaseConn.RemoveResponseHandler | base/appconn/baseconn.hpp:342-345 | only the handler of that number is gone |
| BaseConn.SetResponse | base/appconn/baseconn.hpp:351-357 | a response reaches exactly the handler of its sequence number; without one it is discarded |
| BaseConn.Write | base/appconn/appconn.hpp:252-264 | a message is written exactly when the socket is open |
| BaseConn.Clear | base/appconn/appconn.hpp:243-250 | clearing leaves the connection offline with its socket closed and nothing else changed |
| BaseConn.NewCache | base/appconn/baseconn.hpp:442-444 | the pool starts empty |
| BaseConn.Lookup | base/appconn/baseconn.hpp:450-462 | a member is found exactly when one has that index |
| BaseConn.Insert | base/appconn/baseconn.hpp:450-462 | inserting keeps ascending index order and adds at most the one connection |
| BaseConn.Delete | base/appconn/baseconn.hpp:492-503 | deleting keeps ascending index order and removes at most one member |
| BaseConn.LookupInsert | base/appconn/baseconn.hpp:450-462 | after an insertion the index finds the new member and every other index finds what it found before |
| BaseConn.LookupDelete | base/appconn/baseconn.hpp:492-503 | after a deletion the index finds nothing and every other index finds what it found before |
| BaseConn.Add | base/appconn/baseconn.hpp:450-462 | a null or unindexed connection is ignored; otherwise it replaces the member of its index and the cursor goes back to 0 |
| BaseConn.Remove | base/appconn/baseconn.hpp:492-503 | a null or unindexed connection is ignored; otherwise the member of its index is gone and the cursor goes back to 0 |
| BaseConn.GetVector | base/appconn/baseconn.hpp:518-523 | the members in ascending index order, the same members the pool finds |
| BaseConn.FirstOnline | base/appconn/baseconn.hpp:468-486 | the first inspection of the round-robin scan that finds a member online, none when none is |
| BaseConn.NoneOnline | base/appconn/baseconn.hpp:468-486 | a scan that finds nobody has looked at every member |
| BaseConn.NextOnline | base/appconn/baseconn.hpp:468-486 | the loop leaves the members alone and returns the member and cursor of the reference scan |
| BaseConn.NextOnlineFindsOnline | base/appconn/baseconn.hpp:468-486 | the member returned is in the pool and online, and nobody is returned exactly when no member is online |
| BaseConn.NextOnlineCursor | base/appconn/baseconn.hpp:475-481 | the member returned is the one just before the cursor left behind, so the next scan starts past it |
| BaseConn.NextOnlineCycles | base/appconn/baseconn.hpp:468-486 | with every member online, each call returns the member at the scan start and moves the cursor one step, so repeated calls cycle through the pool |
| AppConn.FrameLength | base/appconn/appconn.hpp:281-306 | the read loop takes a frame exactly when the stream holds a complete one whose TLV length octet, if any, is not 0: 5 octets for a TV type, 5 plus the length octet for a TLV type. A length octet of 0 makes the loop read 0 octets, which the socket treats as an error |
| AppConn.ReadFrames | base/appconn/appconn.hpp:281-306 | every frame handed over is complete, has a non-zero TLV length and fits the 512-octet buffer; the frames are the leading octets of the stream, cut in order; nothing is handed over when the first frame is incomplete or has TLV length 0 |
| AppConn.ExactFrameOfMessage | base/appconn/message.hpp:181-203 | the octets written for a message form a frame exactly as long as its header says, if and only if the message is type-value or has at least one element; a TLV message without elements gets length octet 0 and is never read back |
| AppConn.ReadConcat | base/appconn/appconn.hpp:281-306 | cutting back-to-back exact frames gives back those frames; with ExactFrameOfMessage, the frames of readable messages are read back one by one |
| AppConn.RouteFrame | base/appconn/appconn.hpp:51-84 | another version gets a version-not-supported advice with the frame's sequence number; a registered request or advice with an action runs it; a registered response goes to its handler; an unregistered type is dropped |
| AppConn.HandleFrame | base/appconn/appconn.hpp:51-84 | only a response changes the connection, and it is delivered to its handler; an unsupported version writes exactly the VERSION_NOT_SUPPORTED advice, an ECHO_REQUEST exactly the echo reply, and nothing else is written |
| AppConn.Dispatch | base/appconn/appconn.hpp:119-144 | the message gets the next sequence number; an unknown type is not written; a request is written, its handler is gone afterwards and the caller's future holds the response with that number or null |
| AppConn.DispatchResult | base/appconn/appconn.hpp:119-144 | a caller blocked on a request reads the arrived response carrying the request's sequence number, else null |
| AppConn.RegisterFailedEcho | base/appconn/appconn.hpp:313-321 | one more failure; reaching two clears the connection and otherwise nothing else changes |
| AppConn.ScheduleEchoRequest | base/appconn/appconn.hpp:270-277 | the failure counter restarts and nothing else changes |
| AppConn.EchoRequest | base/appconn/appconn.hpp:379-388 | the echo is a valid echo request carrying 0xaa |
| AppConn.EchoTick | base/appconn/appconn.hpp:379-388 | an offline connection is left alone; an online one writes the echo with the next sequence number and counts a failure exactly when no proper echo response arrived |
| AppConn.TwoFailuresClear | base/appconn/appconn.hpp:313-321 | two failed echoes after scheduling clear the connection, and one does not take it offline |
| AppConn.NodeIe | base/appconn/appconn.hpp:329-360 | the node identity is a TLV composite of the node type |
| AppConn.NodeIeContents | base/appconn/appconn.hpp:330-338 | the node identity is what the vector constructor builds from the id as a Long and the index narrowed to a Byte, and reads back as those |
| AppConn.RegisterRequest | base/appconn/appconn.hpp:329-360 | the registration request has the registration type and sequence number 0 before dispatch |
| AppConn.RegisterRequestContents | base/appconn/appconn.hpp:338-342 | the registration request is a valid message built by the vector constructor, carrying the node identity |
| AppConn.Create | base/appconn/appconn.hpp:199-231 | for a type collection that files REGISTER_REQUEST as a request (otherwise the constructor waits forever), the connection keeps its id, index and types and the echo action; it is online exactly when the socket opened and, when it must register, the registration response accepted it |
| AppConn.CreatedAnswersEcho | base/appconn/baseconn.hpp:539-542 | a constructed connection answers an ECHO_REQUEST with the echo reply on its own socket and stays unchanged |
| AppConn.CreateIsOutcome | base/appconn/appconn.hpp:199-231 | the constructor leaves exactly the field-by-field outcome: a registration attempt only uses the first sequence number and leaves no handler |
| AppConn.FirstDispatch | base/appconn/appconn.hpp:119-144 | a first dispatch on a fresh connection only draws sequence number 1 |
| AppClient.DigitOf | base/appconn/appclient.hpp:133 | a decimal digit character has a value below 10 |
| AppClient.LeadingDigits | base/appconn/appclient.hpp:133 | `atoi` reads the longest prefix of digits: the prefix is all digits and the next character is not one |
| AppClient.SkipSpaces | base/appconn/appclient.hpp:133 | `atoi` skips the leading white space: every skipped character is white space, and what is left is a suffix of the text that does not start with white space |
| AppClient.Atoi | base/appconn/appclient.hpp:133 | the result is negative only after a minus sign and a digit, and it is 0 when no digit follows the optional sign |
| AppClient.NatText | base/appconn/appclient.hpp:130-133 | the decimal text of a number is non-empty and all digits |
| AppClient.DigitsOfNatText | base/appconn/appclient.hpp:130-133 | the digits of the decimal text of a number read back as that number |
| AppClient.LeadingDigitsAll | base/appconn/appclient.hpp:133 | a text of digits only is read whole |
| AppClient.AtoiNatText | base/appconn/appclient.hpp:130-133 | `atoi` of the decimal text of a number up to INT_MAX (2^31 - 1) is that number |
| AppClient.AtoiNegText | base/appconn/appclient.hpp:133 | a minus sign before the decimal text of a number up to 2^31 reads back as the negated number |
| AppClient.AtoiSkipsSpace | base/appconn/appclient.hpp:133 | a leading white-space character does not change the number read |
| AppClient.NumberProperty | base/appconn/appclient.hpp:132-133 | a numeric property fails exactly when its text, the default when absent, is empty; otherwise it is the `atoi` of that text |
| AppClient.DefaultPortText | base/appconn/appclient.hpp:130-133 | the default port 8482 written in decimal reads back as 8482 |
| AppClient.SetProperties | base/appconn/appclient.hpp:119-171 | the properties are accepted exactly when there are some, the address is non-empty and port, connIndex and size are not present and empty; each field is read with its default |
| AppClient.Defaults | base/appconn/appclient.hpp:119-171 | with only the address set the client uses port 8482, index 0, size 8, registrable and failsafe |
| AppClient.DefaultNumbers | base/appconn/appclient.hpp:119-171 | the default texts of the port, the first index and the size read as 8482, 0 and 8 |
| AppClient.Connect | base/appconn/appclient.hpp:79 | a connection attempt keeps the index it is given |
| AppClient.ConnectKeepsIndex | base/appconn/appclient.hpp:79 | the makers the constructor and the sweep use keep the index they are given |
| AppClient.NewClient | base/appconn/appclient.hpp:73-94 | no client when the properties are refused; otherwise exactly one connection per non-negative index of the range, and online exactly when one of them is |
| AppClient.BuildPool | base/appconn/appclient.hpp:78-85 | the loop adds one connection per non-negative index of the range, nothing else, and reports whether one is online |
| AppClient.PoolStep | base/appconn/appclient.hpp:78-85 | one more connection extends a pool holding exactly the earlier indexes to one holding exactly those and the new index |
| AppClient.Repaired | base/appconn/appclient.hpp:228-246 | a member online stays; one offline is replaced only by a retry that comes up online; the index never changes |
| AppClient.FailsafeSweep | base/appconn/appclient.hpp:228-246 | every member is repaired in place, nothing else changes, and the client is online exactly when some member stays or comes online |
| AppClient.SweepMember | base/appconn/appclient.hpp:232-243 | replacing a member by its retry keeps the pool sorted by index |
| AppClient.SweepMemberLookup | base/appconn/appclient.hpp:232-243 | looking at one member repairs the entry of its index and leaves every other index alone |
| AppClient.EchoSafe | base/appconn/appconn.hpp:204 | the shared ECHO_REQUEST entry is safe exactly when the connection it points to is alive |
| AppClient.ConstructAsWritten | base/appconn/appconn.hpp:204 | constructing a connection files its own echo action in the shared entry, so the entry points to the new, live connection |
| AppClient.RetryAsWritten | base/appconn/appclient.hpp:231-240 | one failsafe retry constructs a connection, which takes the entry; if it comes online it replaces the member, otherwise it is deleted and the entry is left dangling |
| AppClient.RetriesAsWritten | base/appconn/appclient.hpp:228-243 | a sweep constructs one connection per retried member, and the entry ends pointing to the last one constructed |
| AppClient.FailedRetryDangles | base/appconn/appclient.hpp:235-240 | a one-connection pool whose retry fails leaves the shared ECHO_REQUEST entry pointing into the deleted connection |
| AppClient.SweepEchoSafeIffLastOnline | base/appconn/appclient.hpp:231-243 | after a sweep that retried anything, the shared ECHO_REQUEST entry points into a live connection exactly when the last retry came online |
| AppClient.SweepState | base/appconn/appclient.hpp:232-243 | the reference sweep keeps the pool valid after every member it looks at |
| AppClient.SweepMembers | base/appconn/appclient.hpp:232-243 | the loop over the members leaves the cache and online flag of the reference sweep over all of them |
| AppClient.SweepPrefixSwept | base/appconn/appclient.hpp:232-243 | after the first i members the reference sweep has repaired exactly those and left the others untouched |
| AppClient.AnyComesOnlineExists | base/appconn/appclient.hpp:232-243 | the online flag of the reference sweep holds exactly when one of the members looked at stays online or its retry comes online |
| AppClient.SweepStep | base/appconn/appclient.hpp:232-243 | one round of the sweep extends the repaired prefix by one member |
| AppClient.SweepOnlineStep | base/appconn/appclient.hpp:232-243 | the online flag after one more round is the old flag or the new member coming online |
| AppClient.SweptAll | base/appconn/appclient.hpp:228-246 | once every member has been looked at, every index holds its repaired member |
| AppClient.SortedLookup | base/appconn/baseconn.hpp:518-523 | in a pool in ascending index order each member is found by its own index |
| AppClient.IndexBeforeNext | base/appconn/baseconn.hpp:518-523 | the indices among the first i+1 members are those among the first i plus member i |
| Executor.NewPool | base/executor.hpp:59-79 | a new pool has no threads and a valid scan position |
| Executor.FirstTerminated | base/executor.hpp:61-74 | the first terminated slot at or after the scan position, none exactly when every later slot is running |
| Executor.Submit | base/executor.hpp:59-79 | the loop does what the reference says: the thread takes the first terminated slot at or after the scan position, which moves one on (back to 0 from the last slot); without one it is appended and the position goes back to 0 |
| Executor.SubmitProperties | base/executor.hpp:59-79 | submitting keeps the pool valid, starts the thread in some slot, grows the vector by one exactly when no terminated slot was found and never replaces a running thread |
| Executor.Survivors | base/executor.hpp:86-99 | the threads kept are never terminated and are no more than before |
| Executor.SurvivorsExactly | base/executor.hpp:86-99 | a slot is kept exactly when it was in the vector and running |
| Executor.SurvivorsCount | base/executor.hpp:86-99 | nothing is dropped exactly when no thread has terminated |
| Executor.SurvivorsAppend | base/executor.hpp:86-99 | the walk over two parts keeps the survivors of each, in order |
| Executor.DeleteTerminated | base/executor.hpp:86-99 | the iterator walk leaves exactly the running threads in their order and the scan position at 0 |
| Executor.Terminate | base/executor.hpp:59-79 | a thread finishing on its own changes only its slot's state and keeps the pool valid |
| Properties.GetProperty | base/properties.hpp:40-45 | the stored value, "" for an absent key |
| Properties.GetPropertyOr | base/properties.hpp:53-58 | the stored value, the default only for an absent key |
| Properties.SetProperty | base/properties.hpp:187-190 | the key gets the value and every other key keeps its value |
| Properties.LastWriteWins | base/properties.hpp:187-190 | a second write to a key overrides the first, and the first reads back |
| Properties.CharToken | base/properties.hpp:81-114 | an ordinary character ends the line exactly when it is CR or LF, separates exactly when it is space, tab, form feed, `=` or `:`, starts a comment exactly when it is `#` or `!`, and appends itself |
| Properties.EscapeToken | base/properties.hpp:116-152 | an escaped line terminator continues the line as a separator; `\n \r \t \f \\ \= \:` stand for their characters |
| Properties.LineStart | base/properties.hpp:171-176 | a new line keeps the committed properties |
| Properties.Step | base/properties.hpp:154-177 | a line terminator commits a non-empty key and starts a new line; nothing else commits; inside a comment nothing but the flags changes |
| Properties.NextToken | base/properties.hpp:80-153 | each pass takes one character, or two for an escape, and an unescaped character is read as itself |
| Properties.Load | base/properties.hpp:64-180 | the loop leaves the properties the reference reading of the whole input gives |
| Properties.UnterminatedLineNotCommitted | base/properties.hpp:154-177 | a last line with no terminator is never committed |
| Properties.Chars | base/properties.hpp:114 | each octet becomes the character of the same code |
| Properties.AppendedTwice | base/properties.hpp:156-159 | appending two texts in turn appends their concatenation |
| Properties.PlainAppends | base/properties.hpp:156-159 | plain characters outside a comment are appended to the key or the value |
| Properties.SimpleLine | base/properties.hpp:64-180 | a line `key=value` of plain characters sets the key to the value |
| Properties.SeparatorThenValue | base/properties.hpp:161-168 | after a non-empty key a separator switches to the value, which the terminator commits |
| Properties.SeparatorsSkipped | base/properties.hpp:161-168 | after an escaped line terminator the separators are dropped |
| Properties.ContinuedLine | base/properties.hpp:118-126 | a backslash before the line terminator continues the value on the next line |
| Properties.CommentLine | base/properties.hpp:155 | a line that starts with `#` or `!` changes nothing |
| Properties.InComment | base/properties.hpp:155 | inside a comment everything up to the terminator is skipped |
| GBlock.GetHexO | gmap/gmapconn.hpp:472-485 | a hex digit of either case gives its value below 16; any other character gives -1 |
| GBlock.GetHexODigit | gmap/gmapconn.hpp:472-485 | a hex digit of either case is the table digit of its value, in lower case |
| GBlock.GetHexOHexChar | gmap/gmapconn.hpp:375 | the value of a table digit is the nibble it stands for |
| GBlock.HexCharLower | gmap/gmapconn.hpp:375 | the table holds lower-case hex digits, and only nibble 15 is written `f` |
| GBlock.GetHexString | gmap/gmapconn.hpp:458-465 | two characters per octet |
| GBlock.HexStringAt | gmap/gmapconn.hpp:458-465 | octet i is written as its high nibble at 2i and its low nibble at 2i+1 |
| GBlock.HexStringLower | gmap/gmapconn.hpp:458-465 | the hex string holds lower-case digits only |
| GBlock.HexPairAt | gmap/gmapconn.hpp:458-485 | pair i of the hex string reads back as octet i |
| GBlock.HexStringRoundTrip | gmap/gmapconn.hpp:458-485 | reading the hex string back in pairs gives the octets |
| GBlock.GetOctet | gmap/gmapconn.hpp:493-499 | the buffer keeps its length; one octet per character, later octets untouched |
| GBlock.OctetOfLower | gmap/gmapconn.hpp:493-511 | a lower-case digit becomes an octet below 16 whose low nibble writes it again |
| GBlock.OctetOfHexChar | gmap/gmapconn.hpp:493-499 | the table digit of a nibble becomes that nibble |
| GBlock.GetOctetStr | gmap/gmapconn.hpp:507-511 | one character per octet, as many as asked for |
| GBlock.OctetRoundTrip | gmap/gmapconn.hpp:493-511 | a lower-case hex string survives the trip through octets, which are below 16, and the rest of the buffer is untouched |
| GBlock.OctetStrRoundTrip | gmap/gmapconn.hpp:493-511 | octets below 16 survive the trip through characters |
| GBlock.SemiOctetLength | gmap/gmapconn.hpp:520-521 | half the number of digits, rounded up |
| GBlock.PackSemiOctetLayout | gmap/gmapconn.hpp:523-527 | the first digit goes to the low nibble and the second to the high nibble |
| GBlock.GetSemiOctet | gmap/gmapconn.hpp:519-531 | the buffer keeps its length and everything past the written octets |
| GBlock.SemiOctetDigits | gmap/gmapconn.hpp:539-548 | at most two digits come out of one octet |
| GBlock.ConcatBound | gmap/gmapconn.hpp:539-548 | pieces of at most two digits join to at most twice their number |
| GBlock.SemiOctetStrBound | gmap/gmapconn.hpp:539-548 | at most two digits per octet come out of `getSemiOctetStr` |
| GBlock.GetSemiOctetStr | gmap/gmapconn.hpp:539-548 | every character produced is a TBCD digit: a lower-case hex digit other than the filler f |
| GBlock.TbcdValue | gmap/gmapconn.hpp:472-485 | a TBCD digit has a value below 15 and is the table digit of that value |
| GBlock.SemiOctetDigitsAt | gmap/gmapconn.hpp:519-548 | each written octet reads back as its two digits, or the last digit with a 0xF filler |
| GBlock.ChunkShift | gmap/gmapconn.hpp:519-531 | dropping two digits shifts the octets by one |
| GBlock.ConcatChunks | gmap/gmapconn.hpp:539-548 | the digits of the successive octets spell the string |
| GBlock.SemiOctetRoundTrip | gmap/gmapconn.hpp:519-548 | a TBCD digit string survives the trip through semi-octets |
| GBlock.GetAddress | gmap/gmapconn.hpp:556-560 | the type of address comes first and the buffer keeps its length |
| GBlock.GetAddressStr | gmap/gmapconn.hpp:567-570 | the type of address is the first octet |
| GBlock.AddressRoundTrip | gmap/gmapconn.hpp:556-570 | `getAddressStr` gives back the digits and the type of address that `getAddress` wrote |
| GBlock.TypeOfNumber | gmap/gmapconn.hpp:577-583 | bits 4 to 6 of the type-of-address octet, a multiple of 16 up to 0x70 |
| GBlock.GetNatureOfAddress | gmap/gmapconn.hpp:577-583 | type of number 16 is international, 32 national significant, 64 subscriber, anything else not present |
| GBlock.NatureOfAddressConstants | gmap/gmapconn.hpp:596-597 | 0x91 reads as international and 0xa1 as national, and only bits 4 to 6 matter |
| GBlock.SemiOctetCounterAsWritten | gmap/gmapconn.hpp:522 | the octet counter is an `unsigned char`: it holds the count modulo 256, and the count itself below 256 |
| GBlock.SemiOctetLoopNeverEnds | gmap/gmapconn.hpp:522 | with more than 255 octets to write the `unsigned char` counter stays below the length after any number of rounds |
| GBlock.SemiOctetCounterAgrees | gmap/gmapconn.hpp:522 | up to 255 octets the counter equals the round number until the loop ends |
| Dialogs.SetDialogState | gmap/gmapconn.hpp:152-161 | outside the closing and aborting states the target is taken; CLOSE_0 only moves to CLOSE_1, ABORT_0 only to ABORT_1, and CLOSE_1 and ABORT_1 never move |
| Dialogs.FinalStatesAbsorb | gmap/gmapconn.hpp:152-161 | CLOSE_1 and ABORT_1 stay whatever is asked for afterwards |
| Dialogs.CloseAdvancesOnce | gmap/gmapconn.hpp:152-161 | from CLOSE_0 a dialog ends in CLOSE_1 exactly when CLOSE_1 was asked for at some point |
| Dialogs.AbortAdvancesOnce | gmap/gmapconn.hpp:152-161 | from ABORT_0 a dialog ends in ABORT_1 exactly when ABORT_1 was asked for at some point |
| Dialogs.OpenStatesFollowLast | gmap/gmapconn.hpp:152-161 | while no closing or aborting state is involved, the last state asked for is the state |
| Dialogs.NewDialog | gmap/gmapconn.hpp:72-78 | a new dialog is NEW, with ids 0, checked 20 seconds from now |
| Dialogs.NewDialogWithTtl | gmap/gmapconn.hpp:84-90 | a new dialog is NEW, with ids 0, checked after its time to live |
| Dialogs.SetState | gmap/gmapconn.hpp:152-161 | only the state changes, and it changes as the guard says |
| Dialogs.Put | gmap/gmapconn.hpp:292-301 | the dialog replaces any dialog of its id, every other id keeps its dialog, and the cache stays filed by id |
| Dialogs.Remove | gmap/gmapconn.hpp:307-316 | the dialog of the id is gone, every other dialog stays and an absent id changes nothing |
| Dialogs.CacheRoundTrip | gmap/gmapconn.hpp:280-316 | what was put reads back, other ids are unaffected, what was removed is gone, and removing undoes putting |
| Dialogs.EscalateProperties | gmap/gmapsm.hpp:120-126 | the check's escalation passes the guard, moves exactly W_INVOKE, CLOSE_0, W_CLOSE_0 and ABORT_0, never leaves the closing states and leads to eviction exactly from the stage-0 and final states |
| Dialogs.Escalate | gmap/gmapsm.hpp:120-126 | the guard lets every escalation through, and a dialog is closing after it exactly when it was closing before |
| Dialogs.StalledInvokeAborts | gmap/gmapsm.hpp:120-126 | a dialog stalled in W_INVOKE reaches W_CLOSE_1 after two checks and from then on sends a U-ABORT on every check |
| Dialogs.Checked | gmap/gmapconn.hpp:339-342 | a checked dialog is escalated and looked at again ten seconds later; its ids and data stay |
| Dialogs.Sweep | gmap/gmapconn.hpp:323-346 | an expired dialog in CLOSE_1 or ABORT_1 is removed, every other expired one is checked, the rest are untouched, and a U-ABORT goes out exactly for the expired ones in W_CLOSE_1 |
| Dialogs.SweepKeeps | gmap/gmapconn.hpp:323-346 | the sweep keeps every dialog under its id and leaves none expired |
| Dialogs.SweepIdempotent | gmap/gmapconn.hpp:323-346 | a second sweep at the same time changes nothing and sends nothing |
| Dialogs.StageZeroEvicted | gmap/gmapconn.hpp:323-346 | an expired dialog in CLOSE_0 or ABORT_0 survives one sweep and is gone after the next one more than ten seconds later |
| Dialogs.WriteBack | gmap/gmapconn.hpp:1149-1158 | the cached copy follows the dialog when the dialog is cached, and nothing changes otherwise |
| Dialogs.PutGBlockStep | gmap/gmapconn.hpp:1129-1177 | a block is handed to the stack exactly when the dialog is not in CLOSE_0 or ABORT_0; the dialog keeps its data, takes the assigned id only on an accepted open, and is closing after a refused block |
| Dialogs.PutGBlockStepProperties | gmap/gmapconn.hpp:1129-1177 | a dialog in CLOSE_0 or ABORT_0 sends nothing; a refused block moves the dialog to ABORT_0, and a refused open leaves the cache as it was, since the dialog was never filed; an accepted open files it under its new id; an accepted close moves it to CLOSE_0; anything else changes nothing |
| GMapSm.AddressOf | gmap/gmapsm.hpp:144-150 | an address field of at most 20 octets gives at most 38 digits and its first octet as the type of address |
| GMapSm.TbcdOf | gmap/gmapsm.hpp:360-365 | a TBCD field of at most 8 octets gives at most 16 digits |
| GMapSm.MoInvokeData | gmap/gmapsm.hpp:140-157 | the invoke sets the service centre address, the MSISDN and the TPDU each from a non-empty field and keeps each as it was otherwise; the node id stays |
| GMapSm.HandleForwardMo | gmap/gmapsm.hpp:128-181 | an open request answers with an open confirmation, goes to W_INVOKE and takes the node id from a non-empty global title; an MO-ForwardSM takes the invoke id and fields, goes to INVOKE and hands the run to the executor (the only case that does); a delimiter is echoed only in W_INVOKE; a close asks for CLOSE_0, an abort for ABORT_0; any other request takes its invoke id and is answered with a close; an error asks for W_CLOSE_0; anything else changes nothing |
| GMapSm.ForwardMoRequest | gmap/gmapsm.hpp:186-229 | the request the run builds is a valid FORWARD_MO_SM_REQUEST of the current version with the default time to live |
| GMapSm.StringIe | gmap/gmapsm.hpp:209-214 | a string composite is valid and of its type |
| GMapSm.AddressIe | gmap/gmapsm.hpp:198-205 | an address composite is valid and of its type |
| GMapSm.BytesIe | gmap/gmapsm.hpp:218-225 | an octets-and-tag composite is valid and of its type |
| GMapSm.StringIeRoundTrip | gmap/gmapsm.hpp:198-214 | the string put into a string or address composite is the string read back, and the type of address reads back too |
| GMapSm.ForwardMoRequestContents | gmap/gmapsm.hpp:193-226 | the application reads back the short-message type, the MSISDN with its type of address, the TPDU tagged SMS-SUBMIT, and the node id exactly when the dialog has one |
| GMapSm.MoReply | gmap/gmapsm.hpp:234-263 | a FORWARD_MO_SM_RESPONSE gives the MO result, anything else or no reply a system failure, and a close always follows |
| GMapSm.ForwardMoRunAsWritten | gmap/gmapsm.hpp:183-275 | as written, the MO run answers a system failure and a close when no connection is online; when one is, it sends the FORWARD_MO request exactly when MSISDN and TPDU are both present and then pushes the reply, otherwise it pushes nothing |
| GMapSm.MoRunLeavesInvoke | gmap/gmapsm.hpp:228 | as written, a dialog without MSISDN or TPDU pushes nothing and stays in INVOKE through every sweep, with no U-ABORT |
| GMapSm.ForwardMoRun | gmap/gmapsm.hpp:183-275 | every run pushes a result or a system failure followed by a close; the request goes out exactly when the pool is online and MSISDN and TPDU are present |
| GMapSm.ForwardMoRunCloses | gmap/gmapsm.hpp:183-275 | the MO result is pushed exactly when the request went out and a FORWARD_MO_SM_RESPONSE came back, and the run agrees with the code as written wherever that pushes anything |
| GMapSm.InitDialog | gmap/gmapsm.hpp:339-344 | an application-started dialog goes to W_INVOKE and pushes an open, its request and a delimiter; a SendRIFSM opens the short-message gateway context v1 towards the HLR subsystem at its remote global title and asks for routing info for its MSISDN and priority flag, a ForwardMTSM opens the MT relay context v2 towards the MSC subsystem and forwards its TPDU with its IMSI and LMSI |
| GMapSm.RifRequestOpensHlr | gmap/gmapsm.hpp:339-344 | a complete SEND_RIF request from the application starts a dialog in W_INVOKE whose pushes are the gateway-context open to the HLR at the request's global title, the routing-info request for the request's MSISDN, type and priority flag, and a delimiter |
| GMapSm.MtRequestOpensMsc | gmap/gmapsm.hpp:541-546 | a complete FORWARD_MT request from the application starts a dialog in W_INVOKE whose pushes are the MT-relay open to the MSC at the request's global title, the MT-ForwardSM carrying the request's TPDU, IMSI and LMSI, and a delimiter |
| GMapSm.RoutingInfoData | gmap/gmapsm.hpp:358-375 | the HLR answer sets IMSI and LMSI from the non-empty fields; a non-empty roaming number sets the roaming number and its type from the address and keeps the MSC number, a non-empty MSC number does the converse, an absent or empty location keeps both; the request's fields are kept and success is recorded |
| GMapSm.HlrAnswerRoundTrip | gmap/gmapsm.hpp:358-375 | the IMSI and roaming number the HLR encodes are recorded as the digits and type of address they carry, and nothing is invented for the MSC number or the LMSI |
| GMapSm.HlrAnswerMscRoundTrip | gmap/gmapsm.hpp:358-375 | the IMSI, LMSI and MSC number the HLR encodes are recorded as the digits and type of address they carry, and the roaming number keeps its prior value |
| GMapSm.WithOutcome | gmap/gmapsm.hpp:389 | only the recorded outcome of the dialog changes |
| GMapSm.HandleAppDialog | gmap/gmapsm.hpp:354-392 | no handler pushes anything; the open confirmation asks for W_INVOKE; the HLR answer of a SendRIFSM records exactly the routing data the answer carries and asks for W_CLOSE_0, the MT result of a ForwardMTSM records success and asks for W_CLOSE_0; a close or abort from the network asks for CLOSE_0 or ABORT_0 and is the only event that hands the run to the executor; an error records its code and asks for W_CLOSE_0; every other event changes nothing |
| GMapSm.WithOutcomeIes | gmap/gmapsm.hpp:455-464 | an advice carries REQUEST_ACCEPTED alone for success and REQUEST_FAILED with the code as an Integer otherwise, on top of its other elements |
| GMapSm.WithMessageId | gmap/gmapsm.hpp:412-418 | the message id element is added exactly when there is a message id |
| GMapSm.MtAdvice | gmap/gmapsm.hpp:593-612 | the advice is a valid FORWARD_MT_SM_ADVICE |
| GMapSm.AdviceOutcome | gmap/gmapsm.hpp:593-612 | the application reads accepted exactly for a recorded success, the code otherwise, and the message id exactly when there is one |
| GMapSm.RifIdentityIes | gmap/gmapsm.hpp:420-453 | the IMSI and LMSI elements exactly when they are known, and the roaming number, or else the MSC number, as the remote global title |
| GMapSm.RifAdvice | gmap/gmapsm.hpp:412-466 | the advice is a valid SEND_RI_F_SM_ADVICE |
| GMapSm.AdviceKeeps | gmap/gmapsm.hpp:412-466 | the identity elements pass into the advice unchanged |
| GMapSm.ReadStringOrEmpty | base/appconn/compositeie.hpp:351-362 | a string element absent from a message reads as "" and one present reads as its string |
| GMapSm.RifAdviceContents | gmap/gmapsm.hpp:412-466 | the application reads back the message id, IMSI and LMSI the dialog holds, and the outcome |
| GMapSm.RifAdviceStrings | gmap/gmapsm.hpp:412-434 | the message id, IMSI and LMSI composites read back as the strings the dialog holds |
| GMapSm.RifAdviceOutcome | gmap/gmapsm.hpp:455-463 | the outcome byte is REQUEST_ACCEPTED exactly when the service message is 0, and the error-code integer is present exactly when it is not |
| GMapSm.RifAdviceLocation | gmap/gmapsm.hpp:436-453 | the remote global title read back is the roaming number with its type when there is one, else the MSC number |
| GMapSm.AppDialogRun | gmap/gmapsm.hpp:394-478 | the advice of the dialog's flavour is written exactly when the pool has a connection: a SendRIFSM writes its SEND_RIF advice, a ForwardMTSM its FORWARD_MT advice |
| GMapSm.HandleGBlock | gmap/gmapsm.hpp:128-181 | a handler keeps the dialog id and the flavour |
| GMapSm.CheckDialog | gmap/gmapsm.hpp:346-352 | a check escalates the state and pushes a U-ABORT exactly in W_CLOSE_1 |
| GMapSm.CheckGoesThroughGuard | gmap/gmapsm.hpp:346-352 | the check's state change is what the guard of `setDialogState` lets through |
| GMapSm.HandleKeepsValid | gmap/gmapsm.hpp:128-181 | the handlers keep the strings a dialog holds within their buffers |
| GMapSm.Deliver | gmap/gmapsm.hpp:655-656 | an event for a cached dialog is handled by it and its new value is cached; without one nothing happens |
| GMapSm.NewForwardMo | gmap/gmapsm.hpp:660-661 | an open request creates an empty ForwardMOSM under its dialog id, in NEW |
| GMapSm.Route | gmap/gmapsm.hpp:652-671 | the cache stays filed by id |
| GMapSm.RouteOpen | gmap/gmapsm.hpp:659-665 | an open request leaves a fresh ForwardMOSM in W_INVOKE under its id, checked 20 seconds on, answered with an open confirmation, and no other dialog changes |
| GMapSm.RouteWithoutDialog | gmap/gmapsm.hpp:652-671 | an event other than an open request for an id without a dialog changes nothing and pushes nothing |
| GMapSm.RouteDropsUnlisted | gmap/gmapsm.hpp:652-671 | other service types and unlisted requests are dropped even when a dialog has the id |
| GMapSm.RouteToCached | gmap/gmapsm.hpp:654-669 | an answer, error or listed request for a cached dialog is handled by that dialog and cached under the same id |
| GMapSm.MoDialogFlow | gmap/gmapsm.hpp:128-157 | after an open and an MO-ForwardSM invoke the dialog is in INVOKE with the invoke's id and fields, and its run is handed to the executor |
| GMapSm.CompositeString | base/appconn/compositeie.hpp:351-362 | a string read from a message fits its 255-octet field |
| GMapSm.CompositeBytes | base/appconn/compositeie.hpp:330-345 | octets read from a message fit their 255-octet field |
| GMapSm.CompositeByte | gmap/gmapsm.hpp:712-727 | without the composite, the default; with it, the octet of its BYTE child, or 0 without one |
| GMapSm.CompositeValue | gmap/gmapsm.hpp:729-732 | 0 without the composite; for a TV type, the composite is the TV composite holding that octet |
| GMapSm.ActionResponse | gmap/gmapsm.hpp:737-743 | the response has the request's sequence number, the linked type and REQUEST_ACCEPTED or REQUEST_FAILED |
| GMapSm.RifRequestData | gmap/gmapsm.hpp:707-732 | the fields read from the request fit the dialog, and no outcome is recorded yet |
| GMapSm.SendRifAction | gmap/gmapsm.hpp:703-746 | the request is accepted and a SendRIFSM started exactly when message id, remote global title and MSISDN are present, and the response says which |
| GMapSm.MtRequestData | gmap/gmapsm.hpp:782-809 | the fields read from the request fit the dialog, and no outcome is recorded yet |
| GMapSm.ForwardMtAction | gmap/gmapsm.hpp:778-823 | the request is accepted and a ForwardMTSM with a 60-second time to live started exactly when message id, TPDU, an IMSI or LMSI and remote global title are present, and the response says which |
| GMapSm.MtRequest | gmap/gmapsm.hpp:782-809 | the request an application sends is a valid FORWARD_MT_SM_REQUEST with its sequence number |
| GMapSm.ReadStringIe | base/appconn/compositeie.hpp:351-362 | a string composite in a message reads back as its string |
| GMapSm.ReadAddressIe | base/appconn/compositeie.hpp:278-289 | an address composite in a message reads back as its digits and type of address |
| GMapSm.MtRequestRoundTrip | gmap/gmapsm.hpp:778-823 | the action reads back every field the application sent and accepts exactly when they are complete |
| GMapSm.MtRequestWithoutIdentity | gmap/gmapsm.hpp:811-821 | a request with neither IMSI nor LMSI is refused with REQUEST_FAILED in a FORWARD_MT_SM_RESPONSE |
| GMapSm.RifRequest | gmap/gmapsm.hpp:707-732 | the request an application sends is a valid message |
| GMapSm.RifRequestRoundTrip | gmap/gmapsm.hpp:703-746 | the action reads back every field the application sent and accepts exactly when message id, remote global title and MSISDN are present |
| GMapSm.MtDeliveryAccepted | gmap/gmapsm.hpp:556-621 | an MT dialog opened, confirmed, answered and closed by the network is in CLOSE_0, handed to the executor, and its advice reports REQUEST_ACCEPTED |

## Left out

- Sockets, the TCP accept and connect loops, and their error handling: the read loop is modelled on a given octet stream, and the write on the frame it produces.
- Threads, timers, mutexes and the blocking queues: each periodic task (echo, failsafe, dialog check, terminated-thread sweep) is a step function called by the caller, and concurrency is not modelled.
- The blocking waits on a Future or on the Dispatcher: modelled as an input saying which answer, if any, arrived in time.
- Wall-clock time: `now` is a parameter of every operation that reads the clock.
- The XML configuration, the logger and main.cpp (wiring only, no logic of the core).
- The IPC loop of GMAPConn (attach, receive, send, detach of the foreign transport) and its SIGINT handling: calls into code that is not part of this model.
- The extraction of gblock fields from the foreign union types: abstracted to `GMapSm.Event`, whose octet strings are empty when the field is absent or of another choice.
- The building of outgoing gblocks in gmap/gblocksm.hpp: a primitive the dialogs push is named, not encoded. For an MT-ForwardSM that file prefers the IMSI over the LMSI; the model only requires that one of them is present.
- The local global title, point code and subsystem number filled into open and request blocks: configuration of the transport, not logic of the core.
- `getNumberingPlan`: it always returns E.164 and no operation of the core depends on its value.
- The connection pool's `nextOnline` inside a dialog's run: the run takes whether a connection was found as its `online` input. The scan itself is modelled in `BaseConn.NextOnline`.
- `DialogCache::put` erases the old dialog and then reads it, which is undefined behaviour in C++. The model files the new dialog and drops the old one.
- The order in which the sweep pushes U-ABORTs: it follows the cache's map order, modelled as a set of dialog ids.
- The uninitialised `remoteGTType` and `msisdnType` when the request lacks that composite: not observable, because such a request is refused before a dialog is built.
- Decoding scans of composites and messages with no bounds check, basic payloads shorter than their type needs, and type-value decoding with length 0: the C++ behaviour is undefined there, so these inputs are excluded by `requires`.
- IELong assumes a 64-bit `long` (LP64); other data models are not covered.
- GMapSm.ForwardMoRequest: the sequence number is 0, because the dispatcher assigns the real one when it sends the message.
- CompositeIe.GetIeDate: returns None where the source returns an uninitialised `tm`, so the absent case states nothing about that value.
- CompositeIe.GetIeTimestamp: returns None where the source returns an uninitialised timestamp, as for dates.
- GMapSm.Route: its own ensures states only that the cache stays filed by id. What it routes where is proved in `GMapSm.RouteOpen`, `GMapSm.RouteWithoutDialog`, `GMapSm.RouteDropsUnlisted` and `GMapSm.RouteToCached`.
- BaseConn.NextOnlineCycles: cycling is proved only for a pool whose members are all online. With offline members, `BaseConn.NextOnline` states the cursor through its reference scan.
- AppConn.FrameLength: each socket read is taken to return all the octets it asks for. The socket's read returns whatever one `recv` gives, and the loop ignores the count, so after a short read the source hands over a frame that still holds stale buffer octets.
- AppConn.ReadFrames: the same full-read assumption. The end of the stream and a zero-octet read make the socket's read throw, and the loop ends. The model renders both as the loop stopping; the spin on a zero-octet read with a leftover EINTR is not modelled.
- BaseConn.Add: the source erases the entry of the same index and then reads `iter->second` to delete it. That is undefined behaviour in C++, and it also deletes the connection being replaced. The model files the new connection and drops the old one; object lifetimes are not modelled.
- BaseConn.Remove: the same erase-then-delete of `iter->second`, undefined behaviour in C++. The model unfiles the connection and does not model its deletion.
- CompositeIe.RemoveIe: erases the child and then deletes it through the erased iterator, undefined behaviour in C++. The model removes the child.
- CompositeIe.PutIe: a put that replaces a child goes through that removal (compositeie.hpp:231), so it inherits the undefined behaviour. The model replaces the child.
- CompositeIe.LastFieldWins: a repeated field type in a decoded composite goes through the same removal (compositeie.hpp:104). The model states the intended result: the later field wins.
- CompositeIe.CollectLastChild: relies on the same removal as CompositeIe.LastFieldWins, and states the intended result.
- Messages.PutChild: replacing a composite element goes through the same removal (message.hpp:169). The model replaces the element.
- Messages.CollectIes: a repeated element type in a decoded message goes through the same removal (message.hpp:116). The model keeps the later element.
- AppConn.Create: each connection holds its own copy of the action collection. In the source all connections share one collection by pointer, so the SEND_RI_F_SM and FORWARD_MT_SM actions put after the client is built (main.cpp:80-81) reach connections that already exist, and the ECHO_REQUEST entry is whichever connection was built last (see "## Findings").
- AppClient.Connect: for a type collection that does not file REGISTER_REQUEST as a request, a registrable connection with an id and an index is given the cleared outcome. The source constructor waits forever there, because `Dispatcher::run` never sets the response of a non-request (appconn.hpp:124-141). Every collection the type collection constructor builds files it as a request (message.hpp:389-395), and `AppConn.Create` requires it.
- AppClient.NewClient: the constructor's loop compares `tmpConnIndex < (connIndex + size)` in `int` (appclient.hpp:78); when that sum passes `INT_MAX` it is signed overflow, which C leaves undefined. The model's sum is unbounded, so it builds one connection per non-negative index of the range even there.
- AppClient.BuildPool: the same loop; the model does not wrap `connIndex + size` or the loop index at 32 bits, so a range that reaches past `INT_MAX` is modelled as if `int` were unbounded.
- AppClient.NumberProperty: `atoi` of a number outside `int` is undefined behaviour in C. The model returns the unbounded value; `AppClient.AtoiNatText` and `AppClient.AtoiNegText` are stated only within `int`.

## Findings

| source | as written | input that shows it | evidently intended | confidence | as-written member | corrected member |
|---|---|---|---|---|---|---|
| gmap/gmapsm.hpp:228 | the ForwardMOSM run pushes nothing when the MSISDN or the TPDU is empty. The dialog stays in INVOKE, which the check never escalates, so it never closes and sends no U-ABORT | an MO-ForwardSM whose sm_RP_OA carries no MSISDN (or whose sm_RP_UI is empty), while an application connection is online | a system-failure error followed by a close, as the run does when no connection is online | not executed | GMapSm.ForwardMoRunAsWritten, GMapSm.MoRunLeavesInvoke | GMapSm.ForwardMoRun, GMapSm.ForwardMoRunCloses |
| gmap/gmapconn.hpp:522 | `getSemiOctet` counts written octets in an `unsigned char`, which wraps at 256. With more than 255 octets to write the loop guard never fails | a string of 511 characters or more passed to `getSemiOctet` directly (strings that come from TLV fields have at most 255 octets) | a counter as wide as the length, so every octet is written once and the loop ends | not executed | GBlock.SemiOctetCounterAsWritten, GBlock.SemiOctetLoopNeverEnds | GBlock.GetSemiOctet, GBlock.SemiOctetRoundTrip |
| base/appconn/appconn.hpp:204 | every connection constructor files a pointer to its own echo action in the one action collection all connections share, and the destructor never takes it out. After a failsafe retry that does not come online, `delete tmpBaseConn` leaves the ECHO_REQUEST entry pointing into the deleted connection, and the next ECHO_REQUEST on any connection calls through it | a pool with an offline connection while the application server is down: the failsafe retry fails, and the server then sends an ECHO_REQUEST on another live connection | an echo action that belongs to no connection (it only writes to the connection it is handed, baseconn.hpp:539-542), so every connection answers an ECHO_REQUEST itself | not executed | AppClient.FailedRetryDangles, AppClient.SweepEchoSafeIffLastOnline | AppConn.Create, AppConn.CreatedAnswersEcho |

=== FILE: appclient.dfy ===
/** A client: a pool of connections to one server, one per index of a
    range, configured from properties, with a periodic sweep that replaces
    the members that are not online. Each connection attempt's outcome (the
    socket opened, the registration response) is an input. */
module AppClient {
  import opened Bytes
  import opened Wrappers
  import opened Messages
  import opened MessageTypes
  import opened BaseConn
  import opened AppConn
  import opened Properties

  const CLIENT_OFFLINE := 0
  const CLIENT_ONLINE := 1
  const FAILSAFE_PERIOD := 8000

  const ADDRESS := "address"
  const PORT := "port"
  const CONN_INDEX := "connIndex"
  const SIZE := "size"
  const REGISTRABLE := "registrable"
  const FAILSAFE := "failsafe"

  // ---------------------------------------------------------------------
  // atoi

  predicate IsCSpace(c: char) {
    c == ' ' || c == '\t' || c == '\n' || c == '\r' || c == 11 as char || c == 12 as char
  }

  predicate IsDigit(c: char) { '0' <= c <= '9' }

  function DigitOf(c: char): (d: nat)
    requires IsDigit(c)
    ensures d < 10
  {
    c as int - '0' as int
  }

  function DigitsValue(s: string): (n: nat)
    requires forall i :: 0 <= i < |s| ==> IsDigit(s[i])
    decreases |s|
  {
    if |s| == 0 then 0
    else
      var c := s[|s| - 1];
      assert IsDigit(c);
      DigitsValue(s[..|s| - 1]) * 10 + DigitOf(c)
  }

  /** The longest prefix of decimal digits. */
  function LeadingDigits(s: string): (d: string)
    ensures d <= s && forall i :: 0 <= i < |d| ==> IsDigit(d[i])
    ensures |d| < |s| ==> !IsDigit(s[|d|])
    decreases |s|
  {
    if |s| > 0 && IsDigit(s[0]) then [s[0]] + LeadingDigits(s[1..]) else []
  }

  /** The text after the leading white space. */
  function SkipSpaces(s: string): (r: string)
    ensures |r| <= |s| && r == s[|s| - |r|..]
    ensures forall i :: 0 <= i < |s| - |r| ==> IsCSpace(s[i])
    ensures |r| > 0 ==> !IsCSpace(r[0])
    decreases |s|
  {
    if |s| > 0 && IsCSpace(s[0]) then
      var r := SkipSpaces(s[1..]);
      assert forall i :: 1 <= i < |s| - |r| ==> s[i] == s[1..][i - 1];
      r
    else s
  }

  /** The largest `int`: `atoi` of a longer number is undefined in C. */
  const INT_MAX := 0x7fff_ffff

  /** `atoi`: leading white space, an optional sign, then digits up to the
      first other character; 0 when there are none. Only a minus sign makes
      the result negative. */
  function Atoi(s: string): (r: int)
    ensures var t := SkipSpaces(s);
      r < 0 ==> |t| > 1 && t[0] == '-' && IsDigit(t[1])
    ensures var t := SkipSpaces(s);
      (|t| == 0 || (!IsDigit(t[0]) && (|t| == 1 || !IsDigit(t[1]) || (t[0] != '-' && t[0] != '+')))) ==>
        r == 0
  {
    var t := SkipSpaces(s);
    if |t| > 0 && t[0] == '-' then -(DigitsValue(LeadingDigits(t[1..])) as int)
    else if |t| > 0 && t[0] == '+' then DigitsValue(LeadingDigits(t[1..]))
    else DigitsValue(LeadingDigits(t))
  }

  /** The text of a natural number reads back as that number. */
  function NatText(n: nat): (s: string)
    ensures |s| > 0 && forall i :: 0 <= i < |s| ==> IsDigit(s[i])
    decreases n
  {
    if n < 10 then [('0' as int + n) as char]
    else NatText(n / 10) + [('0' as int + n % 10) as char]
  }

  lemma {:induction false} DigitsOfNatText(n: nat)
    ensures DigitsValue(NatText(n)) == n
    decreases n
  {
    if n >= 10 {
      var s := NatText(n);
      assert s[..|s| - 1] == NatText(n / 10);
      DigitsOfNatText(n / 10);
    }
  }

  lemma {:induction false} LeadingDigitsAll(s: string)
    requires forall i :: 0 <= i < |s| ==> IsDigit(s[i])
    ensures LeadingDigits(s) == s
    decreases |s|
  {
    if |s| > 0 {
      LeadingDigitsAll(s[1..]);
    }
  }

  /** The decimal text of a number within `int` reads back as that number. */
  lemma AtoiNatText(n: nat)
    requires n <= INT_MAX
    ensures Atoi(NatText(n)) == n
  {
    var s := NatText(n);
    assert IsDigit(s[0]);
    assert SkipSpaces(s) == s by {
      assert !IsCSpace(s[0]);
    }
    assert Atoi(s) == DigitsValue(LeadingDigits(s)) by {
      assert s[0] != '-' && s[0] != '+';
    }
    LeadingDigitsAll(s);
    DigitsOfNatText(n);
  }

  /** A minus sign before the text of a number negates it, down to the
      smallest `int`. */
  lemma AtoiNegText(n: nat)
    requires n <= INT_MAX + 1
    ensures Atoi("-" + NatText(n)) == -(n as int)
  {
    var s := "-" + NatText(n);
    assert !IsCSpace(s[0]);
    assert SkipSpaces(s) == s;
    assert s[1..] == NatText(n);
    LeadingDigitsAll(NatText(n));
    DigitsOfNatText(n);
  }

  /** Leading white space does not change the number read. */
  lemma AtoiSkipsSpace(c: char, s: string)
    requires IsCSpace(c)
    ensures Atoi([c] + s) == Atoi(s)
  {
    assert ([c] + s)[1..] == s;
  }

  // ---------------------------------------------------------------------
  // Configuration

  datatype Config = Config(address: string, port: int, connIndex: int, size: int,
                           registrable: bool, failsafe: bool)

  /** A numeric property: the default when absent, a failure when present
      but empty. */
  function NumberProperty(p: PropertyMap, key: string, default: string): (r: Option<int>)
    ensures r.None? <==> GetPropertyOr(p, key, default) == ""
    ensures r.Some? ==> r.value == Atoi(GetPropertyOr(p, key, default))
  {
    var text := GetPropertyOr(p, key, default);
    if |text| > 0 then Some(Atoi(text)) else None
  }

  /** The default port written out in decimal. */
  const DEFAULT_PORT_TEXT := "8482"

  lemma DefaultPortText()
    ensures NatText(DEFAULT_PORT) == DEFAULT_PORT_TEXT
    ensures Atoi(DEFAULT_PORT_TEXT) == DEFAULT_PORT
  {
    assert NatText(8) == "8";
    assert NatText(84) == NatText(8) + "4" == "84";
    assert NatText(848) == NatText(84) + "8" == "848";
    assert NatText(8482) == NatText(848) + "2" == "8482";
    AtoiNatText(DEFAULT_PORT);
  }

  /** `setProperties`. */
  function SetProperties(p: Option<PropertyMap>): (r: Option<Config>)
    ensures r.Some? <==>
      (p.Some? && GetProperty(p.value, ADDRESS) != "" &&
       (PORT in p.value ==> p.value[PORT] != "") &&
       (CONN_INDEX in p.value ==> p.value[CONN_INDEX] != "") &&
       (SIZE in p.value ==> p.value[SIZE] != ""))
    ensures r.Some? ==>
      var props := p.value;
      r.value.address == GetProperty(props, ADDRESS) &&
      r.value.port == Atoi(GetPropertyOr(props, PORT, "8482")) &&
      r.value.connIndex == Atoi(GetPropertyOr(props, CONN_INDEX, "0")) &&
      r.value.size == Atoi(GetPropertyOr(props, SIZE, "8")) &&
      (r.value.registrable <==> GetPropertyOr(props, REGISTRABLE, "true") == "true") &&
      (r.value.failsafe <==> GetPropertyOr(props, FAILSAFE, "true") == "true")
  {
    if p.None? then None
    else
      var props := p.value;
      var address := GetProperty(props, ADDRESS);
      if |address| == 0 then None
      else
        match NumberProperty(props, PORT, DEFAULT_PORT_TEXT)
        case None => None
        case Some(port) =>
          match NumberProperty(props, CONN_INDEX, "0")
          case None => None
          case Some(connIndex) =>
            match NumberProperty(props, SIZE, "8")
            case None => None
            case Some(size) =>
              Some(Config(address, port, connIndex, size,
                          GetPropertyOr(props, REGISTRABLE, "true") == "true",
                          GetPropertyOr(props, FAILSAFE, "true") == "true"))
  }

  /** With none of the optional keys set, the defaults apply. */
  lemma Defaults(address: string)
    requires address != ""
    ensures var r := SetProperties(Some(map[ADDRESS := address]));
      r == Some(Config(address, 8482, 0, 8, true, true))
  {
    var props := map[ADDRESS := address];
    assert PORT !in props && CONN_INDEX !in props && SIZE !in props by {
      assert PORT[0] != ADDRESS[0] && CONN_INDEX[0] != ADDRESS[0] && SIZE[0] != ADDRESS[0];
    }
    assert REGISTRABLE !in props && FAILSAFE !in props by {
      assert REGISTRABLE[0] != ADDRESS[0] && FAILSAFE[0] != ADDRESS[0];
    }
    assert GetPropertyOr(props, PORT, "8482") == "8482";
    assert GetPropertyOr(props, CONN_INDEX, "0") == "0";
    assert GetPropertyOr(props, SIZE, "8") == "8";
    assert GetPropertyOr(props, REGISTRABLE, "true") == "true";
    assert GetPropertyOr(props, FAILSAFE, "true") == "true";
    assert GetProperty(props, ADDRESS) == address;
    DefaultNumbers();
    var r := SetProperties(Some(props));
    assert r.Some?;
    assert r.value.address == address && r.value.port == 8482 && r.value.connIndex == 0 && r.value.size == 8;
    assert r.value.registrable && r.value.failsafe;
  }

  /** The default texts of the port, the first index and the size read as
      their numbers. */
  lemma DefaultNumbers()
    ensures Atoi("8482") == DEFAULT_PORT && Atoi("0") == 0 && Atoi("8") == 8
  {
    DefaultPortText();
    assert NatText(0) == "0";
    AtoiNatText(0);
    assert NatText(8) == "8";
    AtoiNatText(8);
  }

  // ---------------------------------------------------------------------
  // Pool

  /** The outcome of one connection attempt. */
  datatype Attempt = Attempt(connected: bool, arrived: Option<Message>)

  datatype Client = Client(clientId: int, clientState: int, cache: ConnCache, config: Config,
                           types: TypeCollection, actions: ActionCollection)

  /** The connection `new AppConn(types, actions, address, port, clientId,
      index, registrable)` leaves behind, given how the attempt went. */
  function Connect(types: TypeCollection, actions: ActionCollection, clientId: int,
                   index: int, registrable: bool, a: Attempt): (c: Conn)
    ensures c.connIndex == index
  {
    CreateOutcome(types, actions, clientId, index, registrable, a.connected, a.arrived)
  }

  /** A connection maker keeps the index it is given, as the connection
      constructor does. */
  ghost predicate KeepsIndex(connect: (int, bool) -> Conn) {
    forall k, registrable :: connect(k, registrable).connIndex == k
  }

  /** The makers the client uses: the connection constructor for the
      client's collections and id, each index with its own attempt. */
  lemma ConnectKeepsIndex(types: TypeCollection, actions: ActionCollection, clientId: int,
                          attempt: int -> Attempt)
    ensures KeepsIndex((k, registrable) => Connect(types, actions, clientId, k, registrable, attempt(k)))
    ensures RetryKeepsIndex((m: Conn, registrable) =>
              Connect(m.types, m.actions, clientId, m.connIndex, registrable, attempt(m.connIndex)))
  {
    var connect := (k, registrable) => Connect(types, actions, clientId, k, registrable, attempt(k));
    forall k, registrable ensures connect(k, registrable).connIndex == k {
      assert connect(k, registrable) == Connect(types, actions, clientId, k, registrable, attempt(k));
    }
    var retry := (m: Conn, registrable) =>
      Connect(m.types, m.actions, clientId, m.connIndex, registrable, attempt(m.connIndex));
    forall m, registrable ensures retry(m, registrable).connIndex == m.connIndex {
      assert retry(m, registrable) ==
        Connect(m.types, m.actions, clientId, m.connIndex, registrable, attempt(m.connIndex));
    }
  }

  /** The constructor: None when the properties are not well defined (the
      source throws); otherwise `connect(k, registrable)` for each index of
      `[connIndex, connIndex + size)`, online iff one of them is. The
      connections are a parameter: each one opens a socket (see
      `ConnectKeepsIndex` for the maker the source uses). */
  method NewClient(clientId: int, p: Option<PropertyMap>, types: TypeCollection,
                   actions: ActionCollection, connect: (int, bool) -> Conn)
    returns (client: Option<Client>)
    requires KeepsIndex(connect)
    ensures client.None? <==> SetProperties(p).None?
    ensures client.Some? ==>
      var cfg := SetProperties(p).value;
      var cl := client.value;
      cl.config == cfg && cl.clientId == clientId && ValidCache(cl.cache) &&
      (forall k :: cfg.connIndex <= k < cfg.connIndex + cfg.size && k > -1 ==>
         Lookup(cl.cache.entries, k) == Some(connect(k, cfg.registrable))) &&
      (forall k :: !(cfg.connIndex <= k < cfg.connIndex + cfg.size && k > -1) ==>
         Lookup(cl.cache.entries, k).None?) &&
      (cl.clientState == CLIENT_ONLINE <==>
         exists k :: cfg.connIndex <= k < cfg.connIndex + cfg.size && IsOnline(connect(k, cfg.registrable)))
    ensures client.Some? ==> client.value.clientState in {CLIENT_ONLINE, CLIENT_OFFLINE}
  {
    var config := SetProperties(p);
    if config.None? {
      return None;
    }
    var cfg := config.value;
    var cache, online := BuildPool(cfg.connIndex, cfg.size, connect, cfg.registrable);
    var state := if online then CLIENT_ONLINE else CLIENT_OFFLINE;
    client := Some(Client(clientId, state, cache, cfg, types, actions));
  }

  /** The loop of the constructor: a connection for every index of
      `[lo, lo + size)` added to an empty pool. */
  method BuildPool(lo: int, size: int, connect: (int, bool) -> Conn, registrable: bool)
    returns (cache: ConnCache, online: bool)
    requires KeepsIndex(connect)
    ensures ValidCache(cache)
    ensures forall k :: lo <= k < lo + size && k > -1 ==>
      Lookup(cache.entries, k) == Some(connect(k, registrable))
    ensures forall k :: !(lo <= k < lo + size && k > -1) ==> Lookup(cache.entries, k).None?
    ensures online <==> exists k :: lo <= k < lo + size && IsOnline(connect(k, registrable))
  {
    cache := NewCache();
    online := false;
    var k := lo;
    while k < lo + size
      invariant lo <= k || (size <= 0 && k == lo)
      invariant k <= lo + size || (size <= 0 && k == lo)
      invariant ValidCache(cache)
      invariant forall j :: lo <= j < k && j > -1 ==> Lookup(cache.entries, j) == Some(connect(j, registrable))
      invariant forall j :: !(lo <= j < k && j > -1) ==> Lookup(cache.entries, j).None?
      invariant online <==> exists j :: lo <= j < k && IsOnline(connect(j, registrable))
      decreases lo + size - k
    {
      var conn := connect(k, registrable);
      if IsOnline(conn) {
        online := true;
      }
      PoolStep(cache, lo, k, connect, registrable);
      cache := Add(cache, Some(conn));
      k := k + 1;
    }
  }

  /** Adding the connection for index `k` extends a pool that holds exactly
      the indexes of `[lo, k)` to one that holds exactly those of `[lo, k]`. */
  lemma PoolStep(cache: ConnCache, lo: int, k: int, connect: (int, bool) -> Conn, registrable: bool)
    requires KeepsIndex(connect) && ValidCache(cache) && lo <= k
    requires forall j :: lo <= j < k && j > -1 ==> Lookup(cache.entries, j) == Some(connect(j, registrable))
    requires forall j :: !(lo <= j < k && j > -1) ==> Lookup(cache.entries, j).None?
    ensures var next := Add(cache, Some(connect(k, registrable)));
      (forall j :: lo <= j < k + 1 && j > -1 ==> Lookup(next.entries, j) == Some(connect(j, registrable))) &&
      (forall j :: !(lo <= j < k + 1 && j > -1) ==> Lookup(next.entries, j).None?)
  {
    assert connect(k, registrable).connIndex == k;
  }

  /** A retry maker keeps the index of the member it replaces. */
  ghost predicate RetryKeepsIndex(retry: (Conn, bool) -> Conn) {
    forall m, registrable :: retry(m, registrable).connIndex == m.connIndex
  }

  /** A member after the sweep has looked at it: kept when online, else
      replaced by the retry at its index when that one is online. */
  function Repaired(client: Client, retry: (Conn, bool) -> Conn, m: Conn): (r: Conn)
    requires RetryKeepsIndex(retry)
    ensures IsOnline(m) ==> r == m
    ensures !IsOnline(m) && IsOnline(retry(m, client.config.registrable)) ==>
      r == retry(m, client.config.registrable)
    ensures !IsOnline(m) && !IsOnline(retry(m, client.config.registrable)) ==> r == m
    ensures r.connIndex == m.connIndex
  {
    if IsOnline(m) then m
    else
      var again := retry(m, client.config.registrable);
      if IsOnline(again) then again else m
  }

  /** Whether the sweep brings a member, or its replacement, online. */
  predicate ComesOnline(client: Client, retry: (Conn, bool) -> Conn, m: Conn) {
    IsOnline(m) || IsOnline(retry(m, client.config.registrable))
  }

  /** The failsafe sweep: members online stay; a member that is not online is
      replaced by a retry (`new AppConn` for the member's collections and
      index) only when that retry comes up online. The client is online iff
      some member was online or was replaced. */
  method FailsafeSweep(client: Client, retry: (Conn, bool) -> Conn) returns (r: Client)
    requires ValidCache(client.cache)
    requires RetryKeepsIndex(retry)
    ensures ValidCache(r.cache)
    ensures forall k ::
              Lookup(r.cache.entries, k) ==
              (if Lookup(client.cache.entries, k).None? then None
               else Some(Repaired(client, retry, Lookup(client.cache.entries, k).value)))
    ensures r.clientState == CLIENT_ONLINE <==>
      exists i :: 0 <= i < |client.cache.entries| && ComesOnline(client, retry, client.cache.entries[i])
    ensures r.clientState != CLIENT_ONLINE ==> r.clientState == CLIENT_OFFLINE
    ensures r == client.(cache := r.cache, clientState := r.clientState)
  {
    var members := GetVector(client.cache);
    assert members == client.cache.entries;
    var cache, online := SweepMembers(client, retry, members);
    SweepPrefixSwept(client, retry, members, |members|);
    SweptAll(cache, members, client, retry);
    AnyComesOnlineExists(client, retry, members, |members|);
    r := client.(cache := cache, clientState := if online then CLIENT_ONLINE else CLIENT_OFFLINE);
  }

  /** Every member of a valid pool has an index. */
  predicate Indexed(members: seq<Conn>) {
    forall j :: 0 <= j < |members| ==> members[j].connIndex > -1
  }

  /** The reference sweep: the cache after the first i members have been
      looked at, one after the other, and whether one of them, or its retry,
      came online. */
  function SweepState(client: Client, retry: (Conn, bool) -> Conn, members: seq<Conn>, i: nat)
    : (r: (ConnCache, bool))
    requires ValidCache(client.cache) && RetryKeepsIndex(retry)
    requires i <= |members| && Indexed(members)
    ensures ValidCache(r.0)
    decreases i
  {
    if i == 0 then (client.cache, false)
    else
      var before := SweepState(client, retry, members, i - 1);
      (SweepMember(before.0, client, retry, members[i - 1]),
       before.1 || ComesOnline(client, retry, members[i - 1]))
  }

  /** The loop of the sweep over the members, in index order. */
  method SweepMembers(client: Client, retry: (Conn, bool) -> Conn, members: seq<Conn>)
    returns (cache: ConnCache, online: bool)
    requires ValidCache(client.cache) && members == client.cache.entries
    requires RetryKeepsIndex(retry)
    ensures Indexed(members)
    ensures (cache, online) == SweepState(client, retry, members, |members|)
  {
    cache := client.cache;
    online := false;
    var i := 0;
    while i < |members|
      invariant 0 <= i <= |members|
      invariant (cache, online) == SweepState(client, retry, members, i)
    {
      // a member that is online stays; one that is not is retried
      cache, online :=
        SweepMember(cache, client, retry, members[i]), online || ComesOnline(client, retry, members[i]);
      i := i + 1;
    }
  }

  /** The reference sweep repairs exactly the members it has looked at. */
  lemma {:induction false} SweepPrefixSwept(client: Client, retry: (Conn, bool) -> Conn,
                                            members: seq<Conn>, i: nat)
    requires ValidCache(client.cache) && members == client.cache.entries
    requires RetryKeepsIndex(retry) && i <= |members|
    ensures SweptUpTo(SweepState(client, retry, members, i).0, members, client, retry, i)
    decreases i
  {
    if i > 0 {
      SweepPrefixSwept(client, retry, members, i - 1);
      SweepStep(SweepState(client, retry, members, i - 1).0, members, client, retry, i - 1);
    } else {
      forall k ensures SweptAt(client.cache, members, client, retry, 0, k) {
      }
    }
  }

  /** The online flag of the sweep holds iff some member looked at comes
      online. */
  lemma {:induction false} AnyComesOnlineExists(client: Client, retry: (Conn, bool) -> Conn,
                                                members: seq<Conn>, i: nat)
    requires ValidCache(client.cache) && RetryKeepsIndex(retry)
    requires i <= |members| && Indexed(members)
    ensures SweepState(client, retry, members, i).1 <==>
      exists j :: 0 <= j < i && ComesOnline(client, retry, members[j])
    decreases i
  {
    if i > 0 {
      AnyComesOnlineExists(client, retry, members, i - 1);
      SweepOnlineStep(members, client, retry, i - 1);
    }
  }

  /** The pool after the sweep has looked at the first i members: those are
      repaired, the others untouched. */
  ghost predicate SweptUpTo(cache: ConnCache, members: seq<Conn>, client: Client,
                            retry: (Conn, bool) -> Conn, i: int)
    requires RetryKeepsIndex(retry)
  {
    Sorted(members) && ValidCache(cache) &&
    forall k :: SweptAt(cache, members, client, retry, i, k)
  }

  /** The entry of index k after the sweep has looked at the first i
      members. */
  ghost predicate SweptAt(cache: ConnCache, members: seq<Conn>, client: Client,
                          retry: (Conn, bool) -> Conn, i: int, k: int)
    requires RetryKeepsIndex(retry)
  {
    Lookup(cache.entries, k) ==
    (if Lookup(members, k).None? then None
     else if IndexBefore(members, k, i)
     then Some(Repaired(client, retry, Lookup(members, k).value))
     else Lookup(members, k))
  }

  /** The cache after the sweep has looked at member m. */
  function SweepMember(cache: ConnCache, client: Client, retry: (Conn, bool) -> Conn, m: Conn): (r: ConnCache)
    requires ValidCache(cache) && RetryKeepsIndex(retry) && m.connIndex > -1
    ensures ValidCache(r)
  {
    var again := retry(m, client.config.registrable);
    if !IsOnline(m) && IsOnline(again) then Add(cache, Some(again)) else cache
  }

  /** Looking at member m repairs the entry of its index and leaves every
      other entry alone. */
  lemma SweepMemberLookup(cache: ConnCache, client: Client, retry: (Conn, bool) -> Conn, m: Conn)
    requires ValidCache(cache) && RetryKeepsIndex(retry) && m.connIndex > -1
    ensures var r := SweepMember(cache, client, retry, m);
      Lookup(r.entries, m.connIndex) ==
        (if !IsOnline(m) && IsOnline(retry(m, client.config.registrable))
         then Some(Repaired(client, retry, m)) else Lookup(cache.entries, m.connIndex)) &&
      forall k :: k != m.connIndex ==> Lookup(r.entries, k) == Lookup(cache.entries, k)
  {
  }

  /** One round of the sweep. */
  lemma SweepStep(cache: ConnCache, members: seq<Conn>, client: Client,
                  retry: (Conn, bool) -> Conn, i: int)
    requires RetryKeepsIndex(retry)
    requires 0 <= i < |members| && members[i].connIndex > -1
    requires SweptUpTo(cache, members, client, retry, i)
    ensures SweptUpTo(SweepMember(cache, client, retry, members[i]), members, client, retry, i + 1)
  {
    var m := members[i];
    var next := SweepMember(cache, client, retry, m);
    var i' := i + 1;
    SweepMemberLookup(cache, client, retry, m);
    SortedLookup(members, i);
    forall k ensures SweptAt(next, members, client, retry, i', k) {
      assert SweptAt(cache, members, client, retry, i, k);
      IndexBeforeNext(members, i, k);
    }
  }

  /** The online flag after one more round. */
  lemma SweepOnlineStep(members: seq<Conn>, client: Client, retry: (Conn, bool) -> Conn, i: int)
    requires 0 <= i < |members|
    ensures (exists j :: 0 <= j < i + 1 && ComesOnline(client, retry, members[j])) <==>
      (exists j :: 0 <= j < i && ComesOnline(client, retry, members[j])) ||
      ComesOnline(client, retry, members[i])
  {
    if ComesOnline(client, retry, members[i]) {
      assert 0 <= i < i + 1;
    }
  }

  /** Once every member has been looked at, every member is repaired. */
  lemma SweptAll(cache: ConnCache, members: seq<Conn>, client: Client, retry: (Conn, bool) -> Conn)
    requires RetryKeepsIndex(retry)
    requires SweptUpTo(cache, members, client, retry, |members|)
    ensures forall k ::
      Lookup(cache.entries, k) ==
      (if Lookup(members, k).None? then None else Some(Repaired(client, retry, Lookup(members, k).value)))
  {
    var n := |members|;
    forall k ensures Lookup(cache.entries, k) ==
      (if Lookup(members, k).None? then None else Some(Repaired(client, retry, Lookup(members, k).value)))
    {
      assert SweptAt(cache, members, client, retry, n, k);
      if Lookup(members, k).Some? {
        var j :| 0 <= j < n && members[j].connIndex == k;
        assert IndexBefore(members, k, n);
      }
    }
  }

  /** The member of index k sits at a position before i. */
  predicate IndexBefore(es: seq<Conn>, k: int, i: int) {
    exists j :: 0 <= j < i && j < |es| && es[j].connIndex == k
  }

  lemma SortedLookup(es: seq<Conn>, i: int)
    requires Sorted(es) && 0 <= i < |es|
    ensures Lookup(es, es[i].connIndex) == Some(es[i])
    decreases i
  {
    if i > 0 {
      assert es[0].connIndex != es[i].connIndex;
      assert forall j :: 0 <= j < |es| - 1 ==> es[1..][j] == es[j + 1];
      SortedLookup(es[1..], i - 1);
    }
  }

  lemma IndexBeforeNext(es: seq<Conn>, i: int, k: int)
    requires Sorted(es) && 0 <= i < |es|
    ensures IndexBefore(es, k, i + 1) <==> IndexBefore(es, k, i) || k == es[i].connIndex
  {
  }

  // ---------------------------------------------------------------------
  // The shared echo action, as written

  /** The ECHO_REQUEST entry of the one action collection all connections
      share. Each connection constructor files a pointer to its own echo
      action there, replacing the one filed before, and no destructor takes
      it out. Connections are numbered in the order they are constructed:
      `owner` is the connection whose echo action is filed, `live` the
      connections not deleted yet, `built` how many were constructed. */
  datatype EchoEntry = EchoEntry(owner: Option<nat>, live: set<nat>, built: nat)

  /** An ECHO_REQUEST on any connection reaches an action that still exists. */
  function EchoSafe(e: EchoEntry): (safe: bool)
    ensures safe <==> forall id :: e.owner == Some(id) ==> id in e.live
  {
    e.owner.Some? ==> e.owner.value in e.live
  }

  /** `new AppConn(...)`: the new connection's echo action replaces the
      filed one. */
  function ConstructAsWritten(e: EchoEntry): (r: EchoEntry)
    ensures EchoSafe(r) && r.owner == Some(e.built) && r.built == e.built + 1
    ensures forall id :: id in r.live <==> id in e.live || id == e.built
  {
    EchoEntry(Some(e.built), e.live + {e.built}, e.built + 1)
  }

  /** One failsafe retry of member `retried`: a new connection is constructed;
      if it comes online the cache files it and deletes `retried`, otherwise it
      is deleted itself. */
  function RetryAsWritten(e: EchoEntry, retried: nat, online: bool): (r: EchoEntry)
    ensures r.owner == Some(e.built) && r.built == e.built + 1
    ensures retried != e.built ==> (EchoSafe(r) <==> online)
    ensures online ==> forall id :: id in r.live <==> (id in e.live || id == e.built) && id != retried
    ensures !online ==> forall id :: id in r.live <==> id in e.live && id != e.built
  {
    var b := ConstructAsWritten(e);
    if online then b.(live := b.live - {retried}) else b.(live := b.live - {e.built})
  }

  /** The retries of one sweep, in order, with how each went. */
  function RetriesAsWritten(e: EchoEntry, members: seq<nat>, online: seq<bool>): (r: EchoEntry)
    requires |members| == |online|
    ensures r.built == e.built + |members|
    ensures |members| == 0 ==> r == e
    ensures |members| > 0 ==> r.owner == Some(r.built - 1)
    decreases |members|
  {
    if |members| == 0 then e
    else RetriesAsWritten(RetryAsWritten(e, members[0], online[0]), members[1..], online[1..])
  }

  /** A pool of one connection that is offline, and a retry that does not
      come online either: the entry is left pointing into the deleted
      connection, and the next ECHO_REQUEST on any connection calls through
      it. */
  lemma FailedRetryDangles()
    ensures var pool := ConstructAsWritten(EchoEntry(None, {}, 0));
      EchoSafe(pool) && !EchoSafe(RetryAsWritten(pool, 0, false))
  {
  }

  /** After a sweep that retried anything, ECHO_REQUEST is safe exactly when
      the last retry came online. */
  lemma {:induction false} SweepEchoSafeIffLastOnline(e: EchoEntry, members: seq<nat>, online: seq<bool>)
    requires |members| == |online| > 0
    requires forall i :: 0 <= i < |members| ==> members[i] < e.built
    ensures EchoSafe(RetriesAsWritten(e, members, online)) <==> online[|online| - 1]
    decreases |members|
  {
    var e1 := RetryAsWritten(e, members[0], online[0]);
    if |members| == 1 {
      assert RetriesAsWritten(e1, members[1..], online[1..]) == e1;
    } else {
      assert forall i :: 0 <= i < |members[1..]| ==> members[1..][i] == members[i + 1];
      SweepEchoSafeIffLastOnline(e1, members[1..], online[1..]);
      assert online[1..][|online[1..]| - 1] == online[|online| - 1];
    }
  }
}

=== FILE: appconn.dfy ===
/** The client connection: how the read loop cuts the inbound octet stream
    into frames, how an inbound frame is routed, how an outbound message is
    dispatched, the echo watchdog, registration and the constructor's
    outcome. Socket I/O becomes a given octet stream, and each wait for a
    response becomes an input: the response that arrived, or none. */
module AppConn {
  import opened Bytes
  import opened Wrappers
  import opened IeTypes
  import opened BasicIe
  import opened CompositeIe
  import opened Messages
  import opened MessageTypes
  import opened BaseConn

  const MAX_FAILED_ECHO := 2
  const ECHO_REQUEST_PERIOD := 32000
  const T_LENGTH := 4
  const BUFFER_LENGTH := 512

  // ---------------------------------------------------------------------
  // Read loop

  /** A TLV frame whose length octet is 0. The read loop then asks the socket
      for 0 octets; `recv` returns 0, which the socket's read treats as an
      error, so the frame is never handed over and the loop ends. */
  predicate EmptyTlvFrame(stream: seq<byte>) {
    |stream| >= T_LENGTH + 1 && !IsTypeValue(stream[3]) && stream[4] == 0
  }

  /** The length of the frame at the head of the stream: the 4-octet header
      and one more octet for a TV type, plus the octets the length octet
      announces for a TLV type; None when the stream ends first or the
      length octet of a TLV frame is 0. */
  function FrameLength(stream: seq<byte>): (n: Option<nat>)
    ensures n.Some? ==> 5 <= n.value <= |stream| && n.value <= 260
    ensures n.Some? ==> CompleteFrame(stream[..n.value]) && !EmptyTlvFrame(stream[..n.value])
    ensures n.Some? ==> n.value == if IsTypeValue(stream[3]) then 5 else 5 + stream[4] as int
    ensures n.Some? <==> CompleteFrame(stream) && !EmptyTlvFrame(stream)
  {
    if |stream| < T_LENGTH + 1 then None
    else if IsTypeValue(stream[3]) then Some(T_LENGTH + 1)
    else if stream[4] == 0 || |stream| < T_LENGTH + 1 + stream[4] as int then None
    else Some(T_LENGTH + 1 + stream[4] as int)
  }

  function Concat(frames: seq<seq<byte>>): seq<byte>
    decreases |frames|
  {
    if |frames| == 0 then [] else frames[0] + Concat(frames[1..])
  }

  /** The frames the read loop hands over, each socket read returning all
      the octets it asks for: the loop stops at a frame the stream holds
      only in part and at a TLV frame with length octet 0. The frames are
      the stream's leading octets, cut in order. */
  function ReadFrames(stream: seq<byte>): (frames: seq<seq<byte>>)
    ensures forall i :: 0 <= i < |frames| ==>
      CompleteFrame(frames[i]) && !EmptyTlvFrame(frames[i]) && |frames[i]| <= BUFFER_LENGTH
    ensures Concat(frames) <= stream
    ensures FrameLength(stream).None? <==> frames == []
    decreases |stream|
  {
    match FrameLength(stream)
    case None => []
    case Some(n) =>
      var rest := ReadFrames(stream[n..]);
      assert ([stream[..n]] + rest)[1..] == rest;
      assert stream == stream[..n] + stream[n..];
      [stream[..n]] + rest
  }

  /** A frame is exactly as long as its header says. */
  predicate ExactFrame(frame: seq<byte>) {
    FrameLength(frame) == Some(|frame|)
  }

  /** A message whose frame the read loop takes back: a TV message, or a TLV
      message with at least one element. */
  predicate Readable(m: Message) {
    m.body.TvBody? || m.body.ies != map[]
  }

  /** The octets written for a message form an exact frame, except for a TLV
      message without elements, whose length octet is 0. */
  lemma ExactFrameOfMessage(m: Message)
    requires RepresentableMessage(m)
    ensures ExactFrame(GetMessage(m)) <==> Readable(m)
  {
    var frame := GetMessage(m);
    if m.body.TlvBody? {
      var p := Payload(m.body.ies);
      assert frame[4] as int == |p|;
    } else {
      assert |frame| == 5;
    }
  }

  /** Cutting the concatenation of exact frames gives back those frames. */
  lemma {:induction false} ReadConcat(frames: seq<seq<byte>>)
    requires forall i :: 0 <= i < |frames| ==> ExactFrame(frames[i])
    ensures ReadFrames(Concat(frames)) == frames
    decreases |frames|
  {
    if |frames| > 0 {
      var f, s := frames[0], Concat(frames);
      assert s == f + Concat(frames[1..]);
      assert s[..|f|] == f;
      assert s[|f|..] == Concat(frames[1..]);
      assert FrameLength(s) == Some(|f|);
      ReadConcat(frames[1..]);
    }
  }

  // ---------------------------------------------------------------------
  // Inbound routing

  /** What the inbound handler does with one frame. */
  datatype Route =
    | NotSupported(reply: Message)               // unsupported version: advice written back
    | RunAction(action: MessageAction, message: Message)
    | NoAction(message: Message)                 // request or advice without a registered action
    | DeliverResponse(message: Message)
    | Dropped(message: Message)                  // type not in the registry

  predicate HandlerInput(frame: seq<byte>) {
    |frame| >= 5 && (frame[0] == VERSION ==> DecodableFrame(frame))
  }

  /** `BinHandler::run`. */
  function RouteFrame(c: Conn, frame: seq<byte>): (r: Route)
    requires HandlerInput(frame)
    ensures frame[0] != VERSION <==> r.NotSupported?
    ensures r.NotSupported? ==>
      r.reply.version == VERSION && r.reply.mtype == 0x00 && r.reply.body == TvBody(VERSION) &&
      r.reply.sequenceNumber == FrameSequenceNumber(frame)
    ensures !r.NotSupported? ==> r.message == ParseFrame(frame)
    ensures r.RunAction? <==> (frame[0] == VERSION && frame[3] in c.types &&
                               (c.types[frame[3]].IsRequest() || c.types[frame[3]].IsAdvice()) &&
                               frame[3] in c.actions)
    ensures r.RunAction? ==> r.action == c.actions[frame[3]]
    ensures r.DeliverResponse? <==> (frame[0] == VERSION && frame[3] in c.types &&
                                     !c.types[frame[3]].IsRequest() && !c.types[frame[3]].IsAdvice())
    ensures r.Dropped? <==> frame[0] == VERSION && frame[3] !in c.types
  {
    var sn := FrameSequenceNumber(frame);
    if frame[0] != VERSION then
      NotSupported(NewMessage(VERSION, sn, VERSION_NOT_SUPPORTED_ADVICE.mtype, VERSION, []))
    else
      var m := ParseFrame(frame);
      match Find(c.types, frame[3])
      case None => Dropped(m)
      case Some(mt) =>
        GroupsExclusive(mt);
        if mt.IsRequest() || mt.IsAdvice() then
          match Find(c.actions, frame[3])
          case Some(a) => RunAction(a, m)
          case None => NoAction(m)
        else DeliverResponse(m)
  }

  /** The transition of the inbound handler at this level: a reply for an
      unsupported version, the echo action, or a response handed to its
      handler; other actions are run by their owners. */
  function HandleFrame(c: Conn, frame: seq<byte>): (r: (Conn, seq<Message>))
    requires HandlerInput(frame)
    ensures RouteFrame(c, frame).DeliverResponse? ==> r == (SetResponse(c, ParseFrame(frame)), [])
    ensures !RouteFrame(c, frame).DeliverResponse? ==> r.0 == c
    ensures RouteFrame(c, frame).NotSupported? ==> r.1 == Write(c, RouteFrame(c, frame).reply)
    ensures RouteFrame(c, frame).RunAction? && RouteFrame(c, frame).action.kind == EchoRequestAction ==>
              r.1 == Write(c, EchoReply(ParseFrame(frame)))
    ensures !RouteFrame(c, frame).NotSupported? &&
            !(RouteFrame(c, frame).RunAction? && RouteFrame(c, frame).action.kind == EchoRequestAction) ==>
              r.1 == []
    ensures |r.1| <= 1
  {
    match RouteFrame(c, frame)
    case NotSupported(reply) => (c, Write(c, reply))
    case RunAction(a, m) =>
      if a.kind == EchoRequestAction then (c, Write(c, EchoReply(m))) else (c, [])
    case NoAction(_) => (c, [])
    case DeliverResponse(m) => (SetResponse(c, m), [])
    case Dropped(_) => (c, [])
  }

  // ---------------------------------------------------------------------
  // Dispatch

  datatype Dispatched = Dispatched(conn: Conn, written: seq<Message>, future: Option<Future<Message>>)

  /** `Dispatcher::run`. The message gets a fresh sequence number. A request
      registers its handler, is written, waits for `arrived` (the response
      the inbound handler delivers before the time to live runs out, if
      any), and unregisters; without a response the caller's slot gets null.
      Advices and responses are written with no handler; unknown types are
      not written. A response for another sequence number belongs to another
      dispatcher and is not part of this transition. */
  function Dispatch(c: Conn, m: Message, future: Option<Future<Message>>,
                    arrived: Option<Message>): (d: Dispatched)
    ensures d.conn.sequenceNumber == NextSequenceNumber(c.sequenceNumber)
    ensures var sn := d.conn.sequenceNumber;
      var out := m.(sequenceNumber := sn);
      (m.mtype !in c.types ==> d.written == [] && d.future == future) &&
      (m.mtype in c.types && !c.types[m.mtype].IsRequest() ==>
         d.written == Write(c, out) && d.future == future) &&
      (m.mtype in c.types && c.types[m.mtype].IsRequest() ==>
         d.written == Write(c, out) &&
         d.conn.handlers.Keys == c.handlers.Keys - {sn} &&
         (future.Some? ==>
            (d.future.Some? && !d.future.value.waiting &&
             d.future.value.slot ==
               (if future.value.slot.Some? then future.value.slot
                else if arrived.Some? && arrived.value.sequenceNumber == sn then arrived
                else None))))
    ensures forall k :: k in d.conn.handlers ==> k in c.handlers && d.conn.handlers[k] == c.handlers[k]
  {
    var (c1, sn) := DrawSequenceNumber(c);
    var out := m.(sequenceNumber := sn);
    match Find(c1.types, m.mtype)
    case None => Dispatched(c1, [], future)
    case Some(mt) =>
      if mt.IsRequest() then
        var c2 := PutResponseHandler(c1, sn, NewHandler(future));
        var written := Write(c2, out);
        var c3 := if arrived.Some? && arrived.value.sequenceNumber == sn
                  then SetResponse(c2, arrived.value) else c2;
        var h := c3.handlers[sn];
        var c4 := RemoveResponseHandler(c3, sn);
        var h' := if h.response.None? then HandlerSetResponse(h, None) else h;
        Dispatched(c4, written, h'.future)
      else Dispatched(c1, Write(c1, out), future)
  }

  /** What a caller blocked on a fresh slot reads once the dispatch is over:
      the arrived response with the request's sequence number, else null. */
  function DispatchResult(c: Conn, m: Message, arrived: Option<Message>): (r: Option<Message>)
    requires m.mtype in c.types && c.types[m.mtype].IsRequest()
    ensures var sn := NextSequenceNumber(c.sequenceNumber);
      r == if arrived.Some? && arrived.value.sequenceNumber == sn then arrived else None
  {
    var d := Dispatch(c, m, Some(NewFuture()), arrived);
    d.future.value.slot
  }

  // ---------------------------------------------------------------------
  // Echo

  /** `registerFailedEcho`: one more failure; at the maximum the connection is
      cleared. */
  function RegisterFailedEcho(c: Conn): (r: Conn)
    ensures r.failedEcho == c.failedEcho + 1
    ensures r.failedEcho >= MAX_FAILED_ECHO ==> r == Clear(c).(failedEcho := r.failedEcho)
    ensures r.failedEcho < MAX_FAILED_ECHO ==> r == c.(failedEcho := r.failedEcho)
  {
    var c1 := c.(failedEcho := c.failedEcho + 1);
    if c1.failedEcho > MAX_FAILED_ECHO - 1 then Clear(c1) else c1
  }

  /** `scheduleEchoRequest`: the counter restarts (the timer is not part of
      this model). */
  function ScheduleEchoRequest(c: Conn): (r: Conn)
    ensures r == c.(failedEcho := 0)
  {
    c.(failedEcho := 0)
  }

  /** An echo fails on no response, a response of another type than the echo
      response, or a value other than 0xaa. */
  predicate EchoFailed(response: Option<Message>) {
    response.None? || response.value.mtype != ECHO_REQUEST.linkedType ||
    !(response.value.body.TvBody? && response.value.body.value == 0xaa)
  }

  function EchoRequest(): (m: Message)
    ensures ValidMessage(m) && m.mtype == 0x01 && m.body == TvBody(0xaa)
  {
    NewMessage(VERSION, 0, ECHO_REQUEST.mtype, 0xaa, [])
  }

  /** One firing of the echo timer on an online connection. */
  function EchoTick(c: Conn, arrived: Option<Message>): (r: (Conn, seq<Message>))
    requires ECHO_REQUEST.mtype in c.types && c.types[ECHO_REQUEST.mtype].IsRequest()
    ensures !IsOnline(c) ==> r == (c, [])
    ensures IsOnline(c) ==>
      var sn := NextSequenceNumber(c.sequenceNumber);
      var response := if arrived.Some? && arrived.value.sequenceNumber == sn then arrived else None;
      r.1 == Write(c, EchoRequest().(sequenceNumber := sn)) &&
      r.0.failedEcho == c.failedEcho + (if EchoFailed(response) then 1 else 0)
  {
    if !IsOnline(c) then (c, [])
    else
      var d := Dispatch(c, EchoRequest(), Some(NewFuture()), arrived);
      var response := DispatchResult(c, EchoRequest(), arrived);
      if EchoFailed(response) then (RegisterFailedEcho(d.conn), d.written)
      else (d.conn, d.written)
  }

  /** Two failed echoes in a row after scheduling clear the connection. */
  lemma TwoFailuresClear(c: Conn)
    ensures var r := RegisterFailedEcho(RegisterFailedEcho(ScheduleEchoRequest(c)));
      r.connState == OFFLINE && !r.socketOpen
    ensures IsOnline(c) ==> IsOnline(RegisterFailedEcho(ScheduleEchoRequest(c)))
  {
  }

  // ---------------------------------------------------------------------
  // Registration

  /** The node identity: the connection id as a Long and the connection
      index, narrowed to an octet, as a Byte. */
  function NodeIe(connId: int, connIndex: int): (node: CompositeIe)
    ensures node.ctype == NODE && node.TlvComposite?
  {
    TlvComposite(NODE, map[LONG := IeLong(connId), BYTE := IeByte(Truncate(connIndex))])
  }

  /** The node identity is what the vector constructor builds from the two
      elements, and reads back as the id and the narrowed index. */
  lemma NodeIeContents(connId: int, connIndex: int)
    ensures var node := NodeIe(connId, connIndex);
      ValidComposite(node) &&
      node == NewComposite(NODE, 0, [Basic(IeLong(connId)), Basic(IeByte(Truncate(connIndex)))]) &&
      GetIeLong(node) == connId && GetIeByte(node) == Truncate(connIndex)
  {
    var v := [Basic(IeLong(connId)), Basic(IeByte(Truncate(connIndex)))];
    assert PutAll(map[], v) == PutAll(PutIe(map[], v[0]), v[1..]);
    assert PutAll(PutIe(map[], v[0]), v[1..]) ==
           PutAll(PutIe(PutIe(map[], v[0]), v[1]), []);
  }

  /** The registration request: the node identity in a message of the
      registration request type. */
  function RegisterRequest(connId: int, connIndex: int): (m: Message)
    ensures m.mtype == REGISTER_REQUEST.mtype && m.sequenceNumber == 0
  {
    Message(VERSION, 0, DEFAULT_TIME_TO_LIVE, REGISTER_REQUEST.mtype,
            TlvBody(map[NODE := Composite(NodeIe(connId, connIndex))]))
  }

  /** The registration request is what the vector constructor builds from the
      node identity, and carries that identity under its type. */
  lemma RegisterRequestContents(connId: int, connIndex: int)
    ensures var m := RegisterRequest(connId, connIndex);
      ValidMessage(m) &&
      m == NewMessage(VERSION, 0, REGISTER_REQUEST.mtype, 0, [Composite(NodeIe(connId, connIndex))]) &&
      GetCompositeIe(m, NODE) == Some(NodeIe(connId, connIndex))
  {
    NodeIeContents(connId, connIndex);
    var v := [Composite(NodeIe(connId, connIndex))];
    assert PutChildren(map[], v) == PutChildren(PutChild(map[], v[0]), v[1..]);
    assert v[1..] == [];
  }

  /** Registration succeeds iff the connection has an id and an index and the
      response is a registration response carrying REQUEST_ACCEPTED. */
  predicate RegistrationAccepted(connId: int, connIndex: int, response: Option<Message>) {
    connId > -1 && connIndex > -1 && response.Some? &&
    response.value.mtype == REGISTER_REQUEST.linkedType &&
    response.value.body.TvBody? && response.value.body.value == REQUEST_ACCEPTED
  }

  /** The type collection files REGISTER_REQUEST as a request. The
      constructor waits for the registration response, and `Dispatcher::run`
      only sets it for a request type, so with any other collection the
      constructor never returns. Every collection the type collection's
      constructor builds files it so. */
  predicate RegistersRequest(types: TypeCollection) {
    REGISTER_REQUEST.mtype in types && types[REGISTER_REQUEST.mtype].IsRequest()
  }

  /** The connection the constructor leaves behind. `connected` is whether the
      socket could be opened, `arrived` the response to the registration
      request. */
  function Create(types: TypeCollection, actions: ActionCollection, connId: int, connIndex: int,
                  registrable: bool, connected: bool, arrived: Option<Message>): (c: Conn)
    requires RegistersRequest(types)
    ensures c.connId == connId && c.connIndex == connIndex && c.types == types
    ensures ECHO_ACTION.mtype in c.actions && c.actions[ECHO_ACTION.mtype] == ECHO_ACTION
    ensures IsOnline(c) <==>
      (connected &&
       (!registrable ||
        RegistrationAccepted(connId, connIndex,
          if connId > -1 && connIndex > -1 && arrived.Some? && arrived.value.sequenceNumber == 1
          then arrived else None)))
    ensures c.connState == OFFLINE ==> !c.socketOpen
  {
    var c0 := NewConn(types, PutAction(actions, ECHO_ACTION));
    var c1 := c0.(connId := connId, connIndex := connIndex);
    if !connected then Clear(c1)
    else
      var c2 := c1.(socketOpen := true);
      if !registrable then c2.(connState := ONLINE)
      else if connId > -1 && connIndex > -1 then
        var request := RegisterRequest(connId, connIndex);
        var d := Dispatch(c2, request, Some(NewFuture()), arrived);
        var response := DispatchResult(c2, request, arrived);
        if RegistrationAccepted(connId, connIndex, response)
        then ScheduleEchoRequest(d.conn).(connState := ONLINE)
        else Clear(d.conn)
      else Clear(c2)
  }

  /** The registration response a registrable connection with an id and an
      index reads: the arrived message when the request type is registered
      as a request and the message carries the first sequence number. */
  function RegistrationResponse(types: TypeCollection, arrived: Option<Message>): Option<Message> {
    if REGISTER_REQUEST.mtype in types && types[REGISTER_REQUEST.mtype].IsRequest() &&
       arrived.Some? && arrived.value.sequenceNumber == 1
    then arrived else None
  }

  /** The connection the constructor leaves behind, written out field by
      field: a registration attempt only consumes the first sequence number
      and leaves no handler behind. */
  function CreateOutcome(types: TypeCollection, actions: ActionCollection, connId: int, connIndex: int,
                         registrable: bool, connected: bool, arrived: Option<Message>): Conn
  {
    var c1 := NewConn(types, PutAction(actions, ECHO_ACTION)).(connId := connId, connIndex := connIndex);
    if !connected then c1
    else if !registrable then c1.(socketOpen := true, connState := ONLINE)
    else if connId > -1 && connIndex > -1 then
      if RegistrationAccepted(connId, connIndex, RegistrationResponse(types, arrived))
      then c1.(sequenceNumber := 1, socketOpen := true, connState := ONLINE)
      else c1.(sequenceNumber := 1)
    else c1
  }

  /** The constructor and its field-by-field outcome agree on every input. */
  lemma CreateIsOutcome(types: TypeCollection, actions: ActionCollection, connId: int, connIndex: int,
                        registrable: bool, connected: bool, arrived: Option<Message>)
    requires RegistersRequest(types)
    ensures Create(types, actions, connId, connIndex, registrable, connected, arrived) ==
            CreateOutcome(types, actions, connId, connIndex, registrable, connected, arrived)
  {
    if connected && registrable && connId > -1 && connIndex > -1 {
      var c2 := NewConn(types, PutAction(actions, ECHO_ACTION)).(connId := connId, connIndex := connIndex, socketOpen := true);
      FirstDispatch(c2, RegisterRequest(connId, connIndex), arrived);
    }
  }

  /** Every connection answers an ECHO_REQUEST itself: the echo action it
      holds belongs to no connection and writes the reply to the connection
      it runs on, whichever connections were built or deleted before. */
  lemma CreatedAnswersEcho(types: TypeCollection, actions: ActionCollection, connId: int, connIndex: int,
                           registrable: bool, connected: bool, arrived: Option<Message>, frame: seq<byte>)
    requires RegistersRequest(types)
    requires ECHO_REQUEST.mtype in types && types[ECHO_REQUEST.mtype].IsRequest()
    requires HandlerInput(frame) && frame[0] == VERSION && frame[3] == ECHO_REQUEST.mtype
    ensures var c := Create(types, actions, connId, connIndex, registrable, connected, arrived);
      HandleFrame(c, frame) == (c, Write(c, EchoReply(ParseFrame(frame))))
  {
    var c := Create(types, actions, connId, connIndex, registrable, connected, arrived);
    assert RouteFrame(c, frame).RunAction?;
  }

  /** A dispatch on a connection with no handler and no sequence number drawn
      yet only draws the first sequence number. */
  lemma FirstDispatch(c: Conn, m: Message, arrived: Option<Message>)
    requires c.handlers == map[] && c.sequenceNumber == 0
    ensures Dispatch(c, m, Some(NewFuture()), arrived).conn == c.(sequenceNumber := 1)
  {
    var d := Dispatch(c, m, Some(NewFuture()), arrived);
    assert d.conn.handlers == map[];
  }
}

=== FILE: baseconn.dfy ===
/** Connection bookkeeping shared by every connection: the single-assignment
    result slot, the 16-bit sequence counter, the response-handler table, the
    action registry, the pool of connections and the echo action. Each
    lock-guarded method is one atomic transition over an immutable record. */
module BaseConn {
  import opened Bytes
  import opened Wrappers
  import opened IeTypes
  import opened BasicIe
  import opened CompositeIe
  import opened Messages
  import opened MessageTypes

  const VERSION: byte := 2
  const DEFAULT_PORT := 8482
  const OFFLINE: byte := 0
  const ONLINE: byte := 1

  // ---------------------------------------------------------------------
  // Future

  /** The result slot and whether a reader still has to wait. */
  datatype Future<V> = Future(slot: Option<V>, waiting: bool)

  function NewFuture<V>(): (f: Future<V>)
    ensures f.slot.None? && f.waiting
  {
    Future(None, true)
  }

  /** `set`: the slot is written only while it is empty, so the first
      non-null value wins; every call releases the reader. */
  function SetFuture<V>(f: Future<V>, v: Option<V>): (r: Future<V>)
    ensures !r.waiting
    ensures f.slot.Some? ==> r.slot == f.slot
    ensures f.slot.None? ==> r.slot == v
  {
    Future(if f.slot.None? then v else f.slot, false)
  }

  datatype Wait<V> = Blocked | Ready(result: Option<V>)

  /** `get`: blocks while waiting, then yields the slot. */
  function GetFuture<V>(f: Future<V>): (w: Wait<V>)
    ensures w.Ready? <==> !f.waiting
    ensures w.Ready? ==> w.result == f.slot
  {
    if f.waiting then Blocked else Ready(f.slot)
  }

  function SetAll<V>(f: Future<V>, vs: seq<Option<V>>): Future<V>
    decreases |vs|
  {
    if |vs| == 0 then f else SetAll(SetFuture(f, vs[0]), vs[1..])
  }

  /** The first non-null value of a sequence, if any. */
  function FirstSome<V>(vs: seq<Option<V>>): (r: Option<V>)
    ensures r.Some? ==> exists i :: 0 <= i < |vs| && vs[i] == r && forall j :: 0 <= j < i ==> vs[j].None?
    ensures r.None? ==> forall i :: 0 <= i < |vs| ==> vs[i].None?
    decreases |vs|
  {
    if |vs| == 0 then None
    else if vs[0].Some? then vs[0]
    else
      var r := FirstSome(vs[1..]);
      assert forall i :: 1 <= i < |vs| ==> vs[i] == vs[1..][i - 1];
      r
  }

  /** After any non-empty sequence of `set` calls on a fresh slot, the reader
      is released and sees the first non-null value. */
  lemma {:induction false} FirstSetWins<V>(f: Future<V>, vs: seq<Option<V>>)
    requires |vs| > 0
    ensures !SetAll(f, vs).waiting
    ensures SetAll(f, vs).slot == if f.slot.Some? then f.slot else FirstSome(vs)
    decreases |vs|
  {
    if |vs| > 1 {
      FirstSetWins(SetFuture(f, vs[0]), vs[1..]);
    }
  }

  // ---------------------------------------------------------------------
  // Sequence numbers

  /** `getSequenceNumber`: counts up to 0xffff, then wraps to 0. */
  function NextSequenceNumber(n: int): (r: int)
    ensures r <= 0xffff
    ensures n >= -1 ==> 0 <= r
    ensures 0 <= n < 0xffff ==> r == n + 1
  {
    if n < 0xffff then n + 1 else 0
  }

  function IterateSequence(n: int, k: nat): int
    decreases k
  {
    if k == 0 then n else NextSequenceNumber(IterateSequence(n, k - 1))
  }

  /** From the initial 0, the k-th number drawn is k modulo 0x10000. */
  lemma {:induction false} SequenceWraps(k: nat)
    ensures IterateSequence(0, k) == k % 0x1_0000
    decreases k
  {
    if k > 0 {
      SequenceWraps(k - 1);
      var p := k - 1;
      if p % 0x1_0000 < 0xffff {
        DivModUnique(k, 0x1_0000, p / 0x1_0000, p % 0x1_0000 + 1);
      } else {
        DivModUnique(k, 0x1_0000, p / 0x1_0000 + 1, 0);
      }
    }
  }

  // ---------------------------------------------------------------------
  // Actions

  /** The actions this system registers. */
  datatype ActionKind = EchoRequestAction | SendRoutingInfoAction | ForwardMtAction

  datatype MessageAction = MessageAction(mtype: byte, kind: ActionKind)

  type ActionCollection = map<byte, MessageAction>

  /** `put`: an action replaces any action of the same message type. */
  function PutAction(ac: ActionCollection, a: MessageAction): (r: ActionCollection)
    ensures a.mtype in r && r[a.mtype] == a
    ensures forall k :: k != a.mtype ==> (k in r <==> k in ac)
    ensures forall k :: k in r && k != a.mtype ==> r[k] == ac[k]
  {
    ac[a.mtype := a]
  }

  const ECHO_ACTION := MessageAction(ECHO_REQUEST.mtype, EchoRequestAction)

  /** The reply of the echo action: the echo response type, value 0xaa and
      the request's sequence number. */
  function EchoReply(request: Message): (reply: Message)
    ensures ValidMessage(reply)
    ensures reply.version == VERSION && reply.sequenceNumber == request.sequenceNumber
    ensures reply.mtype == 0x02 && reply.body == TvBody(0xaa)
  {
    NewMessage(VERSION, request.sequenceNumber, ECHO_REQUEST.linkedType, 0xaa, [])
  }

  // ---------------------------------------------------------------------
  // Response handlers

  /** A waiting dispatcher: the last response delivered, the caller's result
      slot (the caller may pass none) and whether it still waits. */
  datatype Handler = Handler(response: Option<Message>, future: Option<Future<Message>>,
                             waiting: bool)

  function NewHandler(future: Option<Future<Message>>): (h: Handler)
    ensures h.response.None? && h.waiting && h.future == future
  {
    Handler(None, future, true)
  }

  /** `ResponseHandler::setResponse`: records the response, passes it to the
      result slot, releases the dispatcher. */
  function HandlerSetResponse(h: Handler, r: Option<Message>): (h': Handler)
    ensures h'.response == r && !h'.waiting
    ensures h'.future.Some? <==> h.future.Some?
    ensures h.future.Some? ==> h'.future.value == SetFuture(h.future.value, r)
  {
    Handler(r, if h.future.Some? then Some(SetFuture(h.future.value, r)) else None, false)
  }

  // ---------------------------------------------------------------------
  // Connection state

  /** The state of a connection. The socket flag and the failed-echo counter
      belong to the client connection, the only kind there is. */
  datatype Conn = Conn(types: TypeCollection, actions: ActionCollection,
                       handlers: map<int, Handler>, sequenceNumber: int,
                       connId: int, connIndex: int, connState: byte,
                       socketOpen: bool, failedEcho: int)

  /** The base constructor: counter 0, no id, no index, offline. */
  function NewConn(types: TypeCollection, actions: ActionCollection): (c: Conn)
    ensures c.sequenceNumber == 0 && c.connId == -1 && c.connIndex == -1
    ensures c.connState == OFFLINE && c.handlers == map[]
  {
    Conn(types, actions, map[], 0, -1, -1, OFFLINE, false, 0)
  }

  /** Draws the next sequence number. */
  function DrawSequenceNumber(c: Conn): (r: (Conn, int))
    ensures r.0 == c.(sequenceNumber := r.1)
    ensures r.1 == NextSequenceNumber(c.sequenceNumber)
  {
    var n := NextSequenceNumber(c.sequenceNumber);
    (c.(sequenceNumber := n), n)
  }

  /** `putResponseHandler`: at most one handler per sequence number. */
  function PutResponseHandler(c: Conn, sn: int, h: Handler): (r: Conn)
    ensures r.handlers.Keys == c.handlers.Keys + {sn} && r.handlers[sn] == h
    ensures forall k :: k in c.handlers && k != sn ==> r.handlers[k] == c.handlers[k]
    ensures r == c.(handlers := r.handlers)
  {
    c.(handlers := c.handlers[sn := h])
  }

  function RemoveResponseHandler(c: Conn, sn: int): (r: Conn)
    ensures r.handlers.Keys == c.handlers.Keys - {sn}
    ensures forall k :: k in r.handlers ==> r.handlers[k] == c.handlers[k]
    ensures r == c.(handlers := r.handlers)
  {
    c.(handlers := c.handlers - {sn})
  }

  /** `BaseConn::setResponse`: delivers to the handler of the response's
      sequence number, or discards the response. */
  function SetResponse(c: Conn, response: Message): (r: Conn)
    ensures response.sequenceNumber !in c.handlers ==> r == c
    ensures response.sequenceNumber in c.handlers ==>
      r == c.(handlers := c.handlers[response.sequenceNumber :=
                HandlerSetResponse(c.handlers[response.sequenceNumber], Some(response))])
    ensures r.handlers.Keys == c.handlers.Keys
    ensures forall k :: k in c.handlers && k != response.sequenceNumber ==>
      r.handlers[k] == c.handlers[k]
  {
    var sn := response.sequenceNumber;
    if sn in c.handlers then
      c.(handlers := c.handlers[sn := HandlerSetResponse(c.handlers[sn], Some(response))])
    else c
  }

  /** The connection's writes: nothing once the socket is gone. */
  function Write(c: Conn, m: Message): (written: seq<Message>)
    ensures |written| <= 1
    ensures c.socketOpen <==> written == [m]
  {
    if c.socketOpen then [m] else []
  }

  /** `clear`: offline, socket closed. */
  function Clear(c: Conn): (r: Conn)
    ensures r.connState == OFFLINE && !r.socketOpen
    ensures r == c.(connState := OFFLINE, socketOpen := false)
  {
    c.(connState := OFFLINE, socketOpen := false)
  }

  // ---------------------------------------------------------------------
  // Connection pool

  predicate Sorted(es: seq<Conn>) {
    forall i, j :: 0 <= i < j < |es| ==> es[i].connIndex < es[j].connIndex
  }

  /** The pool: members in ascending index order and the position of the
      round-robin cursor (`|entries|` stands for the end). */
  datatype ConnCache = ConnCache(entries: seq<Conn>, cursor: nat)

  predicate ValidCache(cc: ConnCache) {
    Sorted(cc.entries) && cc.cursor <= |cc.entries| &&
    forall i :: 0 <= i < |cc.entries| ==> cc.entries[i].connIndex > -1
  }

  function NewCache(): (cc: ConnCache)
    ensures ValidCache(cc) && |cc.entries| == 0
  {
    ConnCache([], 0)
  }

  /** The member of that index. */
  function Lookup(es: seq<Conn>, index: int): (r: Option<Conn>)
    ensures r.Some? <==> exists i :: 0 <= i < |es| && es[i].connIndex == index
    ensures r.Some? ==> r.value.connIndex == index && r.value in es
    decreases |es|
  {
    if |es| == 0 then None
    else if es[0].connIndex == index then Some(es[0])
    else
      var r := Lookup(es[1..], index);
      assert forall i :: 1 <= i < |es| ==> es[i] == es[1..][i - 1];
      r
  }

  function Insert(es: seq<Conn>, c: Conn): (r: seq<Conn>)
    requires Sorted(es)
    ensures Sorted(r)
    ensures forall x :: x in r ==> x in es || x == c
    ensures |es| <= |r| <= |es| + 1
    decreases |es|
  {
    if |es| == 0 then [c]
    else if es[0].connIndex == c.connIndex then [c] + es[1..]
    else if es[0].connIndex > c.connIndex then [c] + es
    else
      var tail := Insert(es[1..], c);
      assert forall x :: x in tail ==> x.connIndex > es[0].connIndex;
      [es[0]] + tail
  }

  function Delete(es: seq<Conn>, index: int): (r: seq<Conn>)
    requires Sorted(es)
    ensures Sorted(r)
    ensures forall x :: x in r ==> x in es
    ensures |es| - 1 <= |r| <= |es|
    decreases |es|
  {
    if |es| == 0 then []
    else if es[0].connIndex == index then es[1..]
    else
      var tail := Delete(es[1..], index);
      assert forall x :: x in tail ==> x.connIndex > es[0].connIndex;
      [es[0]] + tail
  }

  /** After an insertion the index finds the new member and every other
      index finds what it found before. */
  lemma {:induction false} LookupInsert(es: seq<Conn>, c: Conn)
    requires Sorted(es)
    ensures Lookup(Insert(es, c), c.connIndex) == Some(c)
    ensures forall k :: k != c.connIndex ==> Lookup(Insert(es, c), k) == Lookup(es, k)
    decreases |es|
  {
    if |es| > 0 && es[0].connIndex < c.connIndex {
      LookupInsert(es[1..], c);
      assert Insert(es, c)[1..] == Insert(es[1..], c);
    } else if |es| > 0 && es[0].connIndex == c.connIndex {
      assert Insert(es, c)[1..] == es[1..];
      forall k | k != c.connIndex ensures Lookup(Insert(es, c), k) == Lookup(es, k) {
        assert Lookup(es, k) == Lookup(es[1..], k);
      }
    } else if |es| > 0 {
      assert Insert(es, c)[1..] == es;
    }
  }

  /** After a deletion the index finds nothing and every other index finds
      what it found before. */
  lemma {:induction false} LookupDelete(es: seq<Conn>, index: int)
    requires Sorted(es)
    ensures Lookup(Delete(es, index), index).None?
    ensures forall k :: k != index ==> Lookup(Delete(es, index), k) == Lookup(es, k)
    decreases |es|
  {
    if |es| > 0 && es[0].connIndex != index {
      LookupDelete(es[1..], index);
      assert Delete(es, index)[1..] == Delete(es[1..], index);
    } else if |es| > 0 {
      var r := Delete(es, index);
      assert forall i :: 0 <= i < |r| ==> r[i].connIndex > index;
    }
  }

  /** `add`: ignores a null or unindexed connection; otherwise replaces the
      member of that index and rewinds the cursor. */
  function Add(cc: ConnCache, c: Option<Conn>): (r: ConnCache)
    requires ValidCache(cc)
    ensures ValidCache(r)
    ensures c.None? || c.value.connIndex <= -1 ==> r == cc
    ensures c.Some? && c.value.connIndex > -1 ==>
      r.cursor == 0 && Lookup(r.entries, c.value.connIndex) == c &&
      forall k :: k != c.value.connIndex ==> Lookup(r.entries, k) == Lookup(cc.entries, k)
  {
    if c.Some? && c.value.connIndex > -1 then
      LookupInsert(cc.entries, c.value);
      ConnCache(Insert(cc.entries, c.value), 0)
    else cc
  }

  /** `remove`: erases the member of that index and rewinds the cursor. */
  function Remove(cc: ConnCache, c: Option<Conn>): (r: ConnCache)
    requires ValidCache(cc)
    ensures ValidCache(r)
    ensures c.None? || c.value.connIndex <= -1 ==> r == cc
    ensures c.Some? && c.value.connIndex > -1 ==>
      r.cursor == 0 && Lookup(r.entries, c.value.connIndex).None? &&
      forall k :: k != c.value.connIndex ==> Lookup(r.entries, k) == Lookup(cc.entries, k)
  {
    if c.Some? && c.value.connIndex > -1 then
      LookupDelete(cc.entries, c.value.connIndex);
      ConnCache(Delete(cc.entries, c.value.connIndex), 0)
    else cc
  }

  function Size(cc: ConnCache): nat {
    |cc.entries|
  }

  /** `getVector`: the members in ascending index order. */
  function GetVector(cc: ConnCache): (v: seq<Conn>)
    requires ValidCache(cc)
    ensures Sorted(v) && |v| == Size(cc)
    ensures forall k :: Lookup(v, k) == Lookup(cc.entries, k)
  {
    cc.entries
  }

  predicate IsOnline(c: Conn) {
    c.connState == ONLINE
  }

  /** Where the round-robin scan starts: the cursor, or the first member when
      the cursor is at the end. */
  function ScanStart(cc: ConnCache): nat
    requires ValidCache(cc)
  {
    if cc.cursor == |cc.entries| then 0 else cc.cursor
  }

  /** The position the j-th inspection looks at, wrapping at the end. */
  function ScanPos(size: nat, start: nat, j: nat): nat
    requires start < size || size == 0
    requires j < size
  {
    if start + j < size then start + j else start + j - size
  }

  /** The first inspection, from the j-th on, that finds a member online. */
  function FirstOnline(es: seq<Conn>, start: nat, j: nat): (r: Option<nat>)
    requires start < |es| || |es| == 0
    requires j <= |es|
    ensures r.Some? ==> j <= r.value < |es| && IsOnline(es[ScanPos(|es|, start, r.value)])
    ensures r.Some? ==> forall i :: j <= i < r.value ==> !IsOnline(es[ScanPos(|es|, start, i)])
    ensures r.None? ==> forall i :: j <= i < |es| ==> !IsOnline(es[ScanPos(|es|, start, i)])
    decreases |es| - j
  {
    if j == |es| then None
    else if IsOnline(es[ScanPos(|es|, start, j)]) then Some(j)
    else FirstOnline(es, start, j + 1)
  }

  /** The reference outcome of `nextOnline`: the first member online in
      cyclic order from the cursor, with the cursor left just past it; with
      no member online, every member is inspected once. */
  function NextOnlineSpec(cc: ConnCache): (r: (Option<Conn>, nat))
    requires ValidCache(cc)
  {
    var es, start := cc.entries, ScanStart(cc);
    match FirstOnline(es, start, 0)
    case Some(j) => (Some(es[ScanPos(|es|, start, j)]), ScanPos(|es|, start, j) + 1)
    case None => (None, if start == 0 then |es| else start)
  }

  /** A scan that finds nobody has looked at every member. */
  lemma NoneOnline(es: seq<Conn>, start: nat)
    requires start < |es| || |es| == 0
    requires FirstOnline(es, start, 0).None?
    ensures forall i :: 0 <= i < |es| ==> !IsOnline(es[i])
  {
    forall i | 0 <= i < |es| ensures !IsOnline(es[i]) {
      var j := if i >= start then i - start else i + |es| - start;
      assert ScanPos(|es|, start, j) == i;
    }
  }

  /** `nextOnline`: the scan as the source performs it, stepping the cursor
      and rewinding it at the end. */
  method NextOnline(cc: ConnCache) returns (found: Option<Conn>, r: ConnCache)
    requires ValidCache(cc)
    ensures ValidCache(r) && r.entries == cc.entries
    ensures (found, r.cursor) == NextOnlineSpec(cc)
  {
    var es := cc.entries;
    var size := |es|;
    ghost var start := ScanStart(cc);
    var cursor: nat := cc.cursor;
    var count: nat := 0;
    found := None;
    while count < size
      invariant 0 <= count <= size && cursor <= size && (start < size || size == 0)
      invariant cursor == start + count || cursor + size == start + count ||
                (cursor == size && start + count == 0)
      invariant size > 0 && cursor + size == start + count ==> start > 0
      invariant found.None?
      invariant FirstOnline(es, start, 0) == FirstOnline(es, start, count)
      decreases size - count, if cursor == size then 1 else 0
    {
      if cursor != size {
        assert cursor == ScanPos(size, start, count);
        var c := es[cursor];
        if IsOnline(c) {
          assert FirstOnline(es, start, count) == Some(count);
          found := Some(c);
          cursor := cursor + 1;
          break;
        }
        cursor := cursor + 1;
        count := count + 1;
      } else {
        cursor := 0;
      }
    }
    r := ConnCache(es, cursor);
  }

  /** `nextOnline` never returns a member that is not online, and returns
      nobody exactly when no member is online. */
  lemma NextOnlineFindsOnline(cc: ConnCache)
    requires ValidCache(cc)
    ensures var found := NextOnlineSpec(cc).0;
      (found.Some? ==> IsOnline(found.value) && found.value in cc.entries) &&
      (found.None? <==> forall i :: 0 <= i < |cc.entries| ==> !IsOnline(cc.entries[i]))
  {
    var es, start := cc.entries, ScanStart(cc);
    if FirstOnline(es, start, 0).None? {
      NoneOnline(es, start);
    }
  }

  /** The member `nextOnline` returns sits just before the cursor it leaves,
      so the next call starts one past it. */
  lemma NextOnlineCursor(cc: ConnCache)
    requires ValidCache(cc)
    ensures var (found, cursor) := NextOnlineSpec(cc);
      found.Some? ==> 0 < cursor <= |cc.entries| && cc.entries[cursor - 1] == found.value
  {
  }

  /** With every member online, repeated calls cycle through the members in
      order: each call returns the member at the scan start and moves the
      cursor one step. */
  lemma NextOnlineCycles(cc: ConnCache)
    requires ValidCache(cc) && |cc.entries| > 0
    requires forall i :: 0 <= i < |cc.entries| ==> IsOnline(cc.entries[i])
    ensures NextOnlineSpec(cc) == (Some(cc.entries[ScanStart(cc)]), ScanStart(cc) + 1)
  {
    assert ScanPos(|cc.entries|, ScanStart(cc), 0) == ScanStart(cc);
  }
}

=== FILE: basicie.dfy ===
/** The six basic information elements and their value encodings: one octet,
    a 16-bit and a 32-bit big-endian integer, a raw octet string, and packed
    BCD dates and timestamps. */
module BasicIe {
  import opened Bytes
  import opened Wrappers
  import opened IeTypes

  /** The fields of a `struct tm` a date carries, in `tm` conventions:
      `year` counts from 1900 and `mon` from 0. */
  datatype Date = Date(year: int, mon: int, mday: int)

  /** The fields of a `struct tm` a timestamp carries; `wday` counts from 0. */
  datatype Timestamp = Timestamp(year: int, mon: int, mday: int,
                                 hour: int, min: int, sec: int, wday: int)

  datatype BasicIe =
    | IeByte(byteValue: byte)
    | IeInteger(intValue: int)
    | IeLong(longValue: int)
    | IeByteArray(bytes: seq<byte>)
    | IeDate(date: Date)
    | IeTimestamp(timestamp: Timestamp)

  function KindOfIe(b: BasicIe): Kind {
    match b
    case IeByte(_) => ByteKind
    case IeInteger(_) => IntegerKind
    case IeLong(_) => LongKind
    case IeByteArray(_) => ByteArrayKind
    case IeDate(_) => DateKind
    case IeTimestamp(_) => TimestampKind
  }

  /** The type code an element reports. */
  function TypeOf(b: BasicIe): (t: byte)
    ensures IsBasicType(t) && KindOf(t) == Some(KindOfIe(b))
    ensures IsTypeValue(t) <==> b.IeByte?
  {
    CodesAreDistinct(KindOfIe(b), KindOfIe(b));
    CodeOf(KindOfIe(b))
  }

  /** The number of value octets a decoder reads for each kind. */
  function ValueLength(k: Kind): nat {
    match k
    case ByteKind => 1
    case IntegerKind => 2
    case LongKind => 4
    case ByteArrayKind => 0
    case DateKind => 4
    case TimestampKind => 8
  }

  // ---------------------------------------------------------------------
  // Packed BCD

  /** Two decimal digits of `x` in one octet, written the way the encoder
      does it: units (`x % 10 & 0x0f`) in the low nibble, tens in the high
      nibble, with C's truncating `%` and `/`. */
  function Pack(x: int): byte {
    LowNibble(CRem(x, 10)) + 16 * LowNibble(CRem(CDiv(x, 10), 10))
  }

  lemma PackDigits(x: int)
    requires x >= 0
    ensures Pack(x) == x % 10 + 16 * ((x / 10) % 10)
  {
    SmallMod(x % 10, 16);
    SmallMod((x / 10) % 10, 16);
  }

  lemma SmallMod(a: int, m: int)
    requires 0 <= a < m
    ensures a % m == a
  {
    DivModUnique(a, m, 0, a);
  }

  /** The number an octet of two BCD digits denotes, high nibble as tens. */
  function Unpack(b: byte): (x: int)
    ensures 0 <= x <= 165
  {
    (b / 16) * 10 + b % 16
  }

  /** Both nibbles of `b` are decimal digits. */
  predicate IsBcd(b: byte) {
    b / 16 <= 9 && b % 16 <= 9
  }

  lemma UnpackPack(x: int)
    requires x >= 0
    ensures Unpack(Pack(x)) == x % 100
    ensures IsBcd(Pack(x))
  {
    var lo, hi := x % 10, (x / 10) % 10;
    PackDigits(x);
    DivModUnique(lo + 16 * hi, 16, hi, lo);
    var q := (x / 10) / 10;
    assert x == 100 * q + (10 * hi + lo);
    DivModUnique(x, 100, q, 10 * hi + lo);
  }

  lemma Digits10(h: int, l: int)
    requires 0 <= h && 0 <= l < 10
    ensures (10 * h + l) % 10 == l && (10 * h + l) / 10 == h
  {
    DivModUnique(10 * h + l, 10, h, l);
  }

  lemma PackUnpack(b: byte)
    requires IsBcd(b)
    ensures Pack(Unpack(b)) == b
  {
    var h, l := b / 16, b % 16;
    var x := Unpack(b);
    assert x == 10 * h + l;
    Digits10(h, l);
    SmallMod(h, 10);
    PackDigits(x);
    assert b == 16 * h + l;
  }

  /** Four BCD digits of a year, most significant first. */
  function PackYear(year: int): (v: seq<byte>)
    ensures |v| == 2
  {
    [Pack(CDiv(CDiv(year, 10), 10)), Pack(year)]
  }

  function UnpackYear(hi: byte, lo: byte): int {
    Unpack(hi) * 100 + Unpack(lo)
  }

  lemma DivTenTwice(x: int)
    requires x >= 0
    ensures CDiv(CDiv(x, 10), 10) == x / 100
  {
    var q := (x / 10) / 10;
    var r := 10 * ((x / 10) % 10) + x % 10;
    assert x == 100 * q + r;
    DivModUnique(x, 100, q, r);
  }

  lemma UnpackPackYear(year: int)
    requires 0 <= year <= 9999
    ensures UnpackYear(PackYear(year)[0], PackYear(year)[1]) == year
    ensures IsBcd(PackYear(year)[0]) && IsBcd(PackYear(year)[1])
  {
    DivTenTwice(year);
    var hi, lo := year / 100, year % 100;
    assert PackYear(year) == [Pack(hi), Pack(year)];
    UnpackPack(hi);
    SmallMod(hi, 100);
    UnpackPack(year);
    assert year == hi * 100 + lo;
  }

  lemma PackUnpackYear(hi: byte, lo: byte)
    requires IsBcd(hi) && IsBcd(lo)
    ensures PackYear(UnpackYear(hi, lo)) == [hi, lo]
  {
    var h, l := Unpack(hi), Unpack(lo);
    var y := UnpackYear(hi, lo);
    assert CDiv(CDiv(y, 10), 10) == h by {
      DivTenTwice(y);
      HundredsOf(h, l);
    }
    assert Pack(y) == lo by {
      LastTwoDigits(h, l);
      PackUnpack(lo);
    }
    assert Pack(h) == hi by {
      PackUnpack(hi);
    }
  }

  lemma HundredsOf(h: int, l: int)
    requires 0 <= h && 0 <= l <= 99
    ensures (h * 100 + l) / 100 == h
  {
    DivModUnique(h * 100 + l, 100, h, l);
  }

  /** The last two decimal digits of `100 * h + l` are those of `l`. */
  lemma LastTwoDigits(h: int, l: int)
    requires 0 <= h && 0 <= l <= 99
    ensures Pack(h * 100 + l) == Pack(l)
  {
    var y := h * 100 + l;
    assert y % 10 == l % 10 && (y / 10) % 10 == (l / 10) % 10 by {
      assert y == 10 * (10 * h + l / 10) + l % 10;
      Digits10(10 * h + l / 10, l % 10);
      assert l / 10 < 10;
      Digits10(h, l / 10);
      SmallMod(l / 10, 10);
    }
    PackDigits(y);
    PackDigits(l);
  }

  // ---------------------------------------------------------------------
  // Value encodings

  function EncodeDate(d: Date): (v: seq<byte>)
    ensures |v| == 4
  {
    PackYear(d.year + 1900) + [Pack(d.mon + 1), Pack(d.mday)]
  }

  /** The decoding constructor of a date; on decimal digits, encoding the
      date gives back the octets read. */
  function DecodeDate(v: seq<byte>): (d: Date)
    requires |v| > 3
    ensures IsBcd(v[0]) && IsBcd(v[1]) && IsBcd(v[2]) && IsBcd(v[3]) ==> EncodeDate(d) == v[..4]
  {
    var d := Date(UnpackYear(v[0], v[1]) - 1900, Unpack(v[2]) - 1, Unpack(v[3]));
    if IsBcd(v[0]) && IsBcd(v[1]) && IsBcd(v[2]) && IsBcd(v[3]) then
      PackUnpackYear(v[0], v[1]);
      PackUnpack(v[2]);
      PackUnpack(v[3]);
      d
    else d
  }

  /** The calendar part of a timestamp. */
  function DateOf(t: Timestamp): Date {
    Date(t.year, t.mon, t.mday)
  }

  function EncodeTimestamp(t: Timestamp): (v: seq<byte>)
    ensures |v| == 8
  {
    EncodeDate(DateOf(t)) + [Pack(t.hour), Pack(t.min), Pack(t.sec), Truncate(t.wday + 1)]
  }

  /** The decoding constructor of a timestamp; on decimal digits, encoding
      the timestamp gives back the octets read, the weekday included. */
  function DecodeTimestamp(v: seq<byte>): (t: Timestamp)
    requires |v| > 7
    ensures (forall i :: 0 <= i < 7 ==> IsBcd(v[i])) ==> EncodeTimestamp(t) == v[..8]
  {
    var d := DecodeDate(v[..4]);
    var t := Timestamp(d.year, d.mon, d.mday, Unpack(v[4]), Unpack(v[5]), Unpack(v[6]), v[7] as int - 1);
    if forall i :: 0 <= i < 7 ==> IsBcd(v[i]) then
      assert IsBcd(v[4]) && IsBcd(v[5]) && IsBcd(v[6]);
      PackUnpack(v[4]);
      PackUnpack(v[5]);
      PackUnpack(v[6]);
      assert DateOf(t) == d;
      t
    else t
  }

  /** The value octets of an element (its `getValue`). */
  function Encode(b: BasicIe): (v: seq<byte>)
    ensures |v| == if b.IeByteArray? then |b.bytes| else ValueLength(KindOfIe(b))
  {
    match b
    case IeByte(x) => [x]
    case IeInteger(i) => BigEndian(2, i)
    case IeLong(l) => BigEndian(4, l)
    case IeByteArray(bs) => bs
    case IeDate(d) => EncodeDate(d)
    case IeTimestamp(t) => EncodeTimestamp(t)
  }

  /** The element a type code and value octets construct, or None when the
      code names no basic kind or the value is too short for the kind to
      assign its fields. */
  function Decode(t: byte, v: seq<byte>): (r: Option<BasicIe>)
    ensures r.Some? <==> IsBasicType(t) && |v| >= ValueLength(KindOf(t).value)
    ensures r.Some? ==> TypeOf(r.value) == t
    ensures r.Some? && r.value.IeInteger? ==> 0 <= r.value.intValue < 0x1_0000
    ensures r.Some? && r.value.IeLong? ==> 0 <= r.value.longValue < 0x1_0000_0000
  {
    match KindOf(t)
    case None => None
    case Some(k) =>
      if |v| < ValueLength(k) then None
      else match k
        case ByteKind => Some(IeByte(v[0]))
        case IntegerKind =>
          BeValueBound(v[..2]);
          Some(IeInteger(BeValue(v[..2])))
        case LongKind =>
          BeValueBound(v[..4]);
          Some(IeLong(BeValue(v[..4])))
        case ByteArrayKind => Some(IeByteArray(v))
        case DateKind => Some(IeDate(DecodeDate(v)))
        case TimestampKind => Some(IeTimestamp(DecodeTimestamp(v)))
  }

  predicate DateFits(d: Date) {
    0 <= d.year + 1900 <= 9999 && 0 <= d.mon + 1 <= 99 && 0 <= d.mday <= 99
  }

  predicate TimestampFits(t: Timestamp) {
    DateFits(DateOf(t))
    && 0 <= t.hour <= 99 && 0 <= t.min <= 99 && 0 <= t.sec <= 99
    && -1 <= t.wday <= 254
  }

  /** The values the encoding carries without loss. */
  predicate Representable(b: BasicIe) {
    match b
    case IeByte(_) => true
    case IeInteger(i) => 0 <= i < 0x1_0000
    case IeLong(l) => 0 <= l < 0x1_0000_0000
    case IeByteArray(_) => true
    case IeDate(d) => DateFits(d)
    case IeTimestamp(t) => TimestampFits(t)
  }

  lemma UnpackPackDigits(x: int)
    requires 0 <= x <= 99
    ensures Unpack(Pack(x)) == x
  {
    UnpackPack(x);
    SmallMod(x, 100);
  }

  /** `v[i]` packs the digits of `x` and `x` has at most two digits. */
  predicate PacksDigits(v: seq<byte>, i: nat, x: int) {
    i < |v| && 0 <= x <= 99 && v[i] == Pack(x)
  }

  lemma UnpackAt(v: seq<byte>, i: nat, x: int)
    requires PacksDigits(v, i, x)
    ensures Unpack(v[i]) == x
  {
    UnpackPackDigits(x);
  }

  /** The year octets of an encoded date read back as the year. */
  lemma DateYearBack(d: Date)
    requires DateFits(d)
    ensures UnpackYear(EncodeDate(d)[0], EncodeDate(d)[1]) == d.year + 1900
  {
    var v, y := EncodeDate(d), d.year + 1900;
    assert v[0] == PackYear(y)[0] && v[1] == PackYear(y)[1];
    UnpackPackYear(y);
  }

  lemma DateMonthBack(d: Date)
    requires DateFits(d)
    ensures Unpack(EncodeDate(d)[2]) == d.mon + 1
  {
    assert EncodeDate(d)[2] == Pack(d.mon + 1);
    UnpackPackDigits(d.mon + 1);
  }

  lemma DateDayBack(d: Date)
    requires DateFits(d)
    ensures Unpack(EncodeDate(d)[3]) == d.mday
  {
    assert EncodeDate(d)[3] == Pack(d.mday);
    UnpackPackDigits(d.mday);
  }

  lemma DateRoundTrip(d: Date)
    requires DateFits(d)
    ensures DecodeDate(EncodeDate(d)) == d
  {
    DateYearBack(d);
    DateMonthBack(d);
    DateDayBack(d);
  }

  lemma TimestampRoundTrip(t: Timestamp)
    requires TimestampFits(t)
    ensures DecodeTimestamp(EncodeTimestamp(t)) == t
  {
    var v := EncodeTimestamp(t);
    assert v[..4] == EncodeDate(DateOf(t));
    DateRoundTrip(DateOf(t));
    UnpackAt(v, 4, t.hour);
    UnpackAt(v, 5, t.min);
    UnpackAt(v, 6, t.sec);
  }

  /** Decoding the encoding of a representable element gives it back. */
  lemma {:induction false} RoundTrip(b: BasicIe)
    requires Representable(b)
    ensures Decode(TypeOf(b), Encode(b)) == Some(b)
  {
    match b
    case IeInteger(i) => IntegerKeepsLow16(i);
    case IeLong(l) => LongKeepsLow32(l);
    case IeDate(d) => DateRoundTrip(d);
    case IeTimestamp(t) => TimestampRoundTrip(t);
    case _ =>
  }

  /** Any integer crosses the wire as its low 16 bits, read back unsigned. */
  lemma IntegerKeepsLow16(i: int)
    ensures Decode(INTEGER, Encode(IeInteger(i))) == Some(IeInteger(i % 0x1_0000))
  {
    var v := Encode(IeInteger(i));
    assert v[..2] == v;
    BeValueOfBigEndian(2, i);
  }

  /** Any long crosses the wire as its low 32 bits, read back unsigned. */
  lemma LongKeepsLow32(l: int)
    ensures Decode(LONG, Encode(IeLong(l))) == Some(IeLong(l % 0x1_0000_0000))
  {
    var v := Encode(IeLong(l));
    assert v[..4] == v;
    BeValueOfBigEndian(4, l);
  }

  /** The value octets are all decimal digits (`IsBcd`) except the weekday. */
  predicate IsBcdValue(k: Kind, v: seq<byte>)
    requires |v| >= ValueLength(k)
  {
    match k
    case DateKind => forall i :: 0 <= i < 4 ==> IsBcd(v[i])
    case TimestampKind => forall i :: 0 <= i < 7 ==> IsBcd(v[i])
    case _ => true
  }

  /** The other direction: re-encoding a decoded element reproduces the
      octets the decoder read, as long as BCD fields hold decimal digits. */
  lemma {:induction false} EncodeDecode(t: byte, v: seq<byte>)
    requires IsBasicType(t) && |v| >= ValueLength(KindOf(t).value)
    requires IsBcdValue(KindOf(t).value, v)
    ensures Encode(Decode(t, v).value) == if KindOf(t) == Some(ByteArrayKind) then v
                                          else v[..ValueLength(KindOf(t).value)]
  {
    match KindOf(t).value
    case IntegerKind => BigEndianOfBeValue(v[..2]);
    case LongKind => BigEndianOfBeValue(v[..4]);
    case DateKind =>
      assert IsBcd(v[0]) && IsBcd(v[1]) && IsBcd(v[2]) && IsBcd(v[3]);
    case TimestampKind =>
    case _ =>
  }

  // ---------------------------------------------------------------------
  // Byte arrays as strings

  /** The octets before the first NUL. */
  function BeforeNul(bs: seq<byte>): (p: seq<byte>)
    ensures p <= bs
    ensures 0 !in p
    ensures |p| < |bs| ==> bs[|p|] == 0
  {
    if |bs| == 0 || bs[0] == 0 then [] else [bs[0]] + BeforeNul(bs[1..])
  }

  /** A byte array read as a C string (`getIEString`): the octets up to the
      first NUL, or the empty string for an empty array. */
  function GetIeString(bs: seq<byte>): (s: string)
    ensures |s| <= |bs|
    ensures forall i :: 0 <= i < |s| ==> s[i] as int == bs[i] && s[i] != '\0'
    ensures |s| < |bs| ==> bs[|s|] == 0
  {
    StringOf(BeforeNul(bs))
  }

  /** A string without NUL comes back from the byte array built from it. */
  lemma StringRoundTrip(s: string)
    requires forall i :: 0 <= i < |s| ==> IsOctetChar(s[i]) && s[i] != '\0'
    ensures GetIeString(Encode(IeByteArray(OctetsOf(s)))) == s
  {
    var bs := OctetsOf(s);
    assert 0 !in bs by {
      forall i | 0 <= i < |bs| ensures bs[i] != 0 {
        assert bs[i] == s[i] as int;
      }
    }
    NoNulIsWhole(bs);
    StringOfOctetsOf(s);
  }

  lemma {:induction false} NoNulIsWhole(bs: seq<byte>)
    requires 0 !in bs
    ensures BeforeNul(bs) == bs
  {
    if |bs| > 0 {
      assert 0 !in bs[1..];
      NoNulIsWhole(bs[1..]);
    }
  }
}

=== FILE: bytes.dfy ===
/** Octets, C integer arithmetic and the byte view of C++ strings. */
module Bytes {

  /** An `unsigned char`. */
  type byte = x: int | 0 <= x < 256

  /** C's `/` for a positive divisor: the quotient is truncated toward zero. */
  function CDiv(a: int, d: int): (q: int)
    requires d > 0
    ensures a >= 0 ==> q == a / d
    ensures a < 0 ==> q == -((-a) / d)
  {
    if a >= 0 then a / d else -((-a) / d)
  }

  /** C's `%` for a positive divisor: the remainder takes the sign of `a`. */
  function CRem(a: int, d: int): (r: int)
    requires d > 0
    ensures a >= 0 ==> r == a % d
    ensures a < 0 ==> r == -((-a) % d)
  {
    if a >= 0 then a % d else -((-a) % d)
  }

  /** The low nibble of a two's-complement integer (`x & 0x0f`). */
  function LowNibble(x: int): (n: int)
    ensures 0 <= n < 16
  {
    x % 16
  }

  /** The value stored by an assignment into an `unsigned char`. */
  function Truncate(x: int): (b: byte)
    ensures 0 <= x < 256 ==> b == x
  {
    x % 256
  }

  /** 2 to the power `k`. */
  function Pow2(k: nat): (p: nat)
    ensures p > 0
  {
    if k == 0 then 1 else 2 * Pow2(k - 1)
  }

  /** Bitwise or of two non-negative integers, bit by bit from the lowest. */
  function Or(a: nat, b: nat): nat
    decreases a + b
  {
    if a == 0 then b
    else if b == 0 then a
    else (if a % 2 == 1 || b % 2 == 1 then 1 else 0) + 2 * Or(a / 2, b / 2)
  }

  /** Or keeps a bound of `k` bits. */
  lemma {:induction false} OrBelow(a: nat, b: nat, k: nat)
    requires a < Pow2(k) && b < Pow2(k)
    ensures Or(a, b) < Pow2(k)
    decreases k
  {
    if a != 0 && b != 0 {
      OrBelow(a / 2, b / 2, k - 1);
    }
  }

  /** Or of a value below `2^k` and a multiple of `2^k` is their sum: the
      bits do not meet. */
  lemma {:induction false} OrDisjoint(a: nat, b: nat, k: nat)
    requires a < Pow2(k) && b % Pow2(k) == 0
    ensures Or(a, b) == a + b
    decreases k
  {
    if a != 0 && b != 0 {
      assert k > 0;
      var q := b / Pow2(k);
      assert b == Pow2(k) * q;
      assert b == 2 * (Pow2(k - 1) * q);
      DivModUnique(b / 2, Pow2(k - 1), q, 0);
      OrDisjoint(a / 2, b / 2, k - 1);
    }
  }

  /** `|` on two octets. */
  function OrByte(a: byte, b: byte): (r: byte)
    ensures r == Or(a, b)
  {
    assert Pow2(8) == 256 by {
      assert Pow2(4) == 16;
    }
    OrBelow(a, b, 8);
    Or(a, b)
  }

  /** A character that a `std::string` can hold as one octet. */
  predicate IsOctetChar(c: char) {
    c as int < 256
  }

  /** The octets of a `std::string` (each `char` read as `unsigned char`). */
  function OctetsOf(s: string): (bs: seq<byte>)
    ensures |bs| == |s|
    ensures forall i :: 0 <= i < |s| && IsOctetChar(s[i]) ==> bs[i] == s[i] as int
  {
    seq(|s|, i requires 0 <= i < |s| => Truncate(s[i] as int))
  }

  /** The `std::string` holding the given octets. */
  function StringOf(bs: seq<byte>): (s: string)
    ensures |s| == |bs|
    ensures forall i :: 0 <= i < |bs| ==> IsOctetChar(s[i]) && s[i] as int == bs[i]
  {
    seq(|bs|, i requires 0 <= i < |bs| => bs[i] as char)
  }

  lemma OctetsOfStringOf(bs: seq<byte>)
    ensures OctetsOf(StringOf(bs)) == bs
  {
  }

  lemma StringOfOctetsOf(s: string)
    requires forall i :: 0 <= i < |s| ==> IsOctetChar(s[i])
    ensures StringOf(OctetsOf(s)) == s
  {
  }

  /** 256 to the power `n`. */
  function Pow256(n: nat): (p: nat)
    ensures p > 0
  {
    if n == 0 then 1 else 256 * Pow256(n - 1)
  }

  /** The `n` low octets of `x`, most significant first: octet `k` from the
      right is `(x >> 8k) & 0xff` with an arithmetic shift. */
  function BigEndian(n: nat, x: int): (bs: seq<byte>)
    ensures |bs| == n
  {
    if n == 0 then [] else BigEndian(n - 1, x / 256) + [x % 256]
  }

  /** The unsigned number octets denote, most significant first
      (`v = v << 8; v += ch[i]` over the octets). */
  function BeValue(bs: seq<byte>): nat {
    if |bs| == 0 then 0 else BeValue(bs[..|bs| - 1]) * 256 + bs[|bs| - 1]
  }

  lemma MulAtLeast(m: int, k: int)
    requires m > 0 && k >= 1
    ensures m * k >= m
  {
    assert m * k == m * (k - 1) + m;
    assert m * (k - 1) >= 0;
  }

  /** Quotient and remainder are the unique pair that rebuilds `x`. */
  lemma DivModUnique(x: int, m: int, q: int, t: int)
    requires m > 0 && x == m * q + t && 0 <= t < m
    ensures x % m == t && x / m == q
  {
    var q', t' := x / m, x % m;
    assert x == m * q' + t';
    assert m * (q - q') == t' - t;
    if q > q' {
      MulAtLeast(m, q - q');
    } else if q < q' {
      MulAtLeast(m, q' - q);
    }
  }

  lemma ModOfProduct(x: int, d: int)
    requires d > 0
    ensures (x / 256 % d) * 256 + x % 256 == x % (256 * d)
  {
    var a, b := x / 256, x % 256;
    var q, r := a / d, a % d;
    assert a == d * q + r;
    assert x == (256 * d) * q + (256 * r + b);
    DivModUnique(x, 256 * d, q, 256 * r + b);
  }

  /** Reading back `n` big-endian octets gives `x` modulo `256^n`. */
  lemma {:induction false} BeValueOfBigEndian(n: nat, x: int)
    ensures BeValue(BigEndian(n, x)) == x % Pow256(n)
  {
    if n > 0 {
      var bs := BigEndian(n, x);
      assert bs[..n - 1] == BigEndian(n - 1, x / 256);
      BeValueOfBigEndian(n - 1, x / 256);
      ModOfProduct(x, Pow256(n - 1));
    }
  }

  /** Writing back the value of some octets reproduces them. */
  lemma {:induction false} BigEndianOfBeValue(bs: seq<byte>)
    ensures BigEndian(|bs|, BeValue(bs)) == bs
  {
    if |bs| > 0 {
      var init, last := bs[..|bs| - 1], bs[|bs| - 1];
      DivModUnique(BeValue(bs), 256, BeValue(init), last);
      BigEndianOfBeValue(init);
      assert bs == init + [last];
    }
  }

  /** A value that fits in `n` octets is read back unchanged. */
  lemma BeValueOfSmall(n: nat, x: int)
    requires 0 <= x < Pow256(n)
    ensures BeValue(BigEndian(n, x)) == x
  {
    BeValueOfBigEndian(n, x);
    DivModUnique(x, Pow256(n), 0, x);
  }

  lemma Pow256Small()
    ensures Pow256(1) == 0x100 && Pow256(2) == 0x1_0000 && Pow256(4) == 0x1_0000_0000
  {
    assert Pow256(2) == 256 * Pow256(1);
    assert Pow256(3) == 256 * Pow256(2);
    assert Pow256(4) == 256 * Pow256(3);
  }

  lemma BeValueBound(bs: seq<byte>)
    ensures BeValue(bs) < Pow256(|bs|)
  {
    if |bs| > 0 {
      BeValueBound(bs[..|bs| - 1]);
    }
  }
}

=== FILE: compositeie.dfy ===
/** Composite information elements: a TV composite carries one value octet,
    a TLV composite holds at most one basic element per type code and writes
    them in ascending type order. */
module CompositeIe {
  import opened Bytes
  import opened Wrappers
  import opened IeTypes
  import opened BasicIe
  import opened Tlv

  datatype CompositeIe =
    | TvComposite(ctype: byte, value: byte)
    | TlvComposite(ctype: byte, children: map<byte, BasicIe>)

  /** Any element a composite or a message can be given. */
  datatype Ie = Basic(basic: BasicIe) | Composite(composite: CompositeIe)

  function IeType(ie: Ie): byte {
    match ie
    case Basic(b) => TypeOf(b)
    case Composite(c) => c.ctype
  }

  /** Every child is filed under its own type code. */
  predicate WellKeyed(children: map<byte, BasicIe>) {
    forall k :: k in children ==> TypeOf(children[k]) == k
  }

  /** The copies `putIE` makes go through a 255-octet buffer. */
  predicate FitsBuffer(b: BasicIe) {
    b.IeByteArray? ==> |b.bytes| <= 255
  }

  predicate ValidChildren(children: map<byte, BasicIe>) {
    WellKeyed(children) && forall k :: k in children ==> FitsBuffer(children[k])
  }

  /** The layout follows the type code and the children are filed by type. */
  predicate ValidComposite(c: CompositeIe) {
    match c
    case TvComposite(t, _) => IsTypeValue(t)
    case TlvComposite(t, ch) => !IsTypeValue(t) && ValidChildren(ch)
  }

  /** The children a composite holds; a TV composite holds none. */
  function ChildrenOf(c: CompositeIe): map<byte, BasicIe> {
    if c.TlvComposite? then c.children else map[]
  }

  // ---------------------------------------------------------------------
  // Children

  /** `putIE`: a basic element replaces the child of its type; anything
      else (a composite, or a message) is ignored. */
  function PutIe(children: map<byte, BasicIe>, ie: Ie): (r: map<byte, BasicIe>)
    requires ie.Basic? ==> FitsBuffer(ie.basic)
    ensures ie.Basic? ==> TypeOf(ie.basic) in r && r[TypeOf(ie.basic)] == ie.basic
    ensures ie.Composite? ==> r == children
    ensures forall k :: k != IeType(ie) ==> (k in r <==> k in children)
    ensures forall k :: k in r && k != IeType(ie) ==> r[k] == children[k]
    ensures ValidChildren(children) ==> ValidChildren(r)
  {
    match ie
    case Basic(b) => children[TypeOf(b) := b]
    case Composite(_) => children
  }

  predicate Puttable(ies: seq<Ie>) {
    forall i :: 0 <= i < |ies| ==> (ies[i].Basic? ==> FitsBuffer(ies[i].basic))
  }

  /** The children after putting the elements one by one. */
  function PutAll(children: map<byte, BasicIe>, ies: seq<Ie>): (r: map<byte, BasicIe>)
    requires Puttable(ies)
    ensures ValidChildren(children) ==> ValidChildren(r)
    decreases |ies|
  {
    if |ies| == 0 then children else PutAll(PutIe(children, ies[0]), ies[1..])
  }

  /** The vector constructor: TV keeps only the value octet, TLV puts each
      element of the vector. */
  function NewComposite(ctype: byte, value: byte, ies: seq<Ie>): (c: CompositeIe)
    requires Puttable(ies)
    ensures ValidComposite(c)
    ensures c.ctype == ctype
    ensures IsTypeValue(ctype) ==> c == TvComposite(ctype, value)
  {
    if IsTypeValue(ctype) then TvComposite(ctype, value)
    else TlvComposite(ctype, PutAll(map[], ies))
  }

  /** `removeIE`: the child of that type is gone, all others stay. */
  function RemoveIe(children: map<byte, BasicIe>, t: byte): (r: map<byte, BasicIe>)
    ensures t !in r
    ensures forall k :: k != t ==> (k in r <==> k in children)
    ensures forall k :: k in r ==> r[k] == children[k]
  {
    children - {t}
  }

  function ContainsIe(children: map<byte, BasicIe>, t: byte): bool {
    t in children
  }

  // ---------------------------------------------------------------------
  // Typed getters: the child of the kind's own type, or a default.

  function GetIeByte(c: CompositeIe): (r: byte)
    requires ValidComposite(c)
    ensures BYTE !in ChildrenOf(c) ==> r == 0
    ensures BYTE in ChildrenOf(c) ==> IeByte(r) == ChildrenOf(c)[BYTE]
  {
    var ch := ChildrenOf(c);
    if BYTE in ch then ch[BYTE].byteValue else 0
  }

  function GetIeInteger(c: CompositeIe): (r: int)
    requires ValidComposite(c)
    ensures INTEGER !in ChildrenOf(c) ==> r == 0
    ensures INTEGER in ChildrenOf(c) ==> IeInteger(r) == ChildrenOf(c)[INTEGER]
  {
    var ch := ChildrenOf(c);
    if INTEGER in ch then ch[INTEGER].intValue else 0
  }

  function GetIeLong(c: CompositeIe): (r: int)
    requires ValidComposite(c)
    ensures LONG !in ChildrenOf(c) ==> r == 0
    ensures LONG in ChildrenOf(c) ==> IeLong(r) == ChildrenOf(c)[LONG]
  {
    var ch := ChildrenOf(c);
    if LONG in ch then ch[LONG].longValue else 0
  }

  /** The byte array child, or length 0 when absent. */
  function GetIeByteArray(c: CompositeIe): (r: seq<byte>)
    requires ValidComposite(c)
    ensures BYTE_ARRAY !in ChildrenOf(c) ==> r == []
    ensures BYTE_ARRAY in ChildrenOf(c) ==> IeByteArray(r) == ChildrenOf(c)[BYTE_ARRAY]
  {
    var ch := ChildrenOf(c);
    if BYTE_ARRAY in ch then ch[BYTE_ARRAY].bytes else []
  }

  /** The byte array child read as a C string, or "" when absent. */
  function GetIeStringOf(c: CompositeIe): (r: string)
    requires ValidComposite(c)
    ensures BYTE_ARRAY !in ChildrenOf(c) ==> r == ""
    ensures BYTE_ARRAY in ChildrenOf(c) ==> r == GetIeString(ChildrenOf(c)[BYTE_ARRAY].bytes)
  {
    GetIeString(GetIeByteArray(c))
  }

  /** The date child; None stands for the uninitialised `tm` returned when
      it is absent. */
  function GetIeDate(c: CompositeIe): (r: Option<Date>)
    requires ValidComposite(c)
    ensures r.Some? <==> DATE in ChildrenOf(c)
    ensures r.Some? ==> IeDate(r.value) == ChildrenOf(c)[DATE]
  {
    var ch := ChildrenOf(c);
    if DATE in ch then Some(ch[DATE].date) else None
  }

  function GetIeTimestamp(c: CompositeIe): (r: Option<Timestamp>)
    requires ValidComposite(c)
    ensures r.Some? <==> TIMESTAMP in ChildrenOf(c)
    ensures r.Some? ==> IeTimestamp(r.value) == ChildrenOf(c)[TIMESTAMP]
  {
    var ch := ChildrenOf(c);
    if TIMESTAMP in ch then Some(ch[TIMESTAMP].timestamp) else None
  }

  // ---------------------------------------------------------------------
  // Encoding

  /** The fields of the given children, in the order of `ks`. */
  function ChildFields(children: map<byte, BasicIe>, ks: seq<byte>): (fs: seq<Field>)
    requires ValidChildren(children)
    requires forall i :: 0 <= i < |ks| ==> ks[i] in children
    ensures |fs| == |ks|
    ensures forall i :: 0 <= i < |ks| ==> fs[i] == Field(ks[i], Encode(children[ks[i]]))
    ensures forall i :: 0 <= i < |fs| ==> ValidField(fs[i])
  {
    seq(|ks|, i requires 0 <= i < |ks| => Field(ks[i], Encode(children[ks[i]])))
  }

  /** `getValue`: the value octet of a TV composite, or the children of a
      TLV composite in ascending type order. */
  function Value(c: CompositeIe): (v: seq<byte>)
    requires ValidComposite(c)
    ensures c.TvComposite? ==> v == [c.value]
  {
    match c
    case TvComposite(_, x) => [x]
    case TlvComposite(_, ch) =>
      AscendingKeysSpec(ch.Keys);
      Join(ChildFields(ch, AscendingKeys(ch.Keys)))
  }

  // ---------------------------------------------------------------------
  // Decoding

  /** Each basic field is long enough for its kind to assign its fields. */
  predicate DecodableFields(fs: seq<Field>) {
    forall i :: 0 <= i < |fs| && IsBasicType(fs[i].ftype) ==>
      |fs[i].value| >= ValueLength(KindOf(fs[i].ftype).value)
  }

  /** The children the scan builds: each basic field replaces the child of
      its type, every other field is dropped. */
  function CollectBasic(fs: seq<Field>): (ch: map<byte, BasicIe>)
    requires DecodableFields(fs)
    ensures WellKeyed(ch)
    ensures forall k :: k in ch <==> IsBasicType(k) && exists i :: 0 <= i < |fs| && fs[i].ftype == k
    decreases |fs|
  {
    if |fs| == 0 then map[]
    else
      var init, f := fs[..|fs| - 1], fs[|fs| - 1];
      assert forall i :: 0 <= i < |init| ==> init[i] == fs[i];
      var ch := CollectBasic(init);
      match Decode(f.ftype, f.value)
      case Some(b) => ch[f.ftype := b]
      case None => ch
  }

  /** The buffer a TLV composite decodes from. */
  predicate DecodableTlv(v: seq<byte>) {
    WellFramed(v) && DecodableFields(Split(v))
  }

  /** The decoding constructor: a TV composite takes the first octet, a TLV
      composite scans its fields. */
  function DecodeComposite(t: byte, v: seq<byte>): (c: CompositeIe)
    requires IsTypeValue(t) ==> |v| > 0
    requires !IsTypeValue(t) ==> DecodableTlv(v)
    ensures c.ctype == t
    ensures c.TvComposite? <==> IsTypeValue(t)
  {
    if IsTypeValue(t) then TvComposite(t, v[0])
    else TlvComposite(t, CollectBasic(Split(v)))
  }

  /** The last field of a basic type decides the child of that type. */
  lemma {:induction false} LastFieldWins(fs: seq<Field>, j: nat)
    requires DecodableFields(fs)
    requires j < |fs| && IsBasicType(fs[j].ftype)
    requires forall i :: j < i < |fs| ==> fs[i].ftype != fs[j].ftype
    ensures Some(CollectBasic(fs)[fs[j].ftype]) == Decode(fs[j].ftype, fs[j].value)
    decreases |fs|
  {
    var init := fs[..|fs| - 1];
    assert forall i :: 0 <= i < |init| ==> init[i] == fs[i];
    if j < |fs| - 1 {
      LastFieldWins(init, j);
    }
  }

  /** The fields of some children, keys distinct, decode back to them. */
  lemma ChildFieldsDecode(children: map<byte, BasicIe>, ks: seq<byte>)
    requires ValidChildren(children)
    requires forall i :: 0 <= i < |ks| ==> ks[i] in children && Representable(children[ks[i]])
    ensures DecodableFields(ChildFields(children, ks))
    ensures forall i :: 0 <= i < |ks| ==>
      Decode(ks[i], Encode(children[ks[i]])) == Some(children[ks[i]])
  {
    forall i | 0 <= i < |ks|
      ensures Decode(ks[i], Encode(children[ks[i]])) == Some(children[ks[i]])
    {
      RoundTrip(children[ks[i]]);
    }
  }

  /** The last field of the children's encoding sets the last key. */
  lemma CollectLastChild(children: map<byte, BasicIe>, ks: seq<byte>)
    requires ValidChildren(children) && |ks| > 0
    requires forall i :: 0 <= i < |ks| ==> ks[i] in children && Representable(children[ks[i]])
    requires DecodableFields(ChildFields(children, ks))
    ensures DecodableFields(ChildFields(children, ks[..|ks| - 1]))
    ensures CollectBasic(ChildFields(children, ks)) ==
      CollectBasic(ChildFields(children, ks[..|ks| - 1]))[ks[|ks| - 1] := children[ks[|ks| - 1]]]
  {
    var fs := ChildFields(children, ks);
    var last := ks[|ks| - 1];
    assert fs[..|fs| - 1] == ChildFields(children, ks[..|ks| - 1]);
    assert fs[|fs| - 1] == Field(last, Encode(children[last]));
    assert Decode(last, Encode(children[last])) == Some(children[last]) by {
      RoundTrip(children[last]);
    }
  }

  /** Collecting the fields of some children, keys distinct, rebuilds those
      children. */
  lemma {:induction false} CollectChildFields(children: map<byte, BasicIe>, ks: seq<byte>)
    requires ValidChildren(children)
    requires forall i :: 0 <= i < |ks| ==> ks[i] in children && Representable(children[ks[i]])
    ensures DecodableFields(ChildFields(children, ks))
    ensures forall k :: k in CollectBasic(ChildFields(children, ks)) <==> k in ks
    ensures forall k :: k in CollectBasic(ChildFields(children, ks)) ==>
      CollectBasic(ChildFields(children, ks))[k] == children[k]
    decreases |ks|
  {
    ChildFieldsDecode(children, ks);
    if |ks| > 0 {
      var init := ks[..|ks| - 1];
      var last := ks[|ks| - 1];
      CollectChildFields(children, init);
      CollectLastChild(children, ks);
      var prev := CollectBasic(ChildFields(children, init));
      var now := CollectBasic(ChildFields(children, ks));
      assert now == prev[last := children[last]];
      forall k
        ensures k in now <==> k in ks
        ensures k in now ==> now[k] == children[k]
      {
        assert k in ks <==> k in init || k == last;
      }
    }
  }

  /** Predicate for composites whose children all survive the encoding. */
  predicate RepresentableComposite(c: CompositeIe) {
    ValidComposite(c) && forall k :: k in ChildrenOf(c) ==> Representable(ChildrenOf(c)[k])
  }

  /** The fields of all children, in ascending order, decode to the children. */
  lemma ChildrenRoundTrip(ch: map<byte, BasicIe>, ks: seq<byte>)
    requires ValidChildren(ch)
    requires forall k :: k in ch ==> Representable(ch[k])
    requires forall k :: k in ch <==> k in ks
    requires StrictlyAscending(ks)
    ensures DecodableTlv(Join(ChildFields(ch, ks)))
    ensures CollectBasic(Split(Join(ChildFields(ch, ks)))) == ch
  {
    assert forall i :: 0 <= i < |ks| ==> ks[i] in ch && Representable(ch[ks[i]]) by {
      forall i | 0 <= i < |ks| ensures ks[i] in ch && Representable(ch[ks[i]]) {
        assert ks[i] in ks;
      }
    }
    var fs := ChildFields(ch, ks);
    SplitJoin(fs);
    CollectChildFields(ch, ks);
    var got := CollectBasic(fs);
    assert forall k :: k in got <==> k in ch;
    MapsEqual(got, ch);
  }

  /** Decoding the encoding of a composite gives it back. */
  lemma CompositeRoundTrip(c: CompositeIe)
    requires RepresentableComposite(c)
    ensures IsTypeValue(c.ctype) ==> |Value(c)| > 0
    ensures !IsTypeValue(c.ctype) ==> DecodableTlv(Value(c))
    ensures DecodeComposite(c.ctype, Value(c)) == c
  {
    if c.TlvComposite? {
      var ch := c.children;
      assert ChildrenOf(c) == ch;
      AscendingKeysSpec(ch.Keys);
      ChildrenRoundTrip(ch, AscendingKeys(ch.Keys));
    }
  }
}

=== FILE: dialog.dfy ===
/** Dialogs of the MAP side: the state guard, the dialog cache keyed by
    dialog id with its periodic expiry sweep, the escalation every dialog
    flavour applies when checked, and the per-item step of the queue that
    hands primitives to the MAP stack. Dialogs are shared objects in the
    source; here a dialog is a value and a step returns the dialog and the
    cache it leaves behind. Times are in seconds and passed in. */
module Dialogs {
  import opened Bytes
  import opened Wrappers

  const NEW: byte := 0
  const OPEN: byte := 1
  const W_OPEN: byte := 2
  const INVOKE: byte := 3
  const W_INVOKE: byte := 4
  const CLOSE_0: byte := 5
  const CLOSE_1: byte := 6
  const W_CLOSE_0: byte := 7
  const W_CLOSE_1: byte := 8
  const ABORT_0: byte := 9
  const ABORT_1: byte := 10

  const TIME_10S := 10
  const TIME_20S := 20
  const TIME_60S := 60
  const TIME_120S := 120
  const DEFAULT_TIME_TO_CHECK := TIME_20S

  /** How often the cache is swept, in milliseconds. */
  const CHECK_PERIOD := 16000

  /** The states `setDialogState` guards: once closing or aborting, a
      dialog only advances to the matching stage-1 state. */
  predicate IsClosing(s: byte) {
    s == CLOSE_0 || s == CLOSE_1 || s == ABORT_0 || s == ABORT_1
  }

  /** The states a dialog is evicted in. */
  predicate IsFinal(s: byte) {
    s == CLOSE_1 || s == ABORT_1
  }

  /** `setDialogState`: the state after asking for `target`. */
  function SetDialogState(current: byte, target: byte): (r: byte)
    ensures !IsClosing(current) ==> r == target
    ensures IsClosing(current) ==> IsClosing(r)
    ensures IsFinal(current) ==> r == current
    ensures current == CLOSE_0 ==> r == (if target == CLOSE_1 then CLOSE_1 else CLOSE_0)
    ensures current == ABORT_0 ==> r == (if target == ABORT_1 then ABORT_1 else ABORT_0)
  {
    if !IsClosing(current) then target
    else if current == CLOSE_0 && target == CLOSE_1 then target
    else if current == ABORT_0 && target == ABORT_1 then target
    else current
  }

  /** The state after asking for each target in turn. */
  function SetDialogStates(s: byte, targets: seq<byte>): byte
    decreases |targets|
  {
    if |targets| == 0 then s else SetDialogStates(SetDialogState(s, targets[0]), targets[1..])
  }

  /** CLOSE_1 and ABORT_1 never change, whatever is asked for. */
  lemma {:induction false} FinalStatesAbsorb(s: byte, targets: seq<byte>)
    requires IsFinal(s)
    ensures SetDialogStates(s, targets) == s
    decreases |targets|
  {
    if |targets| > 0 {
      FinalStatesAbsorb(SetDialogState(s, targets[0]), targets[1..]);
    }
  }

  /** From CLOSE_0 a dialog ends in CLOSE_1 iff CLOSE_1 was asked for at
      some point, and in CLOSE_0 otherwise. */
  lemma {:induction false} CloseAdvancesOnce(targets: seq<byte>)
    ensures SetDialogStates(CLOSE_0, targets) == if CLOSE_1 in targets then CLOSE_1 else CLOSE_0
    decreases |targets|
  {
    if |targets| > 0 {
      var s := SetDialogState(CLOSE_0, targets[0]);
      assert targets == [targets[0]] + targets[1..];
      if s == CLOSE_1 {
        FinalStatesAbsorb(s, targets[1..]);
      } else {
        CloseAdvancesOnce(targets[1..]);
      }
    }
  }

  /** From ABORT_0 a dialog ends in ABORT_1 iff ABORT_1 was asked for at
      some point, and in ABORT_0 otherwise. */
  lemma {:induction false} AbortAdvancesOnce(targets: seq<byte>)
    ensures SetDialogStates(ABORT_0, targets) == if ABORT_1 in targets then ABORT_1 else ABORT_0
    decreases |targets|
  {
    if |targets| > 0 {
      var s := SetDialogState(ABORT_0, targets[0]);
      assert targets == [targets[0]] + targets[1..];
      if s == ABORT_1 {
        FinalStatesAbsorb(s, targets[1..]);
      } else {
        AbortAdvancesOnce(targets[1..]);
      }
    }
  }

  /** Outside the guarded states, and while no guarded state is asked for,
      the dialog is in the state asked for last. */
  lemma {:induction false} OpenStatesFollowLast(s: byte, targets: seq<byte>)
    requires !IsClosing(s)
    requires forall i :: 0 <= i < |targets| ==> !IsClosing(targets[i])
    ensures SetDialogStates(s, targets) == if |targets| == 0 then s else targets[|targets| - 1]
    decreases |targets|
  {
    if |targets| > 0 {
      OpenStatesFollowLast(targets[0], targets[1..]);
    }
  }

  // ---------------------------------------------------------------------
  // Dialogs

  /** The fields every dialog has; `data` is the flavour's own. `cTime` is
      the time the dialog is next looked at by the sweep. */
  datatype Dialog<D> = Dialog(dialogId: int, invokeId: int, state: byte, cTime: int, data: D)

  /** The default constructor: checked 20 seconds from now. */
  function NewDialog<D>(now: int, data: D): (d: Dialog<D>)
    ensures d.state == NEW && d.dialogId == 0 && d.invokeId == 0
    ensures d.cTime == now + 20 && d.data == data
  {
    Dialog(0, 0, NEW, now + DEFAULT_TIME_TO_CHECK, data)
  }

  /** The constructor with a time to live, in seconds. */
  function NewDialogWithTtl<D>(now: int, timeToLive: int, data: D): (d: Dialog<D>)
    ensures d.state == NEW && d.dialogId == 0 && d.invokeId == 0
    ensures d.cTime == now + timeToLive && d.data == data
  {
    Dialog(0, 0, NEW, now + timeToLive, data)
  }

  /** `setDialogState` on a dialog; nothing else changes. */
  function SetState<D>(d: Dialog<D>, target: byte): (r: Dialog<D>)
    ensures r.state == SetDialogState(d.state, target)
    ensures r == d.(state := r.state)
  {
    d.(state := SetDialogState(d.state, target))
  }

  // ---------------------------------------------------------------------
  // The dialog cache

  type Cache<D> = map<int, Dialog<D>>

  /** Every dialog is filed under its own id. */
  predicate WellKeyed<D>(cache: Cache<D>) {
    forall k :: k in cache ==> cache[k].dialogId == k
  }

  /** `put`: the dialog replaces any dialog with its id. */
  function Put<D>(cache: Cache<D>, d: Dialog<D>): (r: Cache<D>)
    ensures d.dialogId in r && r[d.dialogId] == d
    ensures forall k :: k != d.dialogId ==> (k in r <==> k in cache)
    ensures forall k :: k in r && k != d.dialogId ==> r[k] == cache[k]
    ensures WellKeyed(cache) ==> WellKeyed(r)
  {
    cache[d.dialogId := d]
  }

  /** `remove`: the dialog of that id is gone; an absent id changes nothing. */
  function Remove<D>(cache: Cache<D>, id: int): (r: Cache<D>)
    ensures id !in r
    ensures forall k :: k != id ==> (k in r <==> k in cache)
    ensures forall k :: k in r ==> r[k] == cache[k]
    ensures id !in cache ==> r == cache
    ensures WellKeyed(cache) ==> WellKeyed(r)
  {
    cache - {id}
  }

  /** Reading back what was put, and what was removed. */
  lemma CacheRoundTrip<D>(cache: Cache<D>, d: Dialog<D>, id: int)
    ensures Find(Put(cache, d), d.dialogId) == Some(d)
    ensures id != d.dialogId ==> Find(Put(cache, d), id) == Find(cache, id)
    ensures Find(Remove(cache, id), id) == None
    ensures Remove(Put(cache, d), d.dialogId) == Remove(cache, d.dialogId)
  {
  }

  // ---------------------------------------------------------------------
  // Checking

  /** The `check()` escalation, the same in every dialog flavour: waiting
      for the invoke or for the close goes one step on, a stage-0 close or
      abort goes to stage 1, everything else stays. */
  function Escalate(s: byte): (r: byte)
    ensures SetDialogState(s, r) == r
    ensures IsClosing(s) <==> IsClosing(r)
  {
    if s == W_INVOKE then W_CLOSE_0
    else if s == CLOSE_0 then CLOSE_1
    else if s == W_CLOSE_0 then W_CLOSE_1
    else if s == ABORT_0 then ABORT_1
    else s
  }

  /** A check in W_CLOSE_1 sends a U-ABORT and leaves the state alone. */
  predicate AbortsOnCheck(s: byte) {
    s == W_CLOSE_1
  }

  /** Escalation goes through `setDialogState` without being refused, moves
      exactly the four waiting or stage-0 states, and never leaves the
      closing states. */
  lemma EscalateProperties(s: byte)
    ensures SetDialogState(s, Escalate(s)) == Escalate(s)
    ensures Escalate(s) != s <==> s in {W_INVOKE, CLOSE_0, W_CLOSE_0, ABORT_0}
    ensures IsClosing(s) <==> IsClosing(Escalate(s))
    ensures IsFinal(Escalate(s)) <==> s in {CLOSE_0, CLOSE_1, ABORT_0, ABORT_1}
    ensures Escalate(Escalate(s)) == Escalate(s) || s == W_INVOKE
  {
  }

  /** A dialog stalled in W_INVOKE reaches W_CLOSE_1 after two checks and
      sends a U-ABORT on every check after that, never skipping a state. */
  lemma StalledInvokeAborts()
    ensures Escalate(W_INVOKE) == W_CLOSE_0
    ensures Escalate(W_CLOSE_0) == W_CLOSE_1
    ensures Escalate(W_CLOSE_1) == W_CLOSE_1 && AbortsOnCheck(W_CLOSE_1)
    ensures !AbortsOnCheck(W_INVOKE) && !AbortsOnCheck(W_CLOSE_0)
  {
  }

  /** A dialog whose check time has passed. */
  predicate Expired<D>(d: Dialog<D>, now: int) {
    d.cTime < now
  }

  /** A dialog after its check: escalated and looked at again in ten
      seconds. */
  function Checked<D>(d: Dialog<D>, now: int): (r: Dialog<D>)
    ensures r.state == Escalate(d.state) && r.cTime == now + TIME_10S
    ensures r.dialogId == d.dialogId && r.invokeId == d.invokeId && r.data == d.data
  {
    d.(state := Escalate(d.state), cTime := now + TIME_10S)
  }

  datatype SweepResult<D> = SweepResult(cache: Cache<D>, aborts: set<int>)

  /** The sweep (`DialogCache::check`) at time `now`: of the dialogs whose
      check time has passed, those in CLOSE_1 or ABORT_1 are removed and the
      others are checked; `aborts` holds the ids a U-ABORT is sent for. */
  function Sweep<D>(cache: Cache<D>, now: int): (r: SweepResult<D>)
    ensures forall k :: k in r.cache <==> k in cache && !(Expired(cache[k], now) && IsFinal(cache[k].state))
    ensures forall k :: k in r.cache && !Expired(cache[k], now) ==> r.cache[k] == cache[k]
    ensures forall k :: k in r.cache && Expired(cache[k], now) ==> r.cache[k] == Checked(cache[k], now)
    ensures forall k :: k in r.aborts <==> k in cache && Expired(cache[k], now) && AbortsOnCheck(cache[k].state)
  {
    var kept := map k | k in cache && !(Expired(cache[k], now) && IsFinal(cache[k].state)) ::
      if Expired(cache[k], now) then Checked(cache[k], now) else cache[k];
    SweepResult(kept, set k | k in cache && Expired(cache[k], now) && AbortsOnCheck(cache[k].state))
  }

  /** The sweep files every dialog under the id it had, and afterwards no
      dialog's check time is before `now`. */
  lemma SweepKeeps<D>(cache: Cache<D>, now: int)
    ensures WellKeyed(cache) ==> WellKeyed(Sweep(cache, now).cache)
    ensures forall k :: k in Sweep(cache, now).cache ==> !Expired(Sweep(cache, now).cache[k], now)
  {
  }

  /** A second sweep at the same time changes nothing and sends nothing. */
  lemma SweepIdempotent<D>(cache: Cache<D>, now: int)
    ensures Sweep(Sweep(cache, now).cache, now) == SweepResult(Sweep(cache, now).cache, {})
  {
    var c := Sweep(cache, now).cache;
    SweepKeeps(cache, now);
    assert Sweep(c, now).cache == c;
  }

  /** A dialog in CLOSE_0 or ABORT_0 whose time has passed is gone after
      the next sweep more than ten seconds later. */
  lemma StageZeroEvicted<D>(cache: Cache<D>, id: int, now: int, later: int)
    requires id in cache && Expired(cache[id], now)
    requires cache[id].state == CLOSE_0 || cache[id].state == ABORT_0
    requires later > now + TIME_10S
    ensures id in Sweep(cache, now).cache
    ensures id !in Sweep(Sweep(cache, now).cache, later).cache
  {
  }

  // ---------------------------------------------------------------------
  // Primitives handed to the MAP stack

  /** The application contexts of the dialogs this gateway opens. */
  datatype Context = ShortMsgGatewayV1 | ShortMsgMtRelayV2

  /** The operations a dialog asks of the remote side. The MT request
      carries both identities; the block builder sends the IMSI when there
      is one and the LMSI otherwise. */
  datatype Operation =
    | SendRoutingInfoForSm(msisdn: string, msisdnType: byte, smRpPri: byte)
    | MtForwardSm(tpdu: seq<byte>, imsi: string, lmsi: string)

  /** A block pushed for a dialog. `Open` opens a dialog towards the remote
      global title and subsystem; `Error` carries a MAP error code. */
  datatype Primitive =
    | Open(context: Context, remoteSsn: int, remoteGt: string, remoteGtType: byte)
    | OpenRes
    | Request(operation: Operation)
    | Delimiter
    | Close
    | UAbort
    | Error(code: int)
    | MoResult

  datatype PutOutcome<D> = PutOutcome(dialog: Dialog<D>, cache: Cache<D>, sent: bool)

  /** The cached copy of a dialog follows the dialog: the source caches the
      dialog object itself. */
  function WriteBack<D>(cache: Cache<D>, d: Dialog<D>): (r: Cache<D>)
    ensures d.dialogId in cache ==> r == Put(cache, d)
    ensures d.dialogId !in cache ==> r == cache
  {
    if d.dialogId in cache then cache[d.dialogId := d] else cache
  }

  /** One item of `PutGBlockQueue::run`: the primitive `p` of dialog `d` is
      skipped in CLOSE_0 and ABORT_0; otherwise it is handed to the stack,
      which accepts it (`accepted`) and gives an opened dialog its id
      `assignedId`. An accepted open request files the dialog under that id;
      an accepted close request moves it to CLOSE_0; a refused primitive
      moves it to ABORT_0. A dialog is cached only once its open is
      accepted, so a refused open leaves the cache as it is: the dialog
      filed under the same id, if any, is another one. */
  function PutGBlockStep<D>(cache: Cache<D>, d: Dialog<D>, p: Primitive, accepted: bool,
                            assignedId: int): (r: PutOutcome<D>)
    ensures r.sent <==> d.state != CLOSE_0 && d.state != ABORT_0
    ensures r.dialog.data == d.data
    ensures r.dialog.dialogId == if r.sent && accepted && p.Open? then assignedId else d.dialogId
    ensures r.sent && !accepted ==> IsClosing(r.dialog.state)
  {
    if d.state == CLOSE_0 || d.state == ABORT_0 then PutOutcome(d, cache, false)
    else if !accepted then
      var d' := SetState(d, ABORT_0);
      PutOutcome(d', if p.Open? then cache else WriteBack(cache, d'), true)
    else if p.Open? then
      var d' := d.(dialogId := assignedId);
      PutOutcome(d', Put(cache, d'), true)
    else if p.Close? then
      var d' := SetState(d, CLOSE_0);
      PutOutcome(d', WriteBack(cache, d'), true)
    else PutOutcome(d, cache, true)
  }

  /** What the step does, case by case, and that it keeps the cache filed
      by id. */
  lemma PutGBlockStepProperties<D>(cache: Cache<D>, d: Dialog<D>, p: Primitive, accepted: bool,
                                   assignedId: int)
    requires WellKeyed(cache)
    ensures var r := PutGBlockStep(cache, d, p, accepted, assignedId);
      WellKeyed(r.cache) &&
      (r.sent <==> d.state != CLOSE_0 && d.state != ABORT_0) &&
      (!r.sent ==> r.dialog == d && r.cache == cache) &&
      (r.sent && !accepted ==> r.dialog.state == SetDialogState(d.state, ABORT_0)) &&
      (r.sent && !accepted && p.Open? ==> r.cache == cache) &&
      (r.sent && accepted && p.Open? ==>
         r.dialog == d.(dialogId := assignedId) && Find(r.cache, assignedId) == Some(r.dialog)) &&
      (r.sent && accepted && p.Close? ==> r.dialog.state == SetDialogState(d.state, CLOSE_0)) &&
      (r.sent && accepted && !p.Open? && !p.Close? ==> r.dialog == d && r.cache == cache)
  {
  }
}

=== FILE: executor.dfy ===
/** The thread pool: submitted threads take the slot of a terminated thread
    at or after the scan position, or are appended; a periodic task drops
    the terminated ones. */
module Executor {
  import opened Wrappers

  /** How often the terminated threads are dropped, in milliseconds. */
  const DELETE_TERMINATED_PERIOD := 60000

  /** A slot of the thread vector: the thread (by identity) and whether it
      has terminated. A submitted thread is started, so it is running. */
  datatype Slot = Slot(thread: int, terminated: bool)

  /** The thread vector and the scan position `threadIdx`. */
  datatype Pool = Pool(slots: seq<Slot>, threadIdx: nat)

  /** The scan position is 0 or a position of the vector. */
  predicate ValidPool(p: Pool) {
    p.threadIdx == 0 || p.threadIdx < |p.slots|
  }

  function NewPool(): (p: Pool)
    ensures ValidPool(p) && |p.slots| == 0
  {
    Pool([], 0)
  }

  /** The first terminated slot at or after `from`. */
  function FirstTerminated(slots: seq<Slot>, from: nat): (r: Option<nat>)
    ensures r.Some? ==>
      from <= r.value < |slots| && slots[r.value].terminated &&
      forall k :: from <= k < r.value ==> !slots[k].terminated
    ensures r.None? ==> forall k :: from <= k < |slots| ==> !slots[k].terminated
    decreases |slots| - from
  {
    if from >= |slots| then None
    else if slots[from].terminated then Some(from)
    else FirstTerminated(slots, from + 1)
  }

  /** What `submit` leaves behind: the thread replaces the first terminated
      slot at or after the scan position, which moves past it (back to 0 from
      the last slot); without one the thread is appended and the position
      goes back to 0. */
  function SubmitSpec(p: Pool, thread: int): Pool {
    match FirstTerminated(p.slots, p.threadIdx)
    case Some(j) =>
      Pool(p.slots[j := Slot(thread, false)], if j < |p.slots| - 1 then j + 1 else 0)
    case None => Pool(p.slots + [Slot(thread, false)], 0)
  }

  /** `submit`. */
  method Submit(p: Pool, thread: int) returns (r: Pool)
    requires ValidPool(p)
    ensures r == SubmitSpec(p, thread)
  {
    var slots := p.slots;
    var idx: nat := p.threadIdx;
    while idx < |slots|
      invariant p.threadIdx <= idx
      invariant idx < |slots| || idx == p.threadIdx
      invariant FirstTerminated(slots, idx) == FirstTerminated(slots, p.threadIdx)
    {
      if slots[idx].terminated {
        var next := if idx < |slots| - 1 then idx + 1 else 0;
        return Pool(slots[idx := Slot(thread, false)], next);
      } else if idx < |slots| - 1 {
        idx := idx + 1;
      } else {
        break;
      }
    }
    return Pool(slots + [Slot(thread, false)], 0);
  }

  /** `submit` keeps the pool valid, starts the thread in some slot, grows
      the vector only when no terminated slot was found, and never touches a
      running thread. */
  lemma SubmitProperties(p: Pool, thread: int)
    requires ValidPool(p)
    ensures var r := SubmitSpec(p, thread);
      ValidPool(r) &&
      (exists i :: 0 <= i < |r.slots| && r.slots[i] == Slot(thread, false)) &&
      (|r.slots| == |p.slots| <==>
         exists k :: p.threadIdx <= k < |p.slots| && p.slots[k].terminated) &&
      (|r.slots| != |p.slots| ==> |r.slots| == |p.slots| + 1 && r.threadIdx == 0) &&
      (forall i :: 0 <= i < |p.slots| && !p.slots[i].terminated ==> r.slots[i] == p.slots[i])
  {
    var r := SubmitSpec(p, thread);
    match FirstTerminated(p.slots, p.threadIdx)
    case Some(j) =>
      assert r.slots[j] == Slot(thread, false);
    case None =>
      assert r.slots[|p.slots|] == Slot(thread, false);
  }

  /** The threads still running, in their order. */
  function Survivors(slots: seq<Slot>): (r: seq<Slot>)
    ensures |r| <= |slots|
    ensures forall i :: 0 <= i < |r| ==> !r[i].terminated
  {
    if |slots| == 0 then []
    else if slots[0].terminated then Survivors(slots[1..])
    else [slots[0]] + Survivors(slots[1..])
  }

  /** A slot survives iff it is in the vector and running. */
  lemma {:induction false} SurvivorsExactly(slots: seq<Slot>)
    ensures forall x :: x in Survivors(slots) <==> x in slots && !x.terminated
  {
    if |slots| > 0 {
      SurvivorsExactly(slots[1..]);
      assert slots == [slots[0]] + slots[1..];
    }
  }

  /** Dropping the terminated threads keeps every running one. */
  lemma {:induction false} SurvivorsCount(slots: seq<Slot>)
    ensures |Survivors(slots)| == |slots| <==> forall i :: 0 <= i < |slots| ==> !slots[i].terminated
  {
    if |slots| > 0 {
      SurvivorsCount(slots[1..]);
      if slots[0].terminated {
        assert |Survivors(slots)| < |slots|;
      } else {
        assert forall i :: 1 <= i < |slots| ==> slots[i] == slots[1..][i - 1];
      }
    }
  }

  lemma SurvivorsAppend(a: seq<Slot>, b: seq<Slot>)
    ensures Survivors(a + b) == Survivors(a) + Survivors(b)
  {
    if |a| > 0 {
      assert (a + b)[1..] == a[1..] + b;
      SurvivorsAppend(a[1..], b);
    } else {
      assert a + b == b;
    }
  }

  /** `deleteTerminated`: the iterator walk that erases the terminated slots;
      the scan position goes back to 0. */
  method DeleteTerminated(p: Pool) returns (r: Pool)
    ensures r.slots == Survivors(p.slots) && r.threadIdx == 0
    ensures ValidPool(r)
  {
    var kept: seq<Slot> := [];
    var i := 0;
    while i < |p.slots|
      invariant 0 <= i <= |p.slots|
      invariant kept == Survivors(p.slots[..i])
    {
      SurvivorsAppend(p.slots[..i], [p.slots[i]]);
      assert p.slots[..i + 1] == p.slots[..i] + [p.slots[i]];
      if !p.slots[i].terminated {
        kept := kept + [p.slots[i]];
      }
      i := i + 1;
    }
    assert p.slots[..i] == p.slots;
    r := Pool(kept, 0);
  }

  /** A thread that finishes on its own: the only change the pool sees
      between calls. */
  function Terminate(p: Pool, i: nat): (r: Pool)
    requires i < |p.slots|
    ensures ValidPool(p) ==> ValidPool(r)
    ensures r.threadIdx == p.threadIdx && |r.slots| == |p.slots|
    ensures r.slots[i].terminated && r.slots[i].thread == p.slots[i].thread
    ensures forall k :: 0 <= k < |p.slots| && k != i ==> r.slots[k] == p.slots[k]
  {
    p.(slots := p.slots[i := p.slots[i].(terminated := true)])
  }
}

=== FILE: gblock.dfy ===
/** The digit and address helpers of GBlock: hex strings, one nibble per
    character, and the semi-octet (TBCD) packing of the MAP common data
    types (TBCD-STRING and AddressString, section 17.7.8 of 3GPP TS 29.002):
    two digits per octet, the first in the low nibble, 0xF filling an odd
    last octet. Buffers written in place are modelled by their prior
    contents, which the helpers leave alone wherever the source does. */
module GBlock {
  import opened Bytes

  /** Type-of-address octets: international and national ISDN/E.164. */
  const INTERNATIONAL_ISDN: byte := 0x91
  const NATIONAL_ISDN: byte := 0xa1

  /** The digit table `hexCh`, lower case. */
  const HEX_CH := "0123456789abcdef"

  function HexChar(n: int): (c: char)
    requires 0 <= n < 16
  {
    HEX_CH[n]
  }

  /** `isxdigit` in the C locale. */
  predicate IsXDigit(c: char) {
    ('0' <= c <= '9') || ('a' <= c <= 'f') || ('A' <= c <= 'F')
  }

  /** A lower-case hex digit, as the helpers write them. */
  predicate IsLowerHex(c: char) {
    ('0' <= c <= '9') || ('a' <= c <= 'f')
  }

  /** The lower-case form of a hex digit. */
  function LowerHex(c: char): char {
    if 'A' <= c <= 'F' then (c as int + 32) as char else c
  }

  /** `getHexO`: the value of a hex digit in either case, -1 for any other
      character. Letters are told apart by their low four bits. */
  function GetHexO(c: char): (r: int)
    ensures IsXDigit(c) ==> 0 <= r < 16
    ensures !IsXDigit(c) ==> r == -1
  {
    if IsXDigit(c) then
      if 0x2f < c as int < 0x3a then c as int - 0x30
      else
        var low := c as int % 16;
        if low == 1 then 0xa
        else if low == 2 then 0xb
        else if low == 3 then 0xc
        else if low == 4 then 0xd
        else if low == 5 then 0xe
        else if low == 6 then 0xf
        else -1
    else -1
  }

  /** A hex digit of either case is the digit of its value. */
  lemma GetHexODigit(c: char)
    requires IsXDigit(c)
    ensures HexChar(GetHexO(c)) == LowerHex(c)
  {
  }

  /** The value of a written digit is the nibble it was written for. */
  lemma GetHexOHexChar(n: int)
    requires 0 <= n < 16
    ensures GetHexO(HexChar(n)) == n
  {
  }

  lemma HexCharLower(n: int)
    requires 0 <= n < 16
    ensures IsLowerHex(HexChar(n))
    ensures n < 15 ==> HexChar(n) != 'f'
  {
  }

  // ---------------------------------------------------------------------
  // Hex strings: two characters per octet

  /** `getHexString`: high nibble first, then low nibble. */
  function GetHexString(bs: seq<byte>): (s: string)
    ensures |s| == 2 * |bs|
  {
    if |bs| == 0 then ""
    else [HexChar(bs[0] / 16), HexChar(bs[0] % 16)] + GetHexString(bs[1..])
  }

  /** Octet i is written as characters 2i (high nibble) and 2i+1. */
  lemma {:induction false} HexStringAt(bs: seq<byte>, i: nat)
    requires i < |bs|
    ensures GetHexString(bs)[2 * i] == HexChar(bs[i] / 16)
    ensures GetHexString(bs)[2 * i + 1] == HexChar(bs[i] % 16)
  {
    if i > 0 {
      HexStringAt(bs[1..], i - 1);
    }
  }

  /** The hex string holds lower-case digits only. */
  lemma HexStringLower(bs: seq<byte>)
    ensures forall k :: 0 <= k < |GetHexString(bs)| ==> IsLowerHex(GetHexString(bs)[k])
  {
    forall k | 0 <= k < |GetHexString(bs)|
      ensures IsLowerHex(GetHexString(bs)[k])
    {
      var i := k / 2;
      HexStringAt(bs, i);
      HexCharLower(bs[i] / 16);
      HexCharLower(bs[i] % 16);
      assert k == 2 * i || k == 2 * i + 1;
    }
  }

  /** A reference reading of a hex string: each pair of digits is one octet,
      the first digit high; an odd last digit is ignored. */
  function HexPairs(s: string): seq<int> {
    seq(|s| / 2, i requires 0 <= i < |s| / 2 => GetHexO(s[2 * i]) * 16 + GetHexO(s[2 * i + 1]))
  }

  /** Pair i of the hex string reads back as octet i. */
  lemma HexPairAt(bs: seq<byte>, i: nat)
    requires i < |bs|
    ensures HexPairs(GetHexString(bs))[i] == bs[i]
  {
    var s := GetHexString(bs);
    var hi, lo := bs[i] / 16, bs[i] % 16;
    HexStringAt(bs, i);
    assert s[2 * i] == HexChar(hi) && s[2 * i + 1] == HexChar(lo);
    GetHexOHexChar(hi);
    GetHexOHexChar(lo);
    assert HexPairs(s)[i] == GetHexO(s[2 * i]) * 16 + GetHexO(s[2 * i + 1]);
  }

  /** Reading the hex string back in pairs gives the octets. */
  lemma HexStringRoundTrip(bs: seq<byte>)
    ensures HexPairs(GetHexString(bs)) == bs
  {
    forall i | 0 <= i < |bs|
      ensures HexPairs(GetHexString(bs))[i] == bs[i]
    {
      HexPairAt(bs, i);
    }
  }

  // ---------------------------------------------------------------------
  // One nibble per character

  /** `getOctet`: each hex digit becomes the octet of its value; a
      non-digit leaves that octet of the buffer as it was. The length
      written back is `|str|`. */
  function GetOctet(str: string, prior: seq<byte>): (o: seq<byte>)
    requires |str| <= |prior|
    ensures |o| == |prior|
  {
    seq(|prior|, i requires 0 <= i < |prior| =>
      if i < |str| then OctetOf(str[i], prior[i]) else prior[i])
  }

  /** One octet of `getOctet`: the digit's value, or the buffer's octet. */
  function OctetOf(c: char, prior: byte): byte {
    if GetHexO(c) != -1 then GetHexO(c) else prior
  }

  lemma OctetOfLower(c: char, prior: byte)
    requires IsLowerHex(c)
    ensures OctetOf(c, prior) < 16 && HexChar(OctetOf(c, prior) % 16) == c
  {
    GetHexODigit(c);
  }

  lemma OctetOfHexChar(n: int, prior: byte)
    requires 0 <= n < 16
    ensures OctetOf(HexChar(n), prior) == n
  {
    GetHexOHexChar(n);
  }

  /** `getOctetStr`: the digit of each octet's low nibble. */
  function GetOctetStr(o: seq<byte>, len: nat): (s: string)
    requires len <= |o|
    ensures |s| == len
  {
    seq(len, i requires 0 <= i < len => HexChar(o[i] % 16))
  }

  /** A lower-case hex string survives the round trip through octets,
      whatever the buffer held before. */
  lemma OctetRoundTrip(str: string, prior: seq<byte>)
    requires |str| <= |prior|
    requires forall i :: 0 <= i < |str| ==> IsLowerHex(str[i])
    ensures GetOctetStr(GetOctet(str, prior), |str|) == str
    ensures forall i :: 0 <= i < |str| ==> GetOctet(str, prior)[i] < 16
    ensures GetOctet(str, prior)[|str|..] == prior[|str|..]
  {
    var o := GetOctet(str, prior);
    forall i | 0 <= i < |str|
      ensures GetOctetStr(o, |str|)[i] == str[i] && o[i] < 16
    {
      assert o[i] == OctetOf(str[i], prior[i]);
      OctetOfLower(str[i], prior[i]);
    }
  }

  /** Octets below 16 survive the round trip through characters. */
  lemma OctetStrRoundTrip(o: seq<byte>, prior: seq<byte>)
    requires |o| <= |prior|
    requires forall i :: 0 <= i < |o| ==> o[i] < 16
    ensures GetOctet(GetOctetStr(o, |o|), prior)[..|o|] == o
  {
    var s := GetOctetStr(o, |o|);
    forall i | 0 <= i < |o|
      ensures GetOctet(s, prior)[i] == o[i]
    {
      assert s[i] == HexChar(o[i]);
      OctetOfHexChar(o[i], prior[i]);
    }
  }

  // ---------------------------------------------------------------------
  // Semi-octets (TBCD)

  /** The octets `getSemiOctet` writes for `n` digits: n/2, rounded up. */
  function SemiOctetLength(n: nat): (len: nat)
    ensures 2 * len == n || 2 * len == n + 1
  {
    n / 2 + n % 2
  }

  /** One octet of `getSemiOctet` from the values of its two digits (-1
      for a non-digit): the low digit replaces the buffer's octet, the high
      one is or-ed in shifted by four; a non-digit leaves the octet alone. */
  function PackSemiOctet(lo: int, hi: int, prior: byte): (b: byte)
    requires -1 <= lo < 16 && -1 <= hi < 16
  {
    var base := if lo != -1 then lo else prior;
    if hi != -1 then OrByte(base, hi * 16) else base
  }

  /** Two digit values are packed low then high. */
  lemma PackSemiOctetLayout(lo: int, hi: int, prior: byte)
    requires 0 <= lo < 16 && 0 <= hi < 16
    ensures PackSemiOctet(lo, hi, prior) % 16 == lo && PackSemiOctet(lo, hi, prior) / 16 == hi
  {
    assert Pow2(4) == 16;
    OrDisjoint(lo, hi * 16, 4);
    DivModUnique(lo + hi * 16, 16, hi, lo);
  }

  /** Octet i of `getSemiOctet`: digits 2i and 2i+1, with 0xF as the high
      digit past the end of an odd string. */
  function SemiOctetAt(str: string, prior: byte, i: nat): (b: byte)
    requires 2 * i < |str|
  {
    PackSemiOctet(GetHexO(str[2 * i]), if 2 * i + 1 < |str| then GetHexO(str[2 * i + 1]) else 0x0f, prior)
  }

  /** `getSemiOctet` on a buffer `prior`: the first SemiOctetLength(|str|)
      octets are written, the rest stay. */
  function GetSemiOctet(str: string, prior: seq<byte>): (so: seq<byte>)
    requires SemiOctetLength(|str|) <= |prior|
    ensures |so| == |prior|
    ensures so[SemiOctetLength(|str|)..] == prior[SemiOctetLength(|str|)..]
  {
    var len := SemiOctetLength(|str|);
    seq(|prior|, i requires 0 <= i < |prior| =>
      if i < len then SemiOctetAt(str, prior[i], i) else prior[i])
  }

  /** The digits of one octet, low nibble first, 0xF nibbles skipped. */
  function SemiOctetDigits(b: byte): (s: string)
    ensures |s| <= 2
    ensures forall i :: 0 <= i < |s| ==> IsTbcdDigit(s[i])
  {
    var ls, ms := b % 16, b / 16;
    HexCharLower(ls);
    HexCharLower(ms);
    (if ls < 0x0f then [HexChar(ls)] else []) + (if ms < 0x0f then [HexChar(ms)] else [])
  }

  function Concat(ds: seq<string>): string {
    if |ds| == 0 then "" else ds[0] + Concat(ds[1..])
  }

  /** `getSemiOctetStr` over the given octets: their digits in order, each
      one a TBCD digit, the 0xF fillers left out. */
  function GetSemiOctetStr(so: seq<byte>): (str: string)
    ensures forall i :: 0 <= i < |str| ==> IsTbcdDigit(str[i])
  {
    var ds := seq(|so|, i requires 0 <= i < |so| => SemiOctetDigits(so[i]));
    ConcatTbcd(ds);
    Concat(ds)
  }

  /** Pieces made of TBCD digits join into TBCD digits. */
  lemma {:induction false} ConcatTbcd(ds: seq<string>)
    requires forall i, j :: 0 <= i < |ds| && 0 <= j < |ds[i]| ==> IsTbcdDigit(ds[i][j])
    ensures forall k :: 0 <= k < |Concat(ds)| ==> IsTbcdDigit(Concat(ds)[k])
    decreases |ds|
  {
    if |ds| > 0 {
      assert forall i :: 0 <= i < |ds| - 1 ==> ds[1..][i] == ds[i + 1];
      ConcatTbcd(ds[1..]);
      var c := Concat(ds);
      assert c == ds[0] + Concat(ds[1..]);
      forall k | 0 <= k < |c|
        ensures IsTbcdDigit(c[k])
      {
        if k < |ds[0]| {
          assert c[k] == ds[0][k];
        } else {
          assert c[k] == Concat(ds[1..])[k - |ds[0]|];
        }
      }
    }
  }

  lemma {:induction false} ConcatBound(ds: seq<string>)
    requires forall i :: 0 <= i < |ds| ==> |ds[i]| <= 2
    ensures |Concat(ds)| <= 2 * |ds|
    decreases |ds|
  {
    if |ds| > 0 {
      assert forall i :: 0 <= i < |ds| - 1 ==> ds[1..][i] == ds[i + 1];
      ConcatBound(ds[1..]);
    }
  }

  /** At most two digits come out of each octet. */
  lemma SemiOctetStrBound(so: seq<byte>)
    ensures |GetSemiOctetStr(so)| <= 2 * |so|
  {
    ConcatBound(seq(|so|, i requires 0 <= i < |so| => SemiOctetDigits(so[i])));
  }

  /** A digit of a TBCD string: a lower-case hex digit other than the
      filler `f`. */
  predicate IsTbcdDigit(c: char) {
    IsLowerHex(c) && c != 'f'
  }

  lemma TbcdValue(c: char)
    requires IsTbcdDigit(c)
    ensures 0 <= GetHexO(c) < 15 && HexChar(GetHexO(c)) == c
  {
    GetHexODigit(c);
  }

  /** The digits of octet i of a string: digits 2i and 2i+1, or the last
      one alone. */
  function Chunk(str: string, i: nat): (s: string)
    requires 2 * i < |str|
  {
    if 2 * i + 1 < |str| then str[2 * i..2 * i + 2] else [str[2 * i]]
  }

  /** Each written octet reads back as its chunk of the digit string: the
      two digits packed, or the last one and the 0xF filler. */
  lemma SemiOctetDigitsAt(str: string, prior: byte, i: nat)
    requires 2 * i < |str|
    requires forall k :: 0 <= k < |str| ==> IsTbcdDigit(str[k])
    ensures SemiOctetDigits(SemiOctetAt(str, prior, i)) == Chunk(str, i)
    ensures 2 * i + 1 == |str| ==> SemiOctetAt(str, prior, i) / 16 == 0x0f
  {
    var lo := GetHexO(str[2 * i]);
    TbcdValue(str[2 * i]);
    if 2 * i + 1 < |str| {
      var hi := GetHexO(str[2 * i + 1]);
      TbcdValue(str[2 * i + 1]);
      PackSemiOctetLayout(lo, hi, prior);
    } else {
      PackSemiOctetLayout(lo, 0x0f, prior);
    }
  }

  lemma ChunkShift(str: string, i: nat)
    requires 2 <= |str| && 2 * (i + 1) < |str|
    ensures Chunk(str, i + 1) == Chunk(str[2..], i)
  {
    if 2 * i + 3 < |str| {
      assert str[2..][2 * i..2 * i + 2] == str[2 * i + 2..2 * i + 4];
    } else {
      assert str[2..][2 * i] == str[2 * i + 2];
    }
  }

  /** The successive chunks of a string spell the string. */
  lemma {:induction false} ConcatChunks(ds: seq<string>, str: string)
    requires |ds| == SemiOctetLength(|str|)
    requires forall i :: 0 <= i < |ds| ==> ds[i] == Chunk(str, i)
    ensures Concat(ds) == str
    decreases |ds|
  {
    if |ds| == 1 {
      assert Concat(ds) == ds[0] + Concat([]);
    } else if |ds| > 1 {
      var rest := str[2..];
      forall i | 0 <= i < |ds| - 1
        ensures ds[1..][i] == Chunk(rest, i)
      {
        var i' := i + 1;
        assert ds[i'] == Chunk(str, i');
        ChunkShift(str, i);
      }
      ConcatChunks(ds[1..], rest);
      assert str == Chunk(str, 0) + rest;
    }
  }

  /** A TBCD digit string survives the round trip through semi-octets,
      whatever the buffer held before. */
  lemma SemiOctetRoundTrip(str: string, prior: seq<byte>)
    requires SemiOctetLength(|str|) <= |prior|
    requires forall k :: 0 <= k < |str| ==> IsTbcdDigit(str[k])
    ensures GetSemiOctetStr(GetSemiOctet(str, prior)[..SemiOctetLength(|str|)]) == str
  {
    var so := GetSemiOctet(str, prior)[..SemiOctetLength(|str|)];
    var ds := seq(|so|, i requires 0 <= i < |so| => SemiOctetDigits(so[i]));
    forall i | 0 <= i < |so|
      ensures ds[i] == Chunk(str, i)
    {
      SemiOctetDigitsAt(str, prior[i], i);
    }
    ConcatChunks(ds, str);
  }

  // ---------------------------------------------------------------------
  // Addresses

  /** `getAddress`: the type-of-address octet, then the TBCD digits; the
      length written back is one more than the TBCD length. */
  function GetAddress(str: string, toa: byte, prior: seq<byte>): (addr: seq<byte>)
    requires 1 + SemiOctetLength(|str|) <= |prior|
    ensures |addr| == |prior| && addr[0] == toa
  {
    [toa] + GetSemiOctet(str, prior[1..])
  }

  function AddressLength(str: string): nat {
    SemiOctetLength(|str|) + 1
  }

  /** `getAddressStr`: the digits after the first octet and that octet as
      the type of address. */
  function GetAddressStr(addr: seq<byte>, len: int): (r: (string, byte))
    requires 1 <= len <= |addr|
    ensures r.1 == addr[0]
  {
    (GetSemiOctetStr(addr[1..len]), addr[0])
  }

  /** `getAddressStr` inverts `getAddress` for TBCD digit strings. */
  lemma AddressRoundTrip(str: string, toa: byte, prior: seq<byte>)
    requires 1 + SemiOctetLength(|str|) <= |prior|
    requires forall k :: 0 <= k < |str| ==> IsTbcdDigit(str[k])
    ensures GetAddressStr(GetAddress(str, toa, prior), AddressLength(str)) == (str, toa)
  {
    var addr := GetAddress(str, toa, prior);
    var len := SemiOctetLength(|str|);
    assert addr[1..len + 1] == GetSemiOctet(str, prior[1..])[..len];
    SemiOctetRoundTrip(str, prior[1..]);
  }

  /** The nature of address of a MAP AddressString. */
  datatype NatureOfAddress =
    | InternationalNumber
    | NationalSignificantNumber
    | SubscriberNumber
    | NatureOfAddressNotPresent

  /** `type & 0x70`: bits 4 to 6 of the type-of-address octet. */
  function TypeOfNumber(t: byte): (ton: int)
    ensures ton % 16 == 0 && 0 <= ton <= 0x70
  {
    (t / 16) % 8 * 16
  }

  /** `getNatureOfAddress`. */
  function GetNatureOfAddress(t: byte): (n: NatureOfAddress)
    ensures n == InternationalNumber <==> TypeOfNumber(t) == 16
    ensures n == NationalSignificantNumber <==> TypeOfNumber(t) == 32
    ensures n == SubscriberNumber <==> TypeOfNumber(t) == 64
  {
    var ton := TypeOfNumber(t);
    if ton == 16 then InternationalNumber
    else if ton == 32 then NationalSignificantNumber
    else if ton == 64 then SubscriberNumber
    else NatureOfAddressNotPresent
  }

  /** The two type-of-address constants read as international and national,
      and only bits 4 to 6 matter. */
  lemma NatureOfAddressConstants(t: byte, t': byte)
    ensures GetNatureOfAddress(INTERNATIONAL_ISDN) == InternationalNumber
    ensures GetNatureOfAddress(NATIONAL_ISDN) == NationalSignificantNumber
    ensures (t / 16) % 8 == (t' / 16) % 8 ==> GetNatureOfAddress(t) == GetNatureOfAddress(t')
  {
  }

  // ---------------------------------------------------------------------
  // The loop counter of getSemiOctet as written

  /** The loop counter of `getSemiOctet` is an `unsigned char`: after k
      rounds it holds k modulo 256. */
  function SemiOctetCounterAsWritten(k: nat): (counter: byte)
    ensures counter as int == k % 256
    ensures k < 256 ==> counter as int == k
  {
    Truncate(k)
  }

  /** With more than 255 octets to write (a string of 511 characters or
      more) the counter never reaches the length, so the loop guard holds
      after every number of rounds and the loop does not end. */
  lemma SemiOctetLoopNeverEnds(n: nat, k: nat)
    requires SemiOctetLength(n) > 255
    ensures SemiOctetCounterAsWritten(k) < SemiOctetLength(n)
  {
  }

  /** Up to 510 characters the counter agrees with the round number until
      the loop ends, so `GetSemiOctet` is what the code computes there. */
  lemma SemiOctetCounterAgrees(n: nat, k: nat)
    requires SemiOctetLength(n) <= 255 && k <= SemiOctetLength(n)
    ensures SemiOctetCounterAsWritten(k) == k
  {
  }
}

=== FILE: gmapsm.dfy ===
/** The short-message gateway: three dialog flavours over the MAP side and
    the application messages they exchange.
    - ForwardMOSM: a mobile-originated short message the network opens; it
      is forwarded to the application and answered once the application
      replies.
    - SendRIFSM and ForwardMTSM: routing-information and mobile-terminated
      requests the application starts; the outcome goes back as an advice.
    Transport events are abstracted to the fields the handlers read; the
    connection pool is reduced to whether `nextOnline` found a connection,
    and the application's answer is an input. */
module GMapSm {
  import opened Bytes
  import opened Wrappers
  import opened IeTypes
  import opened BasicIe
  import opened CompositeIe
  import opened Messages
  import opened MessageTypes
  import BaseConn
  import GBlock
  import opened Dialogs

  const FORWARD_MO_SM_REQUEST := MessageType(0xb0, 0xb1, REQUEST)
  const FORWARD_MO_SM_RESPONSE := MessageType(0xb1, 0xb0, RESPONSE)
  const FORWARD_MT_SM_REQUEST := MessageType(0xb2, 0x10, REQUEST)
  const FORWARD_MT_SM_RESPONSE := MessageType(0x10, 0xb2, RESPONSE)
  const FORWARD_MT_SM_ADVICE := MessageType(0xb3, 0xff, ADVICE)
  const SEND_RI_F_SM_REQUEST := MessageType(0xb4, 0x11, REQUEST)
  const SEND_RI_F_SM_RESPONSE := MessageType(0x11, 0xb4, RESPONSE)
  const SEND_RI_F_SM_ADVICE := MessageType(0xb5, 0xff, ADVICE)

  /** Element types of the gateway's messages. */
  const MESSAGE_ID: byte := 0xb0
  const REFERENCE_ID: byte := 0xb1
  const TYPE: byte := 0x10
  const ACTION: byte := 0x11
  const MSISDN: byte := 0xb2
  const TPDU: byte := 0xb3
  const NODE_ID: byte := 0xb4
  const FROM_NAME: byte := 0xb5
  const TO_NAME: byte := 0xb6
  const SMRPPRI: byte := 0x12
  const REMOTE_GT: byte := 0xb7
  const IE_IMSI: byte := 0xb8
  const IE_LMSI: byte := 0xb9

  /** The service and direction bits of the TYPE element. */
  const SM: byte := 0x4
  const MM: byte := 0x8
  const O: byte := 0x0
  const T: byte := 0x1

  const MESSAGE_ACTION: byte := 0x7
  const ACCEPT: byte := 0x1
  const END: byte := 0x3

  const SMS_DELIVER: byte := 0
  const SMS_SUBMIT: byte := 4

  /** The MAP error the gateway reports on its own failures: the local value
      of systemFailure in 3GPP TS 29.002 (gmap.h is not part of this
      model). */
  const SYSTEM_FAILURE := 34

  /** The subsystems the application-started dialogs are opened towards:
      the HLR for routing information and the MSC for delivery. */
  const HLR_SSN := 6
  const MSC_SSN := 8

  // ---------------------------------------------------------------------
  // Dialog data

  /** What a ForwardMOSM dialog has collected: the service centre address,
      the originating MSISDN (each with its type of address), the digits of
      the originating global title, and the TPDU. */
  datatype MoData = MoData(sca: string, scaType: byte, msisdn: string, msisdnType: byte,
                           nodeId: string, tpdu: seq<byte>)

  /** A SendRIFSM dialog: the request fields, what the HLR answered, and
      the outcome (0 for success, the MAP error code, or -1 while none). */
  datatype RifData = RifData(messageId: string, remoteGt: string, remoteGtType: byte,
                             msisdn: string, msisdnType: byte, smRpPri: byte,
                             imsi: string, lmsi: string,
                             roamingNumber: string, roamingNumberType: byte,
                             mscNumber: string, mscNumberType: byte,
                             serviceMessage: int)

  /** A ForwardMTSM dialog: the request fields and the outcome. */
  datatype MtData = MtData(messageId: string, tpdu: seq<byte>, imsi: string, lmsi: string,
                           remoteGt: string, remoteGtType: byte, serviceMessage: int)

  datatype Flavour = ForwardMo(mo: MoData) | SendRif(rif: RifData) | ForwardMt(mt: MtData)

  type SmDialog = Dialog<Flavour>

  const EMPTY_MO := MoData("", 0, "", 0, "", [])

  /** The strings and the TPDU a dialog holds fit the 255-octet buffer of a
      byte-array element. */
  predicate Fits(s: string) { |s| <= 255 }

  predicate ValidFlavour(f: Flavour) {
    match f
    case ForwardMo(mo) => Fits(mo.msisdn) && Fits(mo.nodeId) && |mo.tpdu| <= 255
    case SendRif(rif) => Fits(rif.messageId) && Fits(rif.imsi) && Fits(rif.lmsi) &&
                         Fits(rif.roamingNumber) && Fits(rif.mscNumber)
    case ForwardMt(mt) => Fits(mt.messageId)
  }

  // ---------------------------------------------------------------------
  // Transport events

  datatype ServiceType = GmapReq | GmapRsp | GmapError | GmapProviderError | OtherService

  datatype LocationInfo = RoamingNumber(addr: seq<byte>) | MscNumber(addr: seq<byte>)

  /** The service message of an event and the fields the handlers read.
      Octet strings are empty when the field is absent, of another choice,
      or of length 0. */
  datatype ServiceMsg =
    | OpenMsg(originatingGt: seq<byte>)
    | MoForwardSmMsg(scaDa: seq<byte>, msisdnOa: seq<byte>, ui: seq<byte>)
    | AlertServiceCentreMsg
    | DelimiterMsg
    | CloseMsg
    | UAbortMsg
    | PAbortMsg
    | RoutingInfoMsg(imsi: seq<byte>, lmsi: seq<byte>, location: Option<LocationInfo>)
    | ForwardSmMsg
    | ErrorCode(code: int)
    | OtherMsg

  datatype Event = Event(serviceType: ServiceType, dialogId: int, invokeId: int, msg: ServiceMsg)

  /** Events as the MAP stack delivers them: an error event carries its
      error code, and octet strings respect the sizes of the MAP common data
      types (section 17.7.8 of 3GPP TS 29.002): an AddressString has at
      most 20 octets, an IMSI at most 8, an LMSI 4, an SM-RP-UI at most 200.
      The originating global title fits a 255-octet buffer. */
  predicate ValidEvent(e: Event) {
    (e.serviceType == GmapError <==> e.msg.ErrorCode?) &&
    match e.msg
    case OpenMsg(gt) => |gt| <= 255
    case MoForwardSmMsg(da, oa, ui) => |da| <= 20 && |oa| <= 20 && |ui| <= 200
    case RoutingInfoMsg(imsi, lmsi, loc) =>
      |imsi| <= 8 && |lmsi| <= 4 && (loc.Some? ==> |loc.value.addr| <= 20)
    case _ => true
  }

  /** The digits and type of address of an address field. */
  function AddressOf(addr: seq<byte>): (r: (string, byte))
    requires 1 <= |addr| <= 20
    ensures |r.0| <= 38 && r.1 == addr[0]
  {
    GBlock.SemiOctetStrBound(addr[1..|addr|]);
    GBlock.GetAddressStr(addr, |addr|)
  }

  /** The digits of a TBCD field. */
  function TbcdOf(so: seq<byte>): (s: string)
    requires |so| <= 8
    ensures |s| <= 16
  {
    GBlock.SemiOctetStrBound(so);
    GBlock.GetSemiOctetStr(so)
  }

  /** What a handler leaves: the dialog, the primitives it pushed, and
      whether it handed its run to the executor. */
  datatype Handled = Handled(dialog: SmDialog, out: seq<Primitive>, submitted: bool)

  // ---------------------------------------------------------------------
  // ForwardMOSM

  /** The fields an MO-ForwardSM invoke brings: the service centre
      address, the originating MSISDN and the TPDU, each kept as it was
      when the event lacks it. */
  function MoInvokeData(mo: MoData, da: seq<byte>, oa: seq<byte>, ui: seq<byte>): (r: MoData)
    requires |da| <= 20 && |oa| <= 20 && |ui| <= 200
    ensures r.nodeId == mo.nodeId
    ensures |da| > 0 ==> (r.sca, r.scaType) == AddressOf(da)
    ensures |da| == 0 ==> r.sca == mo.sca && r.scaType == mo.scaType
    ensures |oa| > 0 ==> (r.msisdn, r.msisdnType) == AddressOf(oa)
    ensures |oa| == 0 ==> r.msisdn == mo.msisdn && r.msisdnType == mo.msisdnType
    ensures r.tpdu == if |ui| > 0 then ui else mo.tpdu
  {
    var sca := if |da| > 0 then AddressOf(da) else (mo.sca, mo.scaType);
    var msisdn := if |oa| > 0 then AddressOf(oa) else (mo.msisdn, mo.msisdnType);
    MoData(sca.0, sca.1, msisdn.0, msisdn.1, mo.nodeId, if |ui| > 0 then ui else mo.tpdu)
  }

  /** `ForwardMOSM::handleGBlock`. */
  function HandleForwardMo(d: SmDialog, mo: MoData, e: Event): (r: Handled)
    requires ValidEvent(e)
    ensures r.dialog.dialogId == d.dialogId && r.dialog.cTime == d.cTime
    ensures r.dialog.data.ForwardMo?
    ensures r.submitted <==> e.serviceType == GmapReq && e.msg.MoForwardSmMsg?
    ensures e.serviceType == GmapError ==>
      r.dialog.state == SetDialogState(d.state, W_CLOSE_0) && r.out == []
    ensures e.serviceType != GmapReq && e.serviceType != GmapError ==>
      r == Handled(d.(data := ForwardMo(mo)), [], false)
    // the requests, one by one
    ensures e.serviceType == GmapReq && e.msg.OpenMsg? ==>
      r.dialog.state == SetDialogState(d.state, W_INVOKE) && r.out == [OpenRes] &&
      r.dialog.invokeId == d.invokeId &&
      r.dialog.data.mo == (if |e.msg.originatingGt| > 0
                           then mo.(nodeId := GBlock.GetOctetStr(e.msg.originatingGt, |e.msg.originatingGt|))
                           else mo)
    ensures e.serviceType == GmapReq && e.msg.MoForwardSmMsg? ==>
      r.dialog.state == SetDialogState(d.state, INVOKE) && r.out == [] &&
      r.dialog.invokeId == e.invokeId &&
      r.dialog.data.mo == MoInvokeData(mo, e.msg.scaDa, e.msg.msisdnOa, e.msg.ui)
    ensures e.serviceType == GmapReq && e.msg.DelimiterMsg? ==>
      r.dialog == d.(data := ForwardMo(mo)) && (r.out == [Delimiter] <==> d.state == W_INVOKE) &&
      (r.out == [] <==> d.state != W_INVOKE)
    ensures e.serviceType == GmapReq && e.msg.CloseMsg? ==>
      r.dialog.state == SetDialogState(d.state, CLOSE_0) && r.out == [] &&
      r.dialog.data.mo == mo
    ensures e.serviceType == GmapReq && (e.msg.UAbortMsg? || e.msg.PAbortMsg?) ==>
      r.dialog.state == SetDialogState(d.state, ABORT_0) && r.out == [] &&
      r.dialog.data.mo == mo
    ensures e.serviceType == GmapReq && !e.msg.OpenMsg? && !e.msg.MoForwardSmMsg? &&
            !e.msg.DelimiterMsg? && !e.msg.CloseMsg? && !e.msg.UAbortMsg? && !e.msg.PAbortMsg? ==>
      r.dialog.state == d.state && r.out == [Close] && r.dialog.invokeId == e.invokeId &&
      r.dialog.data.mo == mo
  {
    var d := d.(data := ForwardMo(mo));
    if e.serviceType == GmapReq then
      match e.msg
      case OpenMsg(gt) =>
        var mo' := if |gt| > 0 then mo.(nodeId := GBlock.GetOctetStr(gt, |gt|)) else mo;
        Handled(SetState(d.(data := ForwardMo(mo')), W_INVOKE), [OpenRes], false)
      case MoForwardSmMsg(da, oa, ui) =>
        var d' := d.(invokeId := e.invokeId, data := ForwardMo(MoInvokeData(mo, da, oa, ui)));
        Handled(SetState(d', INVOKE), [], true)
      case DelimiterMsg =>
        Handled(d, if d.state == W_INVOKE then [Delimiter] else [], false)
      case CloseMsg => Handled(SetState(d, CLOSE_0), [], false)
      case UAbortMsg => Handled(SetState(d, ABORT_0), [], false)
      case PAbortMsg => Handled(SetState(d, ABORT_0), [], false)
      case _ =>
        // the alert and any other request are answered with a close
        Handled(d.(invokeId := e.invokeId), [Close], false)
    else if e.serviceType == GmapError then Handled(SetState(d, W_CLOSE_0), [], false)
    else Handled(d, [], false)
  }

  /** The FORWARD_MO_SM_REQUEST a ForwardMOSM run sends: the TYPE element
      (short message, originating), the MSISDN with its type of address,
      the node id when there is one, and the TPDU tagged SMS-SUBMIT. */
  function ForwardMoRequest(mo: MoData): (m: Message)
    requires Fits(mo.msisdn) && Fits(mo.nodeId) && |mo.tpdu| <= 255
    ensures ValidMessage(m) && m.mtype == FORWARD_MO_SM_REQUEST.mtype
    ensures m.version == BaseConn.VERSION && m.timeToLive == DEFAULT_TIME_TO_LIVE
  {
    var ies := PutChild(map[], Composite(TvComposite(TYPE, Or(SM, O) as byte)));
    var ies := PutChild(ies, Composite(AddressIe(MSISDN, mo.msisdn, mo.msisdnType)));
    var ies := PutChild(ies, Composite(BytesIe(TPDU, mo.tpdu, SMS_SUBMIT)));
    var ies := if |mo.nodeId| > 0 then PutChild(ies, Composite(StringIe(NODE_ID, mo.nodeId))) else ies;
    Message(BaseConn.VERSION, 0, DEFAULT_TIME_TO_LIVE, FORWARD_MO_SM_REQUEST.mtype, TlvBody(ies))
  }

  /** A composite holding a string. */
  function StringIe(t: byte, s: string): (c: CompositeIe)
    requires !IsTypeValue(t) && Fits(s)
    ensures ValidComposite(c) && c.ctype == t
  {
    TlvComposite(t, map[BYTE_ARRAY := IeByteArray(OctetsOf(s))])
  }

  /** A composite holding an address: its digits and its type of address. */
  function AddressIe(t: byte, s: string, toa: byte): (c: CompositeIe)
    requires !IsTypeValue(t) && Fits(s)
    ensures ValidComposite(c) && c.ctype == t
  {
    TlvComposite(t, map[BYTE_ARRAY := IeByteArray(OctetsOf(s)), BYTE := IeByte(toa)])
  }

  /** A composite holding octets and a tag octet. */
  function BytesIe(t: byte, bs: seq<byte>, tag: byte): (c: CompositeIe)
    requires !IsTypeValue(t) && |bs| <= 255
    ensures ValidComposite(c) && c.ctype == t
  {
    TlvComposite(t, map[BYTE_ARRAY := IeByteArray(bs), BYTE := IeByte(tag)])
  }

  /** A string the byte-array element carries unchanged: octets, no NUL. */
  predicate IsCString(s: string) {
    forall i :: 0 <= i < |s| ==> IsOctetChar(s[i]) && s[i] != '\0'
  }

  /** The application reads back from a string composite the string that
      was put in, and from an address composite its type of address. */
  lemma StringIeRoundTrip(t: byte, s: string, toa: byte)
    requires !IsTypeValue(t) && Fits(s) && IsCString(s)
    ensures GetIeStringOf(StringIe(t, s)) == s
    ensures GetIeStringOf(AddressIe(t, s, toa)) == s
    ensures GetIeByte(AddressIe(t, s, toa)) == toa
  {
    StringRoundTrip(s);
  }

  /** What the application reads from a FORWARD_MO_SM_REQUEST: the TPDU
      with its SMS-SUBMIT tag, the MSISDN with its type of address, and the
      node id exactly when the dialog has one. */
  lemma ForwardMoRequestContents(mo: MoData)
    requires Fits(mo.msisdn) && Fits(mo.nodeId) && |mo.tpdu| <= 255
    requires IsCString(mo.msisdn) && IsCString(mo.nodeId)
    ensures var m := ForwardMoRequest(mo);
      CompositeValue(m, TYPE) == SM &&
      CompositeString(m, MSISDN) == mo.msisdn && CompositeByte(m, MSISDN, 0) == mo.msisdnType &&
      CompositeBytes(m, TPDU) == mo.tpdu && CompositeByte(m, TPDU, 0) == SMS_SUBMIT &&
      (GetCompositeIe(m, NODE_ID).Some? <==> |mo.nodeId| > 0) &&
      CompositeString(m, NODE_ID) == mo.nodeId
  {
    var m := ForwardMoRequest(mo);
    ReadAddressIe(m, MSISDN, mo.msisdn, mo.msisdnType);
    if |mo.nodeId| > 0 {
      ReadStringIe(m, NODE_ID, mo.nodeId);
    } else {
      assert NODE_ID !in IesOf(m);
    }
    assert IesOf(m)[TPDU] == Composite(BytesIe(TPDU, mo.tpdu, SMS_SUBMIT));
    assert IesOf(m)[TYPE] == Composite(TvComposite(TYPE, SM)) by {
      assert Or(SM, O) == SM;
    }
  }

  datatype RunResult = RunResult(out: seq<Primitive>, sent: Option<Message>)

  /** The answer to the network once the application has replied: a
      FORWARD_MO_SM_RESPONSE (whatever its ACTION says) gives the MO result,
      anything else or no reply a system failure; a close follows. */
  function MoReply(response: Option<Message>): (out: seq<Primitive>)
    ensures |out| == 2 && out[1] == Close
    ensures out[0] == MoResult <==>
      response.Some? && response.value.mtype == FORWARD_MO_SM_REQUEST.linkedType
    ensures out[0] != MoResult ==> out[0] == Error(SYSTEM_FAILURE)
  {
    if response.Some? && response.value.mtype == FORWARD_MO_SM_REQUEST.linkedType then [MoResult, Close]
    else [Error(SYSTEM_FAILURE), Close]
  }

  /** `ForwardMOSM::run` as written: `online` says whether the pool had a
      connection, `response` is what came back for the request. With no
      MSISDN or no TPDU nothing is sent and nothing is pushed. */
  function ForwardMoRunAsWritten(mo: MoData, online: bool, response: Option<Message>): (r: RunResult)
    requires Fits(mo.msisdn) && Fits(mo.nodeId) && |mo.tpdu| <= 255
    ensures !online ==> r.out == [Error(SYSTEM_FAILURE), Close] && r.sent.None?
    ensures r.sent.Some? <==> online && |mo.msisdn| > 0 && |mo.tpdu| > 0
    ensures r.sent.Some? ==> r.sent.value == ForwardMoRequest(mo) && r.out == MoReply(response)
    ensures online && (|mo.msisdn| == 0 || |mo.tpdu| == 0) ==> r.out == []
  {
    if !online then RunResult([Error(SYSTEM_FAILURE), Close], None)
    else if |mo.msisdn| > 0 && |mo.tpdu| > 0 then
      RunResult(MoReply(response), Some(ForwardMoRequest(mo)))
    else RunResult([], None)
  }

  /** As written, a dialog missing its MSISDN or TPDU is left in INVOKE
      with nothing pushed for it, and a check never moves INVOKE, so the
      sweep keeps it and nothing ever closes it from this side. */
  lemma MoRunLeavesInvoke(mo: MoData, response: Option<Message>, cache: Cache<Flavour>,
                          id: int, now: int)
    requires Fits(mo.msisdn) && Fits(mo.nodeId) && |mo.tpdu| <= 255
    requires |mo.msisdn| == 0 || |mo.tpdu| == 0
    requires id in cache && cache[id].state == INVOKE
    ensures ForwardMoRunAsWritten(mo, true, response) == RunResult([], None)
    ensures var r := Sweep(cache, now);
      id in r.cache && r.cache[id].state == INVOKE && id !in r.aborts
  {
  }

  /** `ForwardMOSM::run` with the missing-field case answered like the
      other failures, by a system failure and a close. */
  function ForwardMoRun(mo: MoData, online: bool, response: Option<Message>): (r: RunResult)
    requires Fits(mo.msisdn) && Fits(mo.nodeId) && |mo.tpdu| <= 255
    ensures |r.out| == 2 && r.out[1] == Close
    ensures r.out[0] == MoResult || r.out[0] == Error(SYSTEM_FAILURE)
    ensures r.sent.Some? <==> online && |mo.msisdn| > 0 && |mo.tpdu| > 0
    ensures r.sent.Some? ==> r.sent.value == ForwardMoRequest(mo)
  {
    if online && |mo.msisdn| > 0 && |mo.tpdu| > 0 then
      RunResult(MoReply(response), Some(ForwardMoRequest(mo)))
    else RunResult([Error(SYSTEM_FAILURE), Close], None)
  }

  /** Every run ends the dialog: the network gets the MO result exactly
      when the request went out and the application answered it, and an
      error otherwise; the run agrees with the code as written wherever
      that one pushes anything. */
  lemma ForwardMoRunCloses(mo: MoData, online: bool, response: Option<Message>)
    requires Fits(mo.msisdn) && Fits(mo.nodeId) && |mo.tpdu| <= 255
    ensures var r := ForwardMoRun(mo, online, response);
      (r.out[0] == MoResult <==>
         (r.sent.Some? && response.Some? && response.value.mtype == FORWARD_MO_SM_RESPONSE.mtype)) &&
      (ForwardMoRunAsWritten(mo, online, response).out != [] ==>
         ForwardMoRunAsWritten(mo, online, response) == r)
  {
  }

  // ---------------------------------------------------------------------
  // SendRIFSM and ForwardMTSM

  /** `init` of the application-started dialogs: W_INVOKE, then the open
      towards the remote global title, the request and a delimiter. */
  function InitDialog(d: SmDialog): (r: Handled)
    requires !d.data.ForwardMo?
    ensures r.dialog == SetState(d, W_INVOKE) && !r.submitted
    ensures |r.out| == 3 && r.out[0].Open? && r.out[1].Request? && r.out[2] == Delimiter
    ensures d.data.SendRif? ==>
      var rif := d.data.rif;
      r.out[0] == Open(ShortMsgGatewayV1, HLR_SSN, rif.remoteGt, rif.remoteGtType) &&
      r.out[1] == Request(SendRoutingInfoForSm(rif.msisdn, rif.msisdnType, rif.smRpPri))
    ensures d.data.ForwardMt? ==>
      var mt := d.data.mt;
      r.out[0] == Open(ShortMsgMtRelayV2, MSC_SSN, mt.remoteGt, mt.remoteGtType) &&
      r.out[1] == Request(MtForwardSm(mt.tpdu, mt.imsi, mt.lmsi))
  {
    match d.data
    case SendRif(rif) =>
      Handled(SetState(d, W_INVOKE),
              [Open(ShortMsgGatewayV1, HLR_SSN, rif.remoteGt, rif.remoteGtType),
               Request(SendRoutingInfoForSm(rif.msisdn, rif.msisdnType, rif.smRpPri)),
               Delimiter], false)
    case ForwardMt(mt) =>
      Handled(SetState(d, W_INVOKE),
              [Open(ShortMsgMtRelayV2, MSC_SSN, mt.remoteGt, mt.remoteGtType),
               Request(MtForwardSm(mt.tpdu, mt.imsi, mt.lmsi)),
               Delimiter], false)
  }

  /** What an HLR answer brings: the IMSI and LMSI digits, and the roaming
      number or MSC number with its type of address. */
  function RoutingInfoData(rif: RifData, imsi: seq<byte>, lmsi: seq<byte>,
                           loc: Option<LocationInfo>): (r: RifData)
    requires |imsi| <= 8 && |lmsi| <= 4 && (loc.Some? ==> |loc.value.addr| <= 20)
    ensures r.serviceMessage == 0
    ensures r.imsi == if |imsi| > 0 then TbcdOf(imsi) else rif.imsi
    ensures r.lmsi == if |lmsi| > 0 then TbcdOf(lmsi) else rif.lmsi
    ensures r.messageId == rif.messageId && r.remoteGt == rif.remoteGt && r.msisdn == rif.msisdn
    ensures loc.Some? && loc.value.RoamingNumber? && |loc.value.addr| > 0 ==>
      (r.roamingNumber, r.roamingNumberType) == AddressOf(loc.value.addr) &&
      r.mscNumber == rif.mscNumber && r.mscNumberType == rif.mscNumberType
    ensures loc.Some? && loc.value.MscNumber? && |loc.value.addr| > 0 ==>
      (r.mscNumber, r.mscNumberType) == AddressOf(loc.value.addr) &&
      r.roamingNumber == rif.roamingNumber && r.roamingNumberType == rif.roamingNumberType
    ensures loc.None? || |loc.value.addr| == 0 ==>
      r.roamingNumber == rif.roamingNumber && r.roamingNumberType == rif.roamingNumberType &&
      r.mscNumber == rif.mscNumber && r.mscNumberType == rif.mscNumberType
  {
    var r := rif.(imsi := if |imsi| > 0 then TbcdOf(imsi) else rif.imsi,
                  lmsi := if |lmsi| > 0 then TbcdOf(lmsi) else rif.lmsi,
                  serviceMessage := 0);
    match loc
    case Some(RoamingNumber(a)) =>
      if |a| > 0 then
        var n := AddressOf(a);
        r.(roamingNumber := n.0, roamingNumberType := n.1)
      else r
    case Some(MscNumber(a)) =>
      if |a| > 0 then
        var n := AddressOf(a);
        r.(mscNumber := n.0, mscNumberType := n.1)
      else r
    case None => r
  }

  /** The HLR's IMSI and roaming number, encoded as the stack encodes TBCD
      digits and addresses, are recorded as the digits and type of address
      they carry. */
  lemma HlrAnswerRoundTrip(rif: RifData, imsi: string, prior: seq<byte>, number: string,
                           toa: byte, priorAddr: seq<byte>)
    requires 1 <= |imsi| && |prior| == GBlock.SemiOctetLength(|imsi|) <= 8
    requires forall k :: 0 <= k < |imsi| ==> GBlock.IsTbcdDigit(imsi[k])
    requires |priorAddr| == GBlock.AddressLength(number) <= 20
    requires forall k :: 0 <= k < |number| ==> GBlock.IsTbcdDigit(number[k])
    ensures var r := RoutingInfoData(rif, GBlock.GetSemiOctet(imsi, prior), [],
                                     Some(RoamingNumber(GBlock.GetAddress(number, toa, priorAddr))));
      r.imsi == imsi && r.lmsi == rif.lmsi &&
      r.roamingNumber == number && r.roamingNumberType == toa && r.mscNumber == rif.mscNumber
  {
    var so := GBlock.GetSemiOctet(imsi, prior);
    GBlock.SemiOctetRoundTrip(imsi, prior);
    assert so[..GBlock.SemiOctetLength(|imsi|)] == so;
    var addr := GBlock.GetAddress(number, toa, priorAddr);
    GBlock.AddressRoundTrip(number, toa, priorAddr);
    assert AddressOf(addr) == GBlock.GetAddressStr(addr, GBlock.AddressLength(number));
  }

  /** The same for an answer that locates the subscriber by MSC number and
      carries an LMSI: the IMSI, the LMSI and the MSC number are recorded,
      and the roaming number is kept. */
  lemma HlrAnswerMscRoundTrip(rif: RifData, imsi: string, priorImsi: seq<byte>, lmsi: string,
                              priorLmsi: seq<byte>, number: string, toa: byte, priorAddr: seq<byte>)
    requires 1 <= |imsi| && |priorImsi| == GBlock.SemiOctetLength(|imsi|) <= 8
    requires forall k :: 0 <= k < |imsi| ==> GBlock.IsTbcdDigit(imsi[k])
    requires 1 <= |lmsi| && |priorLmsi| == GBlock.SemiOctetLength(|lmsi|) <= 4
    requires forall k :: 0 <= k < |lmsi| ==> GBlock.IsTbcdDigit(lmsi[k])
    requires |priorAddr| == GBlock.AddressLength(number) <= 20
    requires forall k :: 0 <= k < |number| ==> GBlock.IsTbcdDigit(number[k])
    ensures var r := RoutingInfoData(rif, GBlock.GetSemiOctet(imsi, priorImsi), GBlock.GetSemiOctet(lmsi, priorLmsi),
                                     Some(MscNumber(GBlock.GetAddress(number, toa, priorAddr))));
      r.imsi == imsi && r.lmsi == lmsi &&
      r.mscNumber == number && r.mscNumberType == toa &&
      r.roamingNumber == rif.roamingNumber && r.roamingNumberType == rif.roamingNumberType
  {
    var si := GBlock.GetSemiOctet(imsi, priorImsi);
    GBlock.SemiOctetRoundTrip(imsi, priorImsi);
    assert si[..GBlock.SemiOctetLength(|imsi|)] == si;
    var sl := GBlock.GetSemiOctet(lmsi, priorLmsi);
    GBlock.SemiOctetRoundTrip(lmsi, priorLmsi);
    assert sl[..GBlock.SemiOctetLength(|lmsi|)] == sl;
    var addr := GBlock.GetAddress(number, toa, priorAddr);
    GBlock.AddressRoundTrip(number, toa, priorAddr);
    assert AddressOf(addr) == GBlock.GetAddressStr(addr, GBlock.AddressLength(number));
  }

  /** The outcome an application-started dialog records. */
  function WithOutcome(f: Flavour, serviceMessage: int): (r: Flavour)
    requires !f.ForwardMo?
    ensures r.SendRif? == f.SendRif?
    ensures r.SendRif? ==> r.rif == f.rif.(serviceMessage := serviceMessage)
    ensures r.ForwardMt? ==> r.mt == f.mt.(serviceMessage := serviceMessage)
  {
    match f
    case SendRif(rif) => SendRif(rif.(serviceMessage := serviceMessage))
    case ForwardMt(mt) => ForwardMt(mt.(serviceMessage := serviceMessage))
  }

  /** `handleGBlock` of SendRIFSM and ForwardMTSM: the open confirmation
      leaves W_INVOKE; the operation's result records success and waits for
      the close; an error records its code and waits for the close; a close
      or abort from the network hands the run to the executor. */
  function HandleAppDialog(d: SmDialog, e: Event): (r: Handled)
    requires !d.data.ForwardMo? && ValidEvent(e)
    ensures r.dialog.dialogId == d.dialogId && r.dialog.cTime == d.cTime
    ensures r.dialog.invokeId == d.invokeId
    ensures r.dialog.data.SendRif? == d.data.SendRif? && r.dialog.data.ForwardMt? == d.data.ForwardMt?
    ensures r.out == []
    ensures r.submitted <==>
      (e.serviceType == GmapReq && (e.msg.CloseMsg? || e.msg.UAbortMsg? || e.msg.PAbortMsg?))
    ensures e.serviceType == GmapError ==>
      r.dialog == SetState(d, W_CLOSE_0).(data := WithOutcome(d.data, e.msg.code))
    // the answers and requests, one by one
    ensures e.serviceType == GmapRsp && e.msg.OpenMsg? ==> r.dialog == SetState(d, W_INVOKE)
    ensures e.serviceType == GmapRsp && e.msg.ForwardSmMsg? ==>
      r.dialog == (if d.data.ForwardMt? then SetState(d, W_CLOSE_0).(data := WithOutcome(d.data, 0)) else d)
    ensures e.serviceType == GmapRsp && e.msg.RoutingInfoMsg? ==>
      (r.dialog.state == if d.data.SendRif? then SetDialogState(d.state, W_CLOSE_0) else d.state) &&
      (d.data.SendRif? ==> r.dialog.data.rif.serviceMessage == 0) &&
      (d.data.SendRif? ==>
         r.dialog == SetState(d.(data := SendRif(RoutingInfoData(d.data.rif, e.msg.imsi, e.msg.lmsi, e.msg.location))),
                              W_CLOSE_0)) &&
      (d.data.ForwardMt? ==> r.dialog == d)
    ensures e.serviceType == GmapReq && e.msg.CloseMsg? ==> r.dialog == SetState(d, CLOSE_0)
    ensures e.serviceType == GmapReq && (e.msg.UAbortMsg? || e.msg.PAbortMsg?) ==>
      r.dialog == SetState(d, ABORT_0)
    ensures (e.serviceType == GmapRsp &&
             !e.msg.OpenMsg? && !e.msg.ForwardSmMsg? && !e.msg.RoutingInfoMsg?) ||
            (e.serviceType == GmapReq && !e.msg.CloseMsg? && !e.msg.UAbortMsg? && !e.msg.PAbortMsg?) ||
            e.serviceType == GmapProviderError || e.serviceType == OtherService ==>
      r.dialog == d
  {
    if e.serviceType == GmapRsp then
      match e.msg
      case OpenMsg(_) => Handled(SetState(d, W_INVOKE), [], false)
      case RoutingInfoMsg(imsi, lmsi, loc) =>
        if d.data.SendRif? then
          var d' := d.(data := SendRif(RoutingInfoData(d.data.rif, imsi, lmsi, loc)));
          Handled(SetState(d', W_CLOSE_0), [], false)
        else Handled(d, [], false)
      case ForwardSmMsg =>
        if d.data.ForwardMt? then
          Handled(SetState(d.(data := WithOutcome(d.data, 0)), W_CLOSE_0), [], false)
        else Handled(d, [], false)
      case _ => Handled(d, [], false)
    else if e.serviceType == GmapReq then
      match e.msg
      case CloseMsg => Handled(SetState(d, CLOSE_0), [], true)
      case UAbortMsg => Handled(SetState(d, ABORT_0), [], true)
      case PAbortMsg => Handled(SetState(d, ABORT_0), [], true)
      case _ => Handled(d, [], false)
    else if e.serviceType == GmapError then
      Handled(SetState(d.(data := WithOutcome(d.data, e.msg.code)), W_CLOSE_0), [], false)
    else Handled(d, [], false)
  }

  /** The outcome elements of an advice: REQUEST_ACCEPTED alone for
      success, REQUEST_FAILED and the code as an Integer otherwise. */
  function WithOutcomeIes(ies: map<byte, Ie>, serviceMessage: int): (r: map<byte, Ie>)
    requires ValidIes(ies) && BYTE !in ies && INTEGER !in ies
    ensures ValidIes(r)
    ensures r.Keys == ies.Keys + (if serviceMessage == 0 then {BYTE} else {BYTE, INTEGER})
    ensures forall k :: k in ies ==> r[k] == ies[k]
    ensures r[BYTE] == Basic(IeByte(if serviceMessage == 0 then REQUEST_ACCEPTED else REQUEST_FAILED))
    ensures serviceMessage != 0 ==> r[INTEGER] == Basic(IeInteger(serviceMessage))
  {
    if serviceMessage == 0 then ies[BYTE := Basic(IeByte(REQUEST_ACCEPTED))]
    else ies[BYTE := Basic(IeByte(REQUEST_FAILED))][INTEGER := Basic(IeInteger(serviceMessage))]
  }

  /** The outcome elements an advice carries: the byte always, the code
      only for a failure. */
  lemma OutcomeOf(ies: map<byte, Ie>, serviceMessage: int)
    requires ValidIes(ies) && BYTE !in ies && INTEGER !in ies
    ensures var r := WithOutcomeIes(ies, serviceMessage);
      r[BYTE] == Basic(IeByte(if serviceMessage == 0 then REQUEST_ACCEPTED else REQUEST_FAILED)) &&
      (INTEGER in r <==> serviceMessage != 0)
  {
  }

  /** The message id element when there is one. */
  function WithMessageId(ies: map<byte, Ie>, messageId: string): (r: map<byte, Ie>)
    requires ValidIes(ies) && Fits(messageId) && MESSAGE_ID !in ies
    ensures ValidIes(r)
    ensures r.Keys == ies.Keys + (if |messageId| > 0 then {MESSAGE_ID} else {})
    ensures forall k :: k in ies ==> r[k] == ies[k]
    ensures |messageId| > 0 ==> r[MESSAGE_ID] == Composite(StringIe(MESSAGE_ID, messageId))
  {
    if |messageId| > 0 then ies[MESSAGE_ID := Composite(StringIe(MESSAGE_ID, messageId))] else ies
  }

  /** The FORWARD_MT_SM_ADVICE of a ForwardMTSM run: the message id and the
      outcome. */
  function MtAdvice(mt: MtData): (m: Message)
    requires Fits(mt.messageId)
    ensures ValidMessage(m) && m.mtype == FORWARD_MT_SM_ADVICE.mtype && m.sequenceNumber == 0
  {
    Message(BaseConn.VERSION, 0, DEFAULT_TIME_TO_LIVE, FORWARD_MT_SM_ADVICE.mtype,
            TlvBody(WithOutcomeIes(WithMessageId(map[], mt.messageId), mt.serviceMessage)))
  }

  /** The outcome the application reads from an advice: accepted exactly
      for a recorded success, otherwise failed with the recorded code; the
      message id comes back as it was. */
  lemma AdviceOutcome(mt: MtData)
    requires Fits(mt.messageId) && IsCString(mt.messageId)
    ensures var ies := IesOf(MtAdvice(mt));
      ies[BYTE] == Basic(IeByte(if mt.serviceMessage == 0 then REQUEST_ACCEPTED else REQUEST_FAILED)) &&
      (INTEGER in ies <==> mt.serviceMessage != 0) &&
      (INTEGER in ies ==> ies[INTEGER] == Basic(IeInteger(mt.serviceMessage))) &&
      (GetCompositeIe(MtAdvice(mt), MESSAGE_ID).Some? <==> |mt.messageId| > 0) &&
      (|mt.messageId| > 0 ==>
         GetIeStringOf(GetCompositeIe(MtAdvice(mt), MESSAGE_ID).value) == mt.messageId)
  {
    StringIeRoundTrip(MESSAGE_ID, mt.messageId, 0);
  }

  /** The identity elements of a SEND_RI_F_SM_ADVICE: the IMSI and LMSI
      when known, and the roaming number or else the MSC number as the
      remote global title. */
  function RifIdentityIes(rif: RifData): (ies: map<byte, Ie>)
    requires ValidFlavour(SendRif(rif))
    ensures ValidIes(ies) && ies.Keys <= {IE_IMSI, IE_LMSI, REMOTE_GT}
    ensures IE_IMSI in ies <==> |rif.imsi| > 0
    ensures IE_LMSI in ies <==> |rif.lmsi| > 0
    ensures REMOTE_GT in ies <==> |rif.roamingNumber| > 0 || |rif.mscNumber| > 0
    ensures |rif.imsi| > 0 ==> ies[IE_IMSI] == Composite(StringIe(IE_IMSI, rif.imsi))
    ensures |rif.lmsi| > 0 ==> ies[IE_LMSI] == Composite(StringIe(IE_LMSI, rif.lmsi))
    ensures |rif.roamingNumber| > 0 ==>
      ies[REMOTE_GT] == Composite(AddressIe(REMOTE_GT, rif.roamingNumber, rif.roamingNumberType))
    ensures |rif.roamingNumber| == 0 && |rif.mscNumber| > 0 ==>
      ies[REMOTE_GT] == Composite(AddressIe(REMOTE_GT, rif.mscNumber, rif.mscNumberType))
  {
    var ies: map<byte, Ie> := map[];
    var ies := if |rif.imsi| > 0 then PutChild(ies, Composite(StringIe(IE_IMSI, rif.imsi))) else ies;
    var ies := if |rif.lmsi| > 0 then PutChild(ies, Composite(StringIe(IE_LMSI, rif.lmsi))) else ies;
    if |rif.roamingNumber| > 0 then
      PutChild(ies, Composite(AddressIe(REMOTE_GT, rif.roamingNumber, rif.roamingNumberType)))
    else if |rif.mscNumber| > 0 then
      PutChild(ies, Composite(AddressIe(REMOTE_GT, rif.mscNumber, rif.mscNumberType)))
    else ies
  }

  /** The SEND_RI_F_SM_ADVICE of a SendRIFSM run: the message id, the
      identities, and the outcome. */
  function RifAdvice(rif: RifData): (m: Message)
    requires ValidFlavour(SendRif(rif))
    ensures ValidMessage(m) && m.mtype == SEND_RI_F_SM_ADVICE.mtype && m.sequenceNumber == 0
  {
    Message(BaseConn.VERSION, 0, DEFAULT_TIME_TO_LIVE, SEND_RI_F_SM_ADVICE.mtype,
            TlvBody(WithOutcomeIes(WithMessageId(RifIdentityIes(rif), rif.messageId), rif.serviceMessage)))
  }

  /** The elements an advice takes over from the elements it is built on. */
  lemma AdviceKeeps(ies: map<byte, Ie>, messageId: string, serviceMessage: int, k: byte)
    requires ValidIes(ies) && Fits(messageId) && MESSAGE_ID !in ies && BYTE !in ies && INTEGER !in ies
    requires k != MESSAGE_ID && k != BYTE && k != INTEGER
    ensures var r := WithOutcomeIes(WithMessageId(ies, messageId), serviceMessage);
      (k in r <==> k in ies) && (k in ies ==> r[k] == ies[k])
  {
  }

  /** A string element read back from a message: absent, it reads as "". */
  lemma ReadStringOrEmpty(m: Message, t: byte, s: string)
    requires ValidMessage(m) && !IsTypeValue(t) && Fits(s) && IsCString(s)
    requires t in IesOf(m) <==> |s| > 0
    requires |s| > 0 ==> IesOf(m)[t] == Composite(StringIe(t, s))
    ensures CompositeString(m, t) == s
  {
    if |s| > 0 {
      ReadStringIe(m, t, s);
    }
  }

  /** What the application reads from a SEND_RI_F_SM_ADVICE: the message
      id, IMSI and LMSI the dialog holds (an absent element reads as ""), and
      the outcome. */
  lemma RifAdviceContents(rif: RifData)
    requires ValidFlavour(SendRif(rif))
    requires IsCString(rif.messageId) && IsCString(rif.imsi) && IsCString(rif.lmsi)
    ensures var m := RifAdvice(rif);
      CompositeString(m, MESSAGE_ID) == rif.messageId &&
      CompositeString(m, IE_IMSI) == rif.imsi && CompositeString(m, IE_LMSI) == rif.lmsi &&
      IesOf(m)[BYTE] == Basic(IeByte(if rif.serviceMessage == 0 then REQUEST_ACCEPTED else REQUEST_FAILED)) &&
      (INTEGER in IesOf(m) <==> rif.serviceMessage != 0)
  {
    RifAdviceStrings(rif);
    RifAdviceOutcome(rif);
  }

  /** The message id, IMSI and LMSI of a SEND_RI_F_SM_ADVICE read back. */
  lemma RifAdviceStrings(rif: RifData)
    requires ValidFlavour(SendRif(rif))
    requires IsCString(rif.messageId) && IsCString(rif.imsi) && IsCString(rif.lmsi)
    ensures var m := RifAdvice(rif);
      CompositeString(m, MESSAGE_ID) == rif.messageId &&
      CompositeString(m, IE_IMSI) == rif.imsi && CompositeString(m, IE_LMSI) == rif.lmsi
  {
    var m := RifAdvice(rif);
    var ids := RifIdentityIes(rif);
    assert IesOf(m) == WithOutcomeIes(WithMessageId(ids, rif.messageId), rif.serviceMessage);
    ReadStringOrEmpty(m, MESSAGE_ID, rif.messageId);
    AdviceKeeps(ids, rif.messageId, rif.serviceMessage, IE_IMSI);
    ReadStringOrEmpty(m, IE_IMSI, rif.imsi);
    AdviceKeeps(ids, rif.messageId, rif.serviceMessage, IE_LMSI);
    ReadStringOrEmpty(m, IE_LMSI, rif.lmsi);
  }

  /** The outcome of a SEND_RI_F_SM_ADVICE: REQUEST_ACCEPTED without an
      error code, REQUEST_FAILED with one. */
  lemma RifAdviceOutcome(rif: RifData)
    requires ValidFlavour(SendRif(rif))
    ensures var m := RifAdvice(rif);
      IesOf(m)[BYTE] == Basic(IeByte(if rif.serviceMessage == 0 then REQUEST_ACCEPTED else REQUEST_FAILED)) &&
      (INTEGER in IesOf(m) <==> rif.serviceMessage != 0)
  {
    var named := WithMessageId(RifIdentityIes(rif), rif.messageId);
    OutcomeOf(named, rif.serviceMessage);
    assert IesOf(RifAdvice(rif)) == WithOutcomeIes(named, rif.serviceMessage);
  }

  /** The remote global title a SEND_RI_F_SM_ADVICE reports: the roaming
      number with its type of address when the HLR gave one, otherwise the
      MSC number. */
  lemma RifAdviceLocation(rif: RifData)
    requires ValidFlavour(SendRif(rif))
    requires IsCString(rif.roamingNumber) && IsCString(rif.mscNumber)
    ensures var m := RifAdvice(rif);
      (|rif.roamingNumber| > 0 ==>
         (CompositeString(m, REMOTE_GT) == rif.roamingNumber &&
          CompositeByte(m, REMOTE_GT, 0) == rif.roamingNumberType)) &&
      (|rif.roamingNumber| == 0 ==>
         (CompositeString(m, REMOTE_GT) == rif.mscNumber &&
          (|rif.mscNumber| > 0 ==> CompositeByte(m, REMOTE_GT, 0) == rif.mscNumberType)))
  {
    var m := RifAdvice(rif);
    var ids := RifIdentityIes(rif);
    assert IesOf(m) == WithOutcomeIes(WithMessageId(ids, rif.messageId), rif.serviceMessage);
    AdviceKeeps(ids, rif.messageId, rif.serviceMessage, REMOTE_GT);
    if |rif.roamingNumber| > 0 {
      ReadAddressIe(m, REMOTE_GT, rif.roamingNumber, rif.roamingNumberType);
    } else if |rif.mscNumber| > 0 {
      ReadAddressIe(m, REMOTE_GT, rif.mscNumber, rif.mscNumberType);
    }
  }

  /** The run of an application-started dialog: the advice is written when
      the pool has a connection, and lost otherwise. */
  function AppDialogRun(f: Flavour, online: bool): (r: Option<Message>)
    requires !f.ForwardMo? && ValidFlavour(f)
    ensures r.Some? <==> online
    ensures r.Some? ==>
      (ValidMessage(r.value) &&
       r.value.mtype == (if f.SendRif? then SEND_RI_F_SM_ADVICE.mtype else FORWARD_MT_SM_ADVICE.mtype))
    ensures r.Some? ==> r.value == if f.SendRif? then RifAdvice(f.rif) else MtAdvice(f.mt)
  {
    if !online then None
    else if f.SendRif? then Some(RifAdvice(f.rif))
    else Some(MtAdvice(f.mt))
  }

  // ---------------------------------------------------------------------
  // Dialogs of every flavour

  /** `handleGBlock`, by flavour. */
  function HandleGBlock(d: SmDialog, e: Event): (r: Handled)
    requires ValidEvent(e)
    ensures r.dialog.dialogId == d.dialogId
    ensures r.dialog.data.ForwardMo? == d.data.ForwardMo?
  {
    if d.data.ForwardMo? then HandleForwardMo(d, d.data.mo, e) else HandleAppDialog(d, e)
  }

  /** `check()` of a dialog of any flavour: the escalation, and a U-ABORT
      in W_CLOSE_1. */
  function CheckDialog(d: SmDialog): (r: Handled)
    ensures r.dialog == d.(state := Escalate(d.state)) && !r.submitted
    ensures r.out == (if AbortsOnCheck(d.state) then [UAbort] else [])
  {
    Handled(d.(state := Escalate(d.state)), if AbortsOnCheck(d.state) then [UAbort] else [], false)
  }

  /** A check asks for the escalated state through the guard, which never
      refuses it. */
  lemma CheckGoesThroughGuard(d: SmDialog)
    ensures CheckDialog(d).dialog == SetState(d, Escalate(d.state))
  {
    EscalateProperties(d.state);
  }

  /** The handlers keep the strings a dialog holds within their buffers. */
  lemma HandleKeepsValid(d: SmDialog, e: Event)
    requires ValidEvent(e) && ValidFlavour(d.data)
    ensures ValidFlavour(HandleGBlock(d, e).dialog.data)
  {
    if d.data.ForwardMo? && e.serviceType == GmapReq && e.msg.OpenMsg? {
      var gt := e.msg.originatingGt;
      if |gt| > 0 {
        assert |GBlock.GetOctetStr(gt, |gt|)| == |gt|;
      }
    }
  }

  // ---------------------------------------------------------------------
  // GMAPSM

  datatype Routed = Routed(cache: Cache<Flavour>, out: seq<Primitive>, submitted: bool)

  /** Hands the event to the dialog cached under its id; without one the
      event is dropped. */
  function Deliver(cache: Cache<Flavour>, e: Event): (r: Routed)
    requires ValidEvent(e) && Dialogs.WellKeyed(cache)
    ensures Dialogs.WellKeyed(r.cache)
    ensures e.dialogId !in cache ==> r == Routed(cache, [], false)
    ensures e.dialogId in cache ==>
      var h := HandleGBlock(cache[e.dialogId], e);
      r == Routed(Dialogs.Put(cache, h.dialog), h.out, h.submitted)
  {
    match Find(cache, e.dialogId)
    case None => Routed(cache, [], false)
    case Some(d) =>
      var h := HandleGBlock(d, e);
      Routed(Dialogs.Put(cache, h.dialog), h.out, h.submitted)
  }

  /** The requests GMAPSM passes to an existing dialog. */
  predicate RoutedRequest(m: ServiceMsg) {
    m.MoForwardSmMsg? || m.AlertServiceCentreMsg? || m.DelimiterMsg? || m.CloseMsg? ||
    m.PAbortMsg? || m.UAbortMsg?
  }

  /** The ForwardMOSM an open request creates at time `now`. */
  function NewForwardMo(now: int, dialogId: int): (d: SmDialog)
    ensures d.dialogId == dialogId && d.state == NEW && d.data == ForwardMo(EMPTY_MO)
  {
    NewDialog(now, ForwardMo(EMPTY_MO)).(dialogId := dialogId)
  }

  /** `GMAPSM::handleGBlock`: answers, errors and provider errors go to the
      cached dialog; an open request creates a ForwardMOSM under the event's
      dialog id, replacing any dialog there, and hands it the event; the
      other listed requests go to the cached dialog; the rest is dropped. */
  function Route(cache: Cache<Flavour>, e: Event, now: int): (r: Routed)
    requires ValidEvent(e) && Dialogs.WellKeyed(cache)
    ensures Dialogs.WellKeyed(r.cache)
  {
    if e.serviceType == GmapRsp || e.serviceType == GmapError || e.serviceType == GmapProviderError then
      Deliver(cache, e)
    else if e.serviceType == GmapReq then
      if e.msg.OpenMsg? then
        var h := HandleGBlock(NewForwardMo(now, e.dialogId), e);
        Routed(Dialogs.Put(cache, h.dialog), h.out, h.submitted)
      else if RoutedRequest(e.msg) then Deliver(cache, e)
      else Routed(cache, [], false)
    else Routed(cache, [], false)
  }

  /** An open request always leaves a fresh ForwardMOSM in W_INVOKE under
      the event's id, answered with an open confirmation; no other dialog
      changes. */
  lemma RouteOpen(cache: Cache<Flavour>, e: Event, now: int)
    requires ValidEvent(e) && Dialogs.WellKeyed(cache)
    requires e.serviceType == GmapReq && e.msg.OpenMsg?
    ensures var r := Route(cache, e, now);
      e.dialogId in r.cache && r.cache[e.dialogId].state == W_INVOKE &&
      r.cache[e.dialogId].data.ForwardMo? && r.cache[e.dialogId].cTime == now + DEFAULT_TIME_TO_CHECK &&
      r.out == [OpenRes] && !r.submitted &&
      (forall k :: k != e.dialogId ==> (k in r.cache <==> k in cache)) &&
      (forall k :: k in cache && k != e.dialogId ==> r.cache[k] == cache[k])
  {
  }

  /** An event for an id with no dialog, other than an open request,
      changes nothing and pushes nothing. */
  lemma RouteWithoutDialog(cache: Cache<Flavour>, e: Event, now: int)
    requires ValidEvent(e) && Dialogs.WellKeyed(cache)
    requires e.dialogId !in cache && !(e.serviceType == GmapReq && e.msg.OpenMsg?)
    ensures Route(cache, e, now) == Routed(cache, [], false)
  {
  }

  /** Only answers, errors, provider errors, the open request and the
      listed requests reach a dialog; anything else is dropped even when a
      dialog has the event's id. */
  lemma RouteDropsUnlisted(cache: Cache<Flavour>, e: Event, now: int)
    requires ValidEvent(e) && Dialogs.WellKeyed(cache)
    requires e.serviceType == OtherService ||
      (e.serviceType == GmapReq && !e.msg.OpenMsg? && !RoutedRequest(e.msg))
    ensures Route(cache, e, now) == Routed(cache, [], false)
  {
  }

  /** An answer or a listed request for a cached dialog is handled by that
      dialog, and its new value is cached under the same id. */
  lemma RouteToCached(cache: Cache<Flavour>, e: Event, now: int)
    requires ValidEvent(e) && Dialogs.WellKeyed(cache) && e.dialogId in cache
    requires e.serviceType in {GmapRsp, GmapError, GmapProviderError} ||
      (e.serviceType == GmapReq && RoutedRequest(e.msg))
    ensures var r := Route(cache, e, now);
      var h := HandleGBlock(cache[e.dialogId], e);
      r.out == h.out && r.submitted == h.submitted && r.cache == cache[e.dialogId := h.dialog]
  {
  }

  /** A transport-started dialog after the open and the invoke: INVOKE,
      with the invoke's fields, and its run handed to the executor. */
  lemma MoDialogFlow(cache: Cache<Flavour>, open: Event, invoke: Event, now: int)
    requires Dialogs.WellKeyed(cache) && ValidEvent(open) && ValidEvent(invoke)
    requires open.serviceType == GmapReq && open.msg == OpenMsg([])
    requires invoke.serviceType == GmapReq && invoke.msg.MoForwardSmMsg?
    requires invoke.dialogId == open.dialogId
    ensures var r1 := Route(cache, open, now);
      var r2 := Route(r1.cache, invoke, now);
      var m := invoke.msg;
      r2.submitted && r2.out == [] &&
      r2.cache[open.dialogId].state == INVOKE &&
      r2.cache[open.dialogId].invokeId == invoke.invokeId &&
      r2.cache[open.dialogId].data == ForwardMo(MoInvokeData(EMPTY_MO, m.scaDa, m.msisdnOa, m.ui))
  {
    RouteOpen(cache, open, now);
  }

  // ---------------------------------------------------------------------
  // Actions on application requests

  /** The string of the composite of type `t`, or "" without one. */
  function CompositeString(m: Message, t: byte): (s: string)
    requires ValidMessage(m)
    ensures |s| <= 255
  {
    match GetCompositeIe(m, t)
    case None => ""
    case Some(c) =>
      assert ValidIe(IesOf(m)[t]);
      GetIeStringOf(c)
  }

  /** The octet of the composite's BYTE child, or `default` without the
      composite. */
  function CompositeByte(m: Message, t: byte, default: byte): (b: byte)
    requires ValidMessage(m)
    ensures GetCompositeIe(m, t).None? ==> b == default
    ensures GetCompositeIe(m, t).Some? ==>
      var ch := ChildrenOf(GetCompositeIe(m, t).value);
      (BYTE in ch ==> ch[BYTE] == IeByte(b)) && (BYTE !in ch ==> b == 0)
  {
    match GetCompositeIe(m, t)
    case None => default
    case Some(c) =>
      assert ValidIe(IesOf(m)[t]);
      GetIeByte(c)
  }

  /** The byte array of the composite of type `t`, or none. */
  function CompositeBytes(m: Message, t: byte): (bs: seq<byte>)
    requires ValidMessage(m)
    ensures |bs| <= 255
  {
    match GetCompositeIe(m, t)
    case None => []
    case Some(c) =>
      assert ValidIe(IesOf(m)[t]);
      GetIeByteArray(c)
  }

  /** The value octet of a TV composite of type `t`, or 0 without one. The
      callers ask only for TV types, whose composites are always TV. */
  function CompositeValue(m: Message, t: byte): (v: byte)
    requires ValidMessage(m)
    ensures GetCompositeIe(m, t).None? ==> v == 0
    ensures GetCompositeIe(m, t).Some? && IsTypeValue(t) ==> GetCompositeIe(m, t).value == TvComposite(t, v)
  {
    match GetCompositeIe(m, t)
    case Some(TvComposite(_, v)) => v
    case _ => 0
  }

  datatype ActionResult = ActionResult(response: Message, started: Option<Handled>)

  /** The response of an action: the request's linked type, its sequence
      number, and REQUEST_ACCEPTED or REQUEST_FAILED. */
  function ActionResponse(request: Message, linkedType: byte, accepted: bool): (m: Message)
    requires IsTypeValue(linkedType)
    ensures ValidMessage(m) && m.version == BaseConn.VERSION
    ensures m.sequenceNumber == request.sequenceNumber && m.mtype == linkedType
    ensures m.body == TvBody(if accepted then REQUEST_ACCEPTED else REQUEST_FAILED)
  {
    NewMessage(BaseConn.VERSION, request.sequenceNumber, linkedType,
               if accepted then REQUEST_ACCEPTED else REQUEST_FAILED, [])
  }

  /** The request fields a SendRIFSM dialog is started with. */
  function RifRequestData(m: Message): (rif: RifData)
    requires ValidMessage(m)
    ensures ValidFlavour(SendRif(rif)) && rif.serviceMessage == -1
  {
    RifData(CompositeString(m, MESSAGE_ID), CompositeString(m, REMOTE_GT), CompositeByte(m, REMOTE_GT, 0),
            CompositeString(m, MSISDN), CompositeByte(m, MSISDN, 0), CompositeValue(m, SMRPPRI),
            "", "", "", 0, "", 0, -1)
  }

  /** `SendRIFSMAction::execute` at time `now`: a request with a message
      id, a remote global title and an MSISDN starts a SendRIFSM and is
      accepted; any other is refused. The dialog is cached once its open is
      put. */
  function SendRifAction(m: Message, now: int): (r: ActionResult)
    requires ValidMessage(m)
    ensures var rif := RifRequestData(m);
      var accepted := |rif.messageId| > 0 && |rif.remoteGt| > 0 && |rif.msisdn| > 0;
      r.response == ActionResponse(m, SEND_RI_F_SM_REQUEST.linkedType, accepted) &&
      (r.started.Some? <==> accepted) &&
      (accepted ==> r.started.value == InitDialog(NewDialog(now, SendRif(rif))))
  {
    var rif := RifRequestData(m);
    var accepted := |rif.messageId| > 0 && |rif.remoteGt| > 0 && |rif.msisdn| > 0;
    ActionResult(ActionResponse(m, SEND_RI_F_SM_REQUEST.linkedType, accepted),
                 if accepted then Some(InitDialog(NewDialog(now, SendRif(rif)))) else None)
  }

  /** The request fields a ForwardMTSM dialog is started with. */
  function MtRequestData(m: Message): (mt: MtData)
    requires ValidMessage(m)
    ensures ValidFlavour(ForwardMt(mt)) && mt.serviceMessage == -1
  {
    MtData(CompositeString(m, MESSAGE_ID), CompositeBytes(m, TPDU), CompositeString(m, IE_IMSI),
           CompositeString(m, IE_LMSI), CompositeString(m, REMOTE_GT), CompositeByte(m, REMOTE_GT, 0), -1)
  }

  /** `ForwardMTSMAction::execute` at time `now`: a request with a message
      id, a TPDU, an IMSI or an LMSI, and a remote global title starts a
      ForwardMTSM checked after 60 seconds and is accepted; any other is
      refused. */
  function ForwardMtAction(m: Message, now: int): (r: ActionResult)
    requires ValidMessage(m)
    ensures var mt := MtRequestData(m);
      var accepted := |mt.messageId| > 0 && |mt.tpdu| > 0 && (|mt.imsi| > 0 || |mt.lmsi| > 0) &&
        |mt.remoteGt| > 0;
      r.response == ActionResponse(m, FORWARD_MT_SM_REQUEST.linkedType, accepted) &&
      (r.started.Some? <==> accepted) &&
      (accepted ==> r.started.value == InitDialog(NewDialogWithTtl(now, TIME_60S, ForwardMt(mt))))
  {
    var mt := MtRequestData(m);
    var accepted := |mt.messageId| > 0 && |mt.tpdu| > 0 && (|mt.imsi| > 0 || |mt.lmsi| > 0) &&
      |mt.remoteGt| > 0;
    ActionResult(ActionResponse(m, FORWARD_MT_SM_REQUEST.linkedType, accepted),
                 if accepted then Some(InitDialog(NewDialogWithTtl(now, TIME_60S, ForwardMt(mt)))) else None)
  }

  /** The FORWARD_MT_SM_REQUEST an application sends: the message id, the
      TPDU, the identities present and the remote global title. */
  function MtRequest(sequenceNumber: int, messageId: string, tpdu: seq<byte>, imsi: string,
                     lmsi: string, remoteGt: string, remoteGtType: byte): (m: Message)
    requires Fits(messageId) && |tpdu| <= 255 && Fits(imsi) && Fits(lmsi) && Fits(remoteGt)
    ensures ValidMessage(m) && m.mtype == FORWARD_MT_SM_REQUEST.mtype
    ensures m.sequenceNumber == sequenceNumber
  {
    var ies := PutChild(map[], Composite(StringIe(MESSAGE_ID, messageId)));
    var ies := PutChild(ies, Composite(BytesIe(TPDU, tpdu, SMS_DELIVER)));
    var ies := PutChild(ies, Composite(AddressIe(REMOTE_GT, remoteGt, remoteGtType)));
    var ies := if |imsi| > 0 then PutChild(ies, Composite(StringIe(IE_IMSI, imsi))) else ies;
    var ies := if |lmsi| > 0 then PutChild(ies, Composite(StringIe(IE_LMSI, lmsi))) else ies;
    Message(BaseConn.VERSION, sequenceNumber, DEFAULT_TIME_TO_LIVE, FORWARD_MT_SM_REQUEST.mtype,
            TlvBody(ies))
  }

  /** A string composite filed in a message reads back as its string. */
  lemma ReadStringIe(m: Message, t: byte, s: string)
    requires ValidMessage(m) && !IsTypeValue(t) && Fits(s) && IsCString(s)
    requires t in IesOf(m) && IesOf(m)[t] == Composite(StringIe(t, s))
    ensures CompositeString(m, t) == s
  {
    StringIeRoundTrip(t, s, 0);
  }

  /** An address composite filed in a message reads back as its digits and
      its type of address. */
  lemma ReadAddressIe(m: Message, t: byte, s: string, toa: byte)
    requires ValidMessage(m) && !IsTypeValue(t) && Fits(s) && IsCString(s)
    requires t in IesOf(m) && IesOf(m)[t] == Composite(AddressIe(t, s, toa))
    ensures CompositeString(m, t) == s && CompositeByte(m, t, 0) == toa
  {
    StringIeRoundTrip(t, s, toa);
  }

  /** The action reads back the fields the application sent and accepts
      the request exactly when they are complete: a message id, a TPDU, at
      least one identity and a remote global title. */
  lemma MtRequestRoundTrip(sequenceNumber: int, messageId: string, tpdu: seq<byte>, imsi: string,
                           lmsi: string, remoteGt: string, remoteGtType: byte)
    requires Fits(messageId) && |tpdu| <= 255 && Fits(imsi) && Fits(lmsi) && Fits(remoteGt)
    requires IsCString(messageId) && IsCString(imsi) && IsCString(lmsi) && IsCString(remoteGt)
    ensures var m := MtRequest(sequenceNumber, messageId, tpdu, imsi, lmsi, remoteGt, remoteGtType);
      MtRequestData(m) == MtData(messageId, tpdu, imsi, lmsi, remoteGt, remoteGtType, -1) &&
      (ForwardMtAction(m, 0).started.Some? <==>
         |messageId| > 0 && |tpdu| > 0 && (|imsi| > 0 || |lmsi| > 0) && |remoteGt| > 0)
  {
    var m := MtRequest(sequenceNumber, messageId, tpdu, imsi, lmsi, remoteGt, remoteGtType);
    var ies := IesOf(m);
    ReadStringIe(m, MESSAGE_ID, messageId);
    ReadAddressIe(m, REMOTE_GT, remoteGt, remoteGtType);
    if |imsi| > 0 {
      ReadStringIe(m, IE_IMSI, imsi);
    } else {
      assert IE_IMSI !in ies;
    }
    if |lmsi| > 0 {
      ReadStringIe(m, IE_LMSI, lmsi);
    } else {
      assert IE_LMSI !in ies;
    }
    assert CompositeBytes(m, TPDU) == tpdu by {
      assert ies[TPDU] == Composite(BytesIe(TPDU, tpdu, SMS_DELIVER));
    }
  }

  /** A request with neither IMSI nor LMSI is refused, whatever else it
      holds. */
  lemma MtRequestWithoutIdentity(m: Message, now: int)
    requires ValidMessage(m)
    requires GetCompositeIe(m, IE_IMSI).None? && GetCompositeIe(m, IE_LMSI).None?
    ensures ForwardMtAction(m, now).started.None?
    ensures ForwardMtAction(m, now).response.body == TvBody(REQUEST_FAILED)
    ensures ForwardMtAction(m, now).response.mtype == FORWARD_MT_SM_RESPONSE.mtype
  {
  }

  /** The SEND_RI_F_SM_REQUEST an application sends. */
  function RifRequest(sequenceNumber: int, messageId: string, remoteGt: string, remoteGtType: byte,
                      msisdn: string, msisdnType: byte, smRpPri: byte): (m: Message)
    requires Fits(messageId) && Fits(remoteGt) && Fits(msisdn)
    ensures ValidMessage(m)
  {
    var ies := PutChild(map[], Composite(StringIe(MESSAGE_ID, messageId)));
    var ies := PutChild(ies, Composite(AddressIe(REMOTE_GT, remoteGt, remoteGtType)));
    var ies := PutChild(ies, Composite(AddressIe(MSISDN, msisdn, msisdnType)));
    var ies := PutChild(ies, Composite(TvComposite(SMRPPRI, smRpPri)));
    Message(BaseConn.VERSION, sequenceNumber, DEFAULT_TIME_TO_LIVE, SEND_RI_F_SM_REQUEST.mtype,
            TlvBody(ies))
  }

  /** The action reads back the fields the application sent and accepts
      the request exactly when the message id, the remote global title and
      the MSISDN are all present. */
  lemma RifRequestRoundTrip(sequenceNumber: int, messageId: string, remoteGt: string,
                            remoteGtType: byte, msisdn: string, msisdnType: byte, smRpPri: byte)
    requires Fits(messageId) && Fits(remoteGt) && Fits(msisdn)
    requires IsCString(messageId) && IsCString(remoteGt) && IsCString(msisdn)
    ensures var m := RifRequest(sequenceNumber, messageId, remoteGt, remoteGtType, msisdn, msisdnType, smRpPri);
      RifRequestData(m) ==
        RifData(messageId, remoteGt, remoteGtType, msisdn, msisdnType, smRpPri, "", "", "", 0, "", 0, -1) &&
      (SendRifAction(m, 0).started.Some? <==> |messageId| > 0 && |remoteGt| > 0 && |msisdn| > 0)
  {
    var m := RifRequest(sequenceNumber, messageId, remoteGt, remoteGtType, msisdn, msisdnType, smRpPri);
    ReadStringIe(m, MESSAGE_ID, messageId);
    ReadAddressIe(m, REMOTE_GT, remoteGt, remoteGtType);
    ReadAddressIe(m, MSISDN, msisdn, msisdnType);
    assert CompositeValue(m, SMRPPRI) == smRpPri by {
      assert IesOf(m)[SMRPPRI] == Composite(TvComposite(SMRPPRI, smRpPri));
    }
  }

  /** A complete SEND_RI_F_SM_REQUEST starts a dialog that opens towards
      the HLR at the request's remote global title and asks for the routing
      information of the request's MSISDN. */
  lemma RifRequestOpensHlr(sequenceNumber: int, messageId: string, remoteGt: string, remoteGtType: byte,
                           msisdn: string, msisdnType: byte, smRpPri: byte, now: int)
    requires Fits(messageId) && Fits(remoteGt) && Fits(msisdn)
    requires IsCString(messageId) && IsCString(remoteGt) && IsCString(msisdn)
    requires |messageId| > 0 && |remoteGt| > 0 && |msisdn| > 0
    ensures var m := RifRequest(sequenceNumber, messageId, remoteGt, remoteGtType, msisdn, msisdnType, smRpPri);
      var r := SendRifAction(m, now);
      r.started.Some? && r.started.value.dialog.state == W_INVOKE &&
      r.started.value.out ==
        [Open(ShortMsgGatewayV1, HLR_SSN, remoteGt, remoteGtType),
         Request(SendRoutingInfoForSm(msisdn, msisdnType, smRpPri)), Delimiter]
  {
    RifRequestRoundTrip(sequenceNumber, messageId, remoteGt, remoteGtType, msisdn, msisdnType, smRpPri);
  }

  /** A complete FORWARD_MT_SM_REQUEST starts a dialog that opens towards
      the MSC at the request's remote global title and forwards the
      request's TPDU to its IMSI and LMSI. */
  lemma MtRequestOpensMsc(sequenceNumber: int, messageId: string, tpdu: seq<byte>, imsi: string,
                          lmsi: string, remoteGt: string, remoteGtType: byte, now: int)
    requires Fits(messageId) && |tpdu| <= 255 && Fits(imsi) && Fits(lmsi) && Fits(remoteGt)
    requires IsCString(messageId) && IsCString(imsi) && IsCString(lmsi) && IsCString(remoteGt)
    requires |messageId| > 0 && |tpdu| > 0 && (|imsi| > 0 || |lmsi| > 0) && |remoteGt| > 0
    ensures var m := MtRequest(sequenceNumber, messageId, tpdu, imsi, lmsi, remoteGt, remoteGtType);
      var r := ForwardMtAction(m, now);
      r.started.Some? && r.started.value.dialog.state == W_INVOKE &&
      r.started.value.out ==
        [Open(ShortMsgMtRelayV2, MSC_SSN, remoteGt, remoteGtType),
         Request(MtForwardSm(tpdu, imsi, lmsi)), Delimiter]
  {
    MtRequestRoundTrip(sequenceNumber, messageId, tpdu, imsi, lmsi, remoteGt, remoteGtType);
  }

  /** An accepted mobile-terminated delivery: the dialog put with its
      open, confirmed, answered and closed by the network, reports success
      to the application. */
  lemma MtDeliveryAccepted(d: SmDialog, assignedId: int, cache: Cache<Flavour>,
                           confirm: Event, result: Event, close: Event)
    requires d.data.ForwardMt? && Fits(d.data.mt.messageId) && IsCString(d.data.mt.messageId)
    requires d.state == W_INVOKE && Dialogs.WellKeyed(cache)
    requires confirm == Event(GmapRsp, assignedId, 0, OpenMsg([]))
    requires result == Event(GmapRsp, assignedId, 0, ForwardSmMsg)
    requires close == Event(GmapReq, assignedId, 0, CloseMsg)
    ensures var p := PutGBlockStep(cache, d, Open(ShortMsgMtRelayV2, MSC_SSN, d.data.mt.remoteGt,
                                                   d.data.mt.remoteGtType), true, assignedId);
      var r1 := Route(p.cache, confirm, 0);
      var r2 := Route(r1.cache, result, 0);
      var r3 := Route(r2.cache, close, 0);
      var f := r3.cache[assignedId].data;
      r3.submitted && r3.cache[assignedId].state == CLOSE_0 && f.ForwardMt? &&
      f.mt.serviceMessage == 0 &&
      IesOf(AppDialogRun(f, true).value)[BYTE] == Basic(IeByte(REQUEST_ACCEPTED))
  {
    var p := PutGBlockStep(cache, d, Open(ShortMsgMtRelayV2, MSC_SSN, d.data.mt.remoteGt,
                                          d.data.mt.remoteGtType), true, assignedId);
    var r1 := Route(p.cache, confirm, 0);
    var r2 := Route(r1.cache, result, 0);
    var r3 := Route(r2.cache, close, 0);
    var f := r3.cache[assignedId].data;
    assert f == ForwardMt(d.data.mt.(serviceMessage := 0));
    AdviceOutcome(f.mt);
  }
}

=== FILE: ie.dfy ===
/** Information element type codes. A code below 128 selects the TV layout
    (one value octet, no length); a code of 128 or more selects TLV (one
    length octet, then that many value octets). */
module IeTypes {
  import opened Bytes
  import opened Wrappers

  const BYTE: byte := 0x30
  const INTEGER: byte := 0xd0
  const LONG: byte := 0xd1
  const BYTE_ARRAY: byte := 0xd2
  const DATE: byte := 0xd3
  const TIMESTAMP: byte := 0xd4

  /** The TV layout (type, value) applies below 128. */
  predicate IsTypeValue(t: byte) {
    t < 128
  }

  /** The six basic element kinds. */
  datatype Kind = ByteKind | IntegerKind | LongKind | ByteArrayKind | DateKind | TimestampKind

  /** The code of each basic kind. */
  function CodeOf(k: Kind): (t: byte)
    ensures IsTypeValue(t) <==> k == ByteKind
  {
    match k
    case ByteKind => BYTE
    case IntegerKind => INTEGER
    case LongKind => LONG
    case ByteArrayKind => BYTE_ARRAY
    case DateKind => DATE
    case TimestampKind => TIMESTAMP
  }

  /** The basic kind a type code names, if any. */
  function KindOf(t: byte): (k: Option<Kind>)
    ensures k.Some? ==> CodeOf(k.value) == t
    ensures k.None? ==> forall kind: Kind :: CodeOf(kind) != t
  {
    if t == BYTE then Some(ByteKind)
    else if t == INTEGER then Some(IntegerKind)
    else if t == LONG then Some(LongKind)
    else if t == BYTE_ARRAY then Some(ByteArrayKind)
    else if t == DATE then Some(DateKind)
    else if t == TIMESTAMP then Some(TimestampKind)
    else None
  }

  predicate IsBasicType(t: byte) {
    KindOf(t).Some?
  }

  /** Distinct kinds have distinct codes, so a code identifies its kind. */
  lemma CodesAreDistinct(k1: Kind, k2: Kind)
    ensures CodeOf(k1) == CodeOf(k2) <==> k1 == k2
    ensures KindOf(CodeOf(k1)) == Some(k1)
  {
  }
}

=== FILE: message.dfy ===
/** Messages of the application protocol and the registry of message types.
    A message is a composite with an envelope: version, sequence number and
    time to live. Its frame is `version | seq_hi | seq_lo | type | value`
    for a TV type and `version | seq_hi | seq_lo | type | len | fields` for
    a TLV type. Unlike a composite, a message keeps fields of unknown type,
    as nested composites. */
module Messages {
  import opened Bytes
  import opened Wrappers
  import opened IeTypes
  import opened BasicIe
  import opened Tlv
  import opened CompositeIe

  const TIME_TO_LIVE_1S := 1000
  const TIME_TO_LIVE_2S := 2000
  const TIME_TO_LIVE_4S := 4000
  const DEFAULT_TIME_TO_LIVE := TIME_TO_LIVE_4S

  /** The value of a TV message, or the elements of a TLV message keyed by
      type code. */
  datatype Body = TvBody(value: byte) | TlvBody(ies: map<byte, Ie>)

  datatype Message = Message(version: byte, sequenceNumber: int, timeToLive: int,
                             mtype: byte, body: Body)

  /** Every element is filed under its own type code. */
  predicate WellKeyedIes(ies: map<byte, Ie>) {
    forall k :: k in ies ==> IeType(ies[k]) == k
  }

  /** An element a message can hold: a basic value fits its 255-octet
      buffer, a composite keeps its own rules. */
  predicate ValidIe(ie: Ie) {
    match ie
    case Basic(b) => FitsBuffer(b)
    case Composite(c) => ValidComposite(c)
  }

  /** An element a message can write: a composite's encoding also passes
      through a 255-octet buffer. */
  predicate EncodableIe(ie: Ie) {
    ValidIe(ie) && (ie.Composite? ==> |Value(ie.composite)| <= 255)
  }

  predicate EncodableIes(ies: map<byte, Ie>) {
    ValidIes(ies) && forall k :: k in ies ==> EncodableIe(ies[k])
  }

  /** A message whose frame the source can build. */
  predicate Writable(m: Message) {
    ValidMessage(m) && (m.body.TlvBody? ==> EncodableIes(m.body.ies))
  }

  predicate ValidIes(ies: map<byte, Ie>) {
    WellKeyedIes(ies) && forall k :: k in ies ==> ValidIe(ies[k])
  }

  predicate ValidMessage(m: Message) {
    match m.body
    case TvBody(_) => IsTypeValue(m.mtype)
    case TlvBody(ies) => !IsTypeValue(m.mtype) && ValidIes(ies)
  }

  function IesOf(m: Message): map<byte, Ie> {
    if m.body.TlvBody? then m.body.ies else map[]
  }

  // ---------------------------------------------------------------------
  // Elements

  /** `putIE`: a composite is stored (as a copy; values are immutable, so
      the copy is the composite itself) in place of any element of its type;
      a basic element goes through the composite rule. */
  function PutChild(ies: map<byte, Ie>, ie: Ie): (r: map<byte, Ie>)
    requires ValidIe(ie)
    ensures IeType(ie) in r && r[IeType(ie)] == ie
    ensures forall k :: k != IeType(ie) ==> (k in r <==> k in ies)
    ensures forall k :: k in r && k != IeType(ie) ==> r[k] == ies[k]
    ensures ValidIes(ies) ==> ValidIes(r)
  {
    ies[IeType(ie) := ie]
  }

  predicate ValidIeSeq(ies: seq<Ie>) {
    forall i :: 0 <= i < |ies| ==> ValidIe(ies[i])
  }

  function PutChildren(ies: map<byte, Ie>, v: seq<Ie>): (r: map<byte, Ie>)
    requires ValidIeSeq(v)
    ensures ValidIes(ies) ==> ValidIes(r)
    decreases |v|
  {
    if |v| == 0 then ies else PutChildren(PutChild(ies, v[0]), v[1..])
  }

  /** The vector constructor. */
  function NewMessage(version: byte, sequenceNumber: int, mtype: byte, value: byte,
                      ies: seq<Ie>): (m: Message)
    requires ValidIeSeq(ies)
    ensures ValidMessage(m)
    ensures m.timeToLive == 4000
    ensures m.version == version && m.sequenceNumber == sequenceNumber && m.mtype == mtype
    ensures IsTypeValue(mtype) ==> m.body == TvBody(value)
  {
    Message(version, sequenceNumber, DEFAULT_TIME_TO_LIVE, mtype,
            if IsTypeValue(mtype) then TvBody(value) else TlvBody(PutChildren(map[], ies)))
  }

  /** `getCompositeIE`: the composite of that type, or None when the type is
      absent or holds a basic element. */
  function GetCompositeIe(m: Message, t: byte): (r: Option<CompositeIe>)
    ensures r.Some? <==> t in IesOf(m) && IesOf(m)[t].Composite?
    ensures r.Some? ==> Composite(r.value) == IesOf(m)[t]
  {
    var ies := IesOf(m);
    if t in ies && ies[t].Composite? then Some(ies[t].composite) else None
  }

  /** The value octet of a TV message (`getValueByte`). */
  function ValueByte(m: Message): byte
    requires m.body.TvBody?
  {
    m.body.value
  }

  // ---------------------------------------------------------------------
  // Encoding

  function IeValue(ie: Ie): (v: seq<byte>)
    requires ValidIe(ie)
  {
    match ie
    case Basic(b) => Encode(b)
    case Composite(c) => Value(c)
  }

  function IeFields(ies: map<byte, Ie>, ks: seq<byte>): (fs: seq<Field>)
    requires EncodableIes(ies)
    requires forall i :: 0 <= i < |ks| ==> ks[i] in ies
    ensures |fs| == |ks|
    ensures forall i :: 0 <= i < |ks| ==> fs[i] == Field(ks[i], IeValue(ies[ks[i]]))
    ensures forall i :: 0 <= i < |fs| ==> ValidField(fs[i])
  {
    seq(|ks|, i requires 0 <= i < |ks| => Field(ks[i], IeValue(ies[ks[i]])))
  }

  /** The value of a TLV message: its elements in ascending type order. */
  function Payload(ies: map<byte, Ie>): (p: seq<byte>)
    requires EncodableIes(ies)
    ensures |p| == 0 <==> ies == map[]
  {
    AscendingKeysSpec(ies.Keys);
    AscendingKeysEmpty(ies.Keys);
    var fs := IeFields(ies, AscendingKeys(ies.Keys));
    JoinEmpty(fs);
    assert ies == map[] <==> ies.Keys == {};
    Join(fs)
  }

  /** `getMessage`: the frame. Only the low 16 bits of the sequence number
      are written, and the length octet of a TLV frame holds the payload
      length modulo 256. */
  function GetMessage(m: Message): (frame: seq<byte>)
    requires Writable(m)
    ensures |frame| >= 5
    ensures frame[..3] == [m.version] + BigEndian(2, m.sequenceNumber)
    ensures frame[3] == m.mtype
    ensures m.body.TvBody? ==> frame == frame[..4] + [m.body.value]
    ensures m.body.TlvBody? ==>
      var p := Payload(m.body.ies);
      |frame| == |p| + 5 && frame[4] == |p| % 256 && frame[5..] == p
  {
    var header := [m.version] + BigEndian(2, m.sequenceNumber) + [m.mtype];
    match m.body
    case TvBody(x) => header + [x]
    case TlvBody(ies) =>
      var p := Payload(ies);
      header + [Truncate(|p|)] + p
  }

  // ---------------------------------------------------------------------
  // Decoding

  /** What `Message::getIE` needs to build an element from a field. */
  predicate DecodableIe(t: byte, v: seq<byte>) {
    if IsBasicType(t) then |v| >= ValueLength(KindOf(t).value)
    else if IsTypeValue(t) then |v| > 0
    else DecodableTlv(v)
  }

  /** `Message::getIE`: a basic element when the type is basic, otherwise a
      composite of that type. */
  function DecodeIe(t: byte, v: seq<byte>): (ie: Ie)
    requires DecodableIe(t, v)
    ensures IeType(ie) == t
    ensures ie.Basic? <==> IsBasicType(t)
  {
    match Decode(t, v)
    case Some(b) => Basic(b)
    case None => Composite(DecodeComposite(t, v))
  }

  predicate DecodableIes(fs: seq<Field>) {
    forall i :: 0 <= i < |fs| ==> DecodableIe(fs[i].ftype, fs[i].value)
  }

  /** The elements the scan builds: a later field of a type replaces an
      earlier one, and no field is dropped. */
  function CollectIes(fs: seq<Field>): (ies: map<byte, Ie>)
    requires DecodableIes(fs)
    ensures WellKeyedIes(ies)
    decreases |fs|
  {
    if |fs| == 0 then map[]
    else
      var init, f := fs[..|fs| - 1], fs[|fs| - 1];
      assert forall i :: 0 <= i < |init| ==> init[i] == fs[i];
      CollectIes(init)[f.ftype := DecodeIe(f.ftype, f.value)]
  }

  /** Every field type present is kept, and nothing else appears. */
  lemma {:induction false} CollectIesKeys(fs: seq<Field>)
    requires DecodableIes(fs)
    ensures forall k :: k in CollectIes(fs) <==> exists i :: 0 <= i < |fs| && fs[i].ftype == k
    decreases |fs|
  {
    if |fs| > 0 {
      var init, f := fs[..|fs| - 1], fs[|fs| - 1];
      assert forall i :: 0 <= i < |init| ==> init[i] == fs[i];
      CollectIesKeys(init);
      forall k | k in CollectIes(fs)
        ensures exists i :: 0 <= i < |fs| && fs[i].ftype == k
      {
        if k != f.ftype {
          assert k in CollectIes(init);
          var i :| 0 <= i < |init| && init[i].ftype == k;
          assert fs[i].ftype == k;
        }
      }
    }
  }

  predicate DecodablePayload(v: seq<byte>) {
    WellFramed(v) && DecodableIes(Split(v))
  }

  /** The decoding constructor: time to live is the default, a TV message
      takes the first value octet, a TLV message scans its fields. */
  function DecodeMessage(version: byte, sequenceNumber: int, mtype: byte,
                         v: seq<byte>): (m: Message)
    requires IsTypeValue(mtype) ==> |v| > 0
    requires !IsTypeValue(mtype) ==> DecodablePayload(v)
    ensures m.timeToLive == 4000
    ensures m.version == version && m.sequenceNumber == sequenceNumber && m.mtype == mtype
    ensures m.body.TvBody? <==> IsTypeValue(mtype)
  {
    Message(version, sequenceNumber, DEFAULT_TIME_TO_LIVE, mtype,
            if IsTypeValue(mtype) then TvBody(v[0]) else TlvBody(CollectIes(Split(v))))
  }

  /** A frame of the length the read loop assembles: five octets for a TV
      type, five plus the length octet for a TLV type. */
  predicate CompleteFrame(frame: seq<byte>) {
    |frame| >= 5 && (!IsTypeValue(frame[3]) ==> |frame| >= 5 + frame[4] as int)
  }

  /** The sequence number of a frame, `(b[1] << 8) + b[2]`. */
  function FrameSequenceNumber(frame: seq<byte>): (n: int)
    requires |frame| >= 3
    ensures 0 <= n < 0x1_0000
  {
    BeValueBound(frame[1..3]);
    BeValue(frame[1..3])
  }

  /** The octets a frame's message is decoded from. */
  function FrameValue(frame: seq<byte>): seq<byte>
    requires CompleteFrame(frame)
  {
    if IsTypeValue(frame[3]) then frame[4..5] else frame[5..5 + frame[4] as int]
  }

  predicate DecodableFrame(frame: seq<byte>) {
    CompleteFrame(frame) && (!IsTypeValue(frame[3]) ==> DecodablePayload(FrameValue(frame)))
  }

  /** The message a frame of a supported version carries (the decoding step
      of the inbound handler). */
  function ParseFrame(frame: seq<byte>): (m: Message)
    requires DecodableFrame(frame)
    ensures m.version == frame[0] && m.mtype == frame[3]
    ensures m.sequenceNumber == FrameSequenceNumber(frame)
    ensures m.timeToLive == DEFAULT_TIME_TO_LIVE
    ensures IsTypeValue(frame[3]) ==> m.body == TvBody(frame[4])
    ensures !IsTypeValue(frame[3]) ==> m.body.TlvBody?
  {
    DecodeMessage(frame[0], FrameSequenceNumber(frame), frame[3], FrameValue(frame))
  }

  /** The handler decodes only the frame's own octets: whatever follows
      them in the read buffer is ignored. */
  lemma ParseFrameIgnoresTail(frame: seq<byte>, extra: seq<byte>)
    requires DecodableFrame(frame)
    ensures DecodableFrame(frame + extra)
    ensures ParseFrame(frame + extra) == ParseFrame(frame)
  {
    var g := frame + extra;
    assert g[..|frame|] == frame;
    assert FrameValue(g) == FrameValue(frame);
    assert g[1..3] == frame[1..3];
  }

  // ---------------------------------------------------------------------
  // Round trip

  /** The elements that decode back to themselves: a composite must not
      carry a basic type code, or it would be read back as a basic element. */
  predicate RepresentableIe(ie: Ie) {
    EncodableIe(ie) &&
    match ie
    case Basic(b) => Representable(b)
    case Composite(c) => RepresentableComposite(c) && !IsBasicType(c.ctype)
  }

  /** A message its frame describes exactly. */
  predicate RepresentableMessage(m: Message) {
    Writable(m) && 0 <= m.sequenceNumber < 0x1_0000 && m.timeToLive == DEFAULT_TIME_TO_LIVE &&
    match m.body
    case TvBody(_) => true
    case TlvBody(ies) =>
      (forall k :: k in ies ==> RepresentableIe(ies[k])) && |Payload(ies)| <= 255
  }

  lemma IeRoundTrip(ie: Ie)
    requires RepresentableIe(ie)
    ensures DecodableIe(IeType(ie), IeValue(ie))
    ensures DecodeIe(IeType(ie), IeValue(ie)) == ie
  {
    match ie
    case Basic(b) => RoundTrip(b);
    case Composite(c) =>
      CompositeRoundTrip(c);
      assert Decode(c.ctype, Value(c)).None?;
  }

  /** Each field written for a representable element decodes back to it. */
  lemma IeFieldsDecode(ies: map<byte, Ie>, ks: seq<byte>)
    requires EncodableIes(ies)
    requires forall i :: 0 <= i < |ks| ==> ks[i] in ies && RepresentableIe(ies[ks[i]])
    ensures DecodableIes(IeFields(ies, ks))
    ensures forall i :: 0 <= i < |ks| ==>
      DecodeIe(IeFields(ies, ks)[i].ftype, IeFields(ies, ks)[i].value) == ies[ks[i]]
  {
    var fs := IeFields(ies, ks);
    forall i | 0 <= i < |ks|
      ensures DecodableIe(fs[i].ftype, fs[i].value)
      ensures DecodeIe(fs[i].ftype, fs[i].value) == ies[ks[i]]
    {
      assert fs[i] == Field(ks[i], IeValue(ies[ks[i]]));
      IeRoundTrip(ies[ks[i]]);
    }
  }

  /** When every field decodes to the element its type has in `ies`, the
      scan builds nothing but elements of `ies`. */
  lemma {:induction false} CollectIesAgree(fs: seq<Field>, ies: map<byte, Ie>)
    requires DecodableIes(fs)
    requires forall i :: 0 <= i < |fs| ==>
      fs[i].ftype in ies && DecodeIe(fs[i].ftype, fs[i].value) == ies[fs[i].ftype]
    ensures forall k :: k in CollectIes(fs) ==> k in ies && CollectIes(fs)[k] == ies[k]
    decreases |fs|
  {
    if |fs| > 0 {
      var init, f := fs[..|fs| - 1], fs[|fs| - 1];
      assert forall i :: 0 <= i < |init| ==> init[i] == fs[i];
      CollectIesAgree(init, ies);
      var before, after := CollectIes(init), CollectIes(fs);
      assert after == before[f.ftype := ies[f.ftype]];
      forall k | k in after
        ensures k in ies && after[k] == ies[k]
      {
        if k != f.ftype {
          assert k in before && after[k] == before[k];
        }
      }
    }
  }

  /** Scanning the fields written for the elements under `ks` gives back
      exactly those elements. */
  lemma CollectIeFields(ies: map<byte, Ie>, ks: seq<byte>)
    requires EncodableIes(ies)
    requires forall i :: 0 <= i < |ks| ==> ks[i] in ies && RepresentableIe(ies[ks[i]])
    ensures DecodableIes(IeFields(ies, ks))
    ensures forall k :: k in CollectIes(IeFields(ies, ks)) <==> k in ks
    ensures forall k :: k in CollectIes(IeFields(ies, ks)) ==>
      CollectIes(IeFields(ies, ks))[k] == ies[k]
  {
    IeFieldsDecode(ies, ks);
    var fs := IeFields(ies, ks);
    CollectIesKeys(fs);
    CollectIesAgree(fs, ies);
    forall k | k in ks
      ensures exists i :: 0 <= i < |fs| && fs[i].ftype == k
    {
      var i :| 0 <= i < |ks| && ks[i] == k;
      assert fs[i].ftype == k;
    }
  }

  lemma PayloadRoundTrip(ies: map<byte, Ie>)
    requires EncodableIes(ies)
    requires forall k :: k in ies ==> RepresentableIe(ies[k])
    ensures DecodablePayload(Payload(ies))
    ensures CollectIes(Split(Payload(ies))) == ies
  {
    AscendingKeysSpec(ies.Keys);
    var ks := AscendingKeys(ies.Keys);
    PayloadRoundTripWith(ies, ks);
  }

  lemma PayloadRoundTripWith(ies: map<byte, Ie>, ks: seq<byte>)
    requires EncodableIes(ies)
    requires forall k :: k in ies ==> RepresentableIe(ies[k])
    requires forall k :: k in ies <==> k in ks
    requires StrictlyAscending(ks)
    ensures DecodablePayload(Join(IeFields(ies, ks)))
    ensures CollectIes(Split(Join(IeFields(ies, ks)))) == ies
  {
    assert forall i :: 0 <= i < |ks| ==> ks[i] in ies && RepresentableIe(ies[ks[i]]) by {
      forall i | 0 <= i < |ks| ensures ks[i] in ies && RepresentableIe(ies[ks[i]]) {
        assert ks[i] in ks;
      }
    }
    var fs := IeFields(ies, ks);
    SplitJoin(fs);
    CollectIeFields(ies, ks);
    assert forall k :: k in CollectIes(fs) <==> k in ies;
    MapsEqual(CollectIes(fs), ies);
  }

  lemma HeaderSequenceNumber(frame: seq<byte>, version: byte, n: int)
    requires |frame| >= 3 && 0 <= n < 0x1_0000
    requires frame[..3] == [version] + BigEndian(2, n)
    ensures FrameSequenceNumber(frame) == n
  {
    assert frame[1..3] == frame[..3][1..3];
    Pow256Small();
    BeValueOfSmall(2, n);
  }

  lemma FrameSequenceNumberOf(m: Message)
    requires Writable(m) && 0 <= m.sequenceNumber < 0x1_0000
    ensures FrameSequenceNumber(GetMessage(m)) == m.sequenceNumber
  {
    HeaderSequenceNumber(GetMessage(m), m.version, m.sequenceNumber);
  }

  /** A TLV frame whose length octet counts its payload exactly is complete
      and carries that payload. */
  lemma FrameOfPayload(frame: seq<byte>, p: seq<byte>)
    requires |p| <= 255 && |frame| == |p| + 5 && !IsTypeValue(frame[3])
    requires frame[4] == |p| % 256 && frame[5..] == p
    ensures CompleteFrame(frame) && FrameValue(frame) == p
  {
    assert frame[4] as int == |p| by {
      DivModUnique(|p|, 256, 0, |p|);
    }
    assert frame[5..5 + |p|] == frame[5..];
  }

  lemma TlvFrameValue(m: Message)
    requires Writable(m) && m.body.TlvBody? && |Payload(m.body.ies)| <= 255
    ensures CompleteFrame(GetMessage(m))
    ensures FrameValue(GetMessage(m)) == Payload(m.body.ies)
  {
    FrameOfPayload(GetMessage(m), Payload(m.body.ies));
  }

  /** Parsing the frame of a representable message gives the message back. */
  lemma FrameRoundTrip(m: Message)
    requires RepresentableMessage(m)
    ensures DecodableFrame(GetMessage(m))
    ensures ParseFrame(GetMessage(m)) == m
  {
    var frame := GetMessage(m);
    FrameSequenceNumberOf(m);
    if m.body.TlvBody? {
      TlvFrameValue(m);
      PayloadRoundTrip(m.body.ies);
    } else {
      assert FrameValue(frame) == [m.body.value];
    }
  }
}

=== FILE: msgtype.dfy ===
/** Classification of message types: each type has a group (advice, request
    or response) and a linked type, the type of the answer a request gets or
    of the request a response answers. */
module MessageTypes {
  import opened Bytes
  import opened Wrappers

  datatype Group = Group(id: byte)

  const ADVICE := Group(1)
  const REQUEST := Group(2)
  const RESPONSE := Group(3)

  datatype MessageType = MessageType(mtype: byte, linkedType: byte, group: Group) {
    /** Groups are compared by id. */
    predicate IsAdvice() { group.id == ADVICE.id }
    predicate IsRequest() { group.id == REQUEST.id }
    predicate IsResponse() { group.id == RESPONSE.id }
  }

  /** A message type belongs to at most one of the three groups. */
  lemma GroupsExclusive(t: MessageType)
    ensures !(t.IsAdvice() && t.IsRequest())
    ensures !(t.IsAdvice() && t.IsResponse())
    ensures !(t.IsRequest() && t.IsResponse())
  {
  }

  const VERSION_NOT_SUPPORTED_ADVICE := MessageType(0x00, 0xff, ADVICE)
  const ECHO_REQUEST := MessageType(0x01, 0x02, REQUEST)
  const ECHO_RESPONSE := MessageType(0x02, 0x01, RESPONSE)
  const REGISTER_REQUEST := MessageType(0xc0, 0x20, REQUEST)
  const REGISTER_RESPONSE := MessageType(0x20, 0xc0, RESPONSE)

  /** The code of the node identity element of a registration request. */
  const NODE: byte := 0xc0
  const REQUEST_FAILED: byte := 0
  const REQUEST_ACCEPTED: byte := 1

  /** Supported message types keyed by type code. */
  type TypeCollection = map<byte, MessageType>

  predicate WellKeyedTypes(tc: TypeCollection) {
    forall k :: k in tc ==> tc[k].mtype == k
  }

  /** `put`: a type replaces any type of the same code. */
  function Put(tc: TypeCollection, t: MessageType): (r: TypeCollection)
    ensures t.mtype in r && r[t.mtype] == t
    ensures forall k :: k != t.mtype ==> (k in r <==> k in tc)
    ensures forall k :: k in r && k != t.mtype ==> r[k] == tc[k]
    ensures WellKeyedTypes(tc) ==> WellKeyedTypes(r)
  {
    tc[t.mtype := t]
  }

  /** `getLinkedType`: the linked type of a known type, 0 for an unknown one.
      The argument is an `int` narrowed to a type code. */
  function GetLinkedType(tc: TypeCollection, t: int): (l: byte)
    ensures Truncate(t) in tc ==> l == tc[Truncate(t)].linkedType
    ensures Truncate(t) !in tc ==> l == 0
  {
    match Find(tc, Truncate(t))
    case Some(mt) => mt.linkedType
    case None => 0
  }

  /** The collection every connection starts with. */
  function BaseTypes(): (tc: TypeCollection)
    ensures WellKeyedTypes(tc)
  {
    Put(Put(Put(Put(Put(map[], VERSION_NOT_SUPPORTED_ADVICE), ECHO_REQUEST), ECHO_RESPONSE),
            REGISTER_REQUEST), REGISTER_RESPONSE)
  }

  /** Requests and responses are linked in pairs: the response to a request
      links back to it. */
  predicate PairedLinks(tc: TypeCollection) {
    forall k :: k in tc && tc[k].IsRequest() ==>
      var l := tc[k].linkedType;
      l in tc && tc[l].IsResponse() && tc[l].linkedType == k
  }

  lemma BaseTypesContents()
    ensures BaseTypes().Keys == {0x00, 0x01, 0x02, 0xc0, 0x20}
    ensures PairedLinks(BaseTypes())
  {
    var tc := BaseTypes();
    assert tc == map[0x00 := VERSION_NOT_SUPPORTED_ADVICE, 0x01 := ECHO_REQUEST,
                     0x02 := ECHO_RESPONSE, 0xc0 := REGISTER_REQUEST,
                     0x20 := REGISTER_RESPONSE];
  }
}

=== FILE: properties.dfy ===
/** The key/value store read from a `.properties`-style text and its line
    parser. The parser is a pure function of the octets of the text
    (opening the file is not part of this model) and, equivalently, a loop
    over them. */
module Properties {
  import opened Bytes
  import opened Wrappers

  type PropertyMap = map<string, string>

  /** `getProperty(key)`: the stored value, "" when the key is absent. */
  function GetProperty(p: PropertyMap, key: string): (v: string)
    ensures key in p ==> v == p[key]
    ensures key !in p ==> v == ""
  {
    if key in p then p[key] else ""
  }

  /** `getProperty(key, default)`: the default only for an absent key, even
      when the stored value is empty. */
  function GetPropertyOr(p: PropertyMap, key: string, default: string): (v: string)
    ensures key in p ==> v == p[key]
    ensures key !in p ==> v == default
  {
    if key in p then p[key] else default
  }

  /** `setProperty`: the last write wins. */
  function SetProperty(p: PropertyMap, key: string, value: string): (r: PropertyMap)
    ensures r.Keys == p.Keys + {key} && r[key] == value
    ensures forall k :: k in p && k != key ==> r[k] == p[k]
  {
    p[key := value]
  }

  lemma LastWriteWins(p: PropertyMap, key: string, v1: string, v2: string)
    ensures SetProperty(SetProperty(p, key, v1), key, v2) == SetProperty(p, key, v2)
    ensures GetProperty(SetProperty(p, key, v1), key) == v1
  {
  }

  // ---------------------------------------------------------------------
  // Tokens

  const LF: byte := 10
  const CR: byte := 13
  const TAB: byte := 9
  const FF: byte := 12
  const SP: byte := 32
  const BANG: byte := 33
  const HASH: byte := 35
  const COLON: byte := 58
  const EQUALS: byte := 61
  const BACKSLASH: byte := 92

  /** What one input character (or escape pair) contributes: whether it ends
      the line, separates, starts a comment or continues an escaped line,
      and the text it would append. */
  datatype Token = Token(lineEnd: bool, space: bool, comment: bool, escLs: bool, text: string)

  predicate IsLineEnd(c: byte) { c == LF || c == CR }
  predicate IsSeparator(c: byte) { c == SP || c == TAB || c == FF || c == EQUALS || c == COLON }
  predicate IsCommentStart(c: byte) { c == HASH || c == BANG }

  /** An unescaped character. */
  function CharToken(c: byte): (t: Token)
    requires c != BACKSLASH
    ensures t.lineEnd <==> IsLineEnd(c)
    ensures t.space <==> IsSeparator(c)
    ensures t.comment <==> IsCommentStart(c)
    ensures !t.escLs && t.text == [c as char]
  {
    Token(IsLineEnd(c), IsSeparator(c), IsCommentStart(c), false, [c as char])
  }

  /** The character an escape stands for: `\n \r \t \f \\ \= \:` decode to
      the control or literal character; an escaped line terminator continues
      the line; any other character `e` gives the character `'\\' + e`,
      computed on signed chars, so modulo 256. */
  function EscapeToken(e: byte): (t: Token)
    ensures !t.lineEnd && !t.comment
    ensures t.escLs <==> IsLineEnd(e)
    ensures t.space <==> IsLineEnd(e)
    ensures e == 'n' as int ==> t.text == "\n"
    ensures e == 'r' as int ==> t.text == "\r"
    ensures e == 't' as int ==> t.text == "\t"
    ensures e == 'f' as int ==> t.text == [FF as char]
    ensures e == BACKSLASH ==> t.text == "\\"
    ensures e == EQUALS ==> t.text == "="
    ensures e == COLON ==> t.text == ":"
  {
    if IsLineEnd(e) then Token(false, true, false, true, "")
    else
      var text :=
        if e == 'n' as int then "\n"
        else if e == 'r' as int then "\r"
        else if e == 't' as int then "\t"
        else if e == 'f' as int then [FF as char]
        else if e == BACKSLASH || e == EQUALS || e == COLON then [e as char]
        else [((BACKSLASH as int + e as int) % 256) as char];
      Token(false, false, false, false, text)
  }

  /** A backslash at the very end reads end of file, -1, as the escaped
      character: `'\\' + (char)-1` is 91. */
  const EOF_ESCAPE := Token(false, false, false, false, [91 as char])

  // ---------------------------------------------------------------------
  // Parser state

  datatype Mode = InKey | InValue

  /** The flags that survive from one character to the next, the pending key
      and value, and the properties committed so far. */
  datatype LoadState = LoadState(mode: Mode, comment: bool, escLs: bool,
                                 key: string, value: string, props: PropertyMap)

  function LineStart(props: PropertyMap): (st: LoadState)
    ensures st.props == props
  {
    LoadState(InKey, false, false, "", "", props)
  }

  /** One pass of the loop body. A line terminator commits a non-empty key
      and starts a new line. Inside a comment nothing else happens. A
      non-separator appends to the key or value; a separator ends a
      non-empty key, is dropped before the first value character and after
      an escaped line terminator, and is kept inside a value. */
  function Step(st: LoadState, t: Token): (r: LoadState)
    ensures t.lineEnd ==> r == LineStart(if |st.key| > 0 then st.props[st.key := st.value] else st.props)
    ensures !t.lineEnd ==> r.props == st.props
    ensures !t.lineEnd && (st.comment || t.comment) ==>
      r == st.(comment := true, escLs := st.escLs || t.escLs)
  {
    if t.lineEnd then
      LineStart(if |st.key| > 0 then SetProperty(st.props, st.key, st.value) else st.props)
    else
      var comment := st.comment || t.comment;
      var escLs := st.escLs || t.escLs;
      if comment then st.(comment := true, escLs := escLs)
      else if !t.space then
        if st.mode == InKey then st.(key := st.key + t.text, escLs := false)
        else st.(value := st.value + t.text, escLs := false)
      else if st.mode == InKey && |st.key| > 0 then st.(mode := InValue, escLs := escLs)
      else if st.mode == InValue && !escLs && |st.value| > 0 then
        st.(value := st.value + t.text, escLs := escLs)
      else st.(escLs := escLs)
  }

  /** The token at the head of the input and how many octets it takes. */
  function NextToken(s: seq<byte>): (r: (Token, nat))
    requires |s| > 0
    ensures 1 <= r.1 <= |s| && r.1 <= 2
    ensures s[0] != BACKSLASH ==> r == (CharToken(s[0]), 1)
  {
    if s[0] != BACKSLASH then (CharToken(s[0]), 1)
    else if |s| >= 2 then (EscapeToken(s[1]), 2)
    else (EOF_ESCAPE, 1)
  }

  /** The state after the rest of the input. The loop's last pass reads end
      of file; it appends at most one character to a line that is never
      committed, so it leaves the properties as they are. */
  function Run(st: LoadState, s: seq<byte>): LoadState
    decreases |s|
  {
    if |s| == 0 then st
    else
      var (t, n) := NextToken(s);
      Run(Step(st, t), s[n..])
  }

  /** `load`, as a function of the file's octets. */
  function LoadSpec(s: seq<byte>): PropertyMap {
    Run(LineStart(map[]), s).props
  }

  /** `load`: the character loop. */
  method Load(s: seq<byte>) returns (props: PropertyMap)
    ensures props == LoadSpec(s)
  {
    var st := LineStart(map[]);
    var i := 0;
    while i < |s|
      invariant 0 <= i <= |s|
      invariant Run(st, s[i..]) == Run(LineStart(map[]), s)
      decreases |s| - i
    {
      var c := s[i];
      var t: Token;
      if c != BACKSLASH {
        t := CharToken(c);
        i := i + 1;
      } else if i + 1 < |s| {
        t := EscapeToken(s[i + 1]);
        i := i + 2;
      } else {
        t := EOF_ESCAPE;
        i := i + 1;
      }
      st := Step(st, t);
    }
    props := st.props;
  }

  // ---------------------------------------------------------------------
  // Properties of the parser

  predicate NoLineEnd(s: seq<byte>) {
    forall i :: 0 <= i < |s| ==> !IsLineEnd(s[i])
  }

  /** A last line with no terminator is never committed. */
  lemma {:induction false} UnterminatedLineNotCommitted(st: LoadState, s: seq<byte>)
    requires NoLineEnd(s)
    ensures Run(st, s).props == st.props
    decreases |s|
  {
    if |s| > 0 {
      var (t, n) := NextToken(s);
      assert !t.lineEnd;
      assert NoLineEnd(s[n..]) by {
        forall i | 0 <= i < |s[n..]| ensures !IsLineEnd(s[n..][i]) {
          assert s[n..][i] == s[i + n];
        }
      }
      UnterminatedLineNotCommitted(Step(st, t), s[n..]);
    }
  }

  /** Characters with no role of their own. */
  predicate Plain(s: seq<byte>) {
    forall i :: 0 <= i < |s| ==>
      s[i] != BACKSLASH && !IsLineEnd(s[i]) && !IsSeparator(s[i]) && !IsCommentStart(s[i])
  }

  function Chars(s: seq<byte>): (r: string)
    ensures |r| == |s| && forall i :: 0 <= i < |s| ==> r[i] == s[i] as char
  {
    seq(|s|, i requires 0 <= i < |s| => s[i] as char)
  }

  /** The state after appending text to whichever of key and value is
      being read. */
  function Appended(st: LoadState, text: string): LoadState {
    if st.mode == InKey then st.(key := st.key + text, escLs := st.escLs && |text| == 0)
    else st.(value := st.value + text, escLs := st.escLs && |text| == 0)
  }

  lemma AppendedTwice(st: LoadState, a: string, b: string)
    requires |a| > 0
    ensures Appended(Appended(st, a), b) == Appended(st, a + b)
  {
    assert st.key + a + b == st.key + (a + b);
    assert st.value + a + b == st.value + (a + b);
  }

  /** Plain characters outside a comment are appended to the key or the
      value, whichever is being read. */
  lemma {:induction false} PlainAppends(st: LoadState, s: seq<byte>, rest: seq<byte>)
    requires Plain(s) && !st.comment
    ensures Run(st, s + rest) == Run(Appended(st, Chars(s)), rest)
    decreases |s|
  {
    if |s| == 0 {
      assert s + rest == rest;
      assert Chars(s) == "";
      assert st.key + "" == st.key && st.value + "" == st.value;
    } else {
      var t := CharToken(s[0]);
      assert (s + rest)[1..] == s[1..] + rest;
      assert Plain(s[1..]) by {
        forall i | 0 <= i < |s[1..]| ensures s[1..][i] == s[i + 1] {}
      }
      var st1 := Step(st, t);
      assert st1 == Appended(st, [s[0] as char]);
      PlainAppends(st1, s[1..], rest);
      assert Chars(s) == [s[0] as char] + Chars(s[1..]);
      AppendedTwice(st, [s[0] as char], Chars(s[1..]));
    }
  }

  /** A line `key=value` of plain characters, read from the start of a line,
      sets the key to the value and starts the next line. */
  lemma SimpleLine(props: PropertyMap, k: seq<byte>, v: seq<byte>, rest: seq<byte>)
    requires Plain(k) && Plain(v) && |k| > 0
    ensures Run(LineStart(props), k + [EQUALS] + v + [LF] + rest) ==
            Run(LineStart(props[Chars(k) := Chars(v)]), rest)
  {
    var tail := [EQUALS] + v + [LF] + rest;
    assert k + [EQUALS] + v + [LF] + rest == k + tail;
    PlainAppends(LineStart(props), k, tail);
    var st1 := LoadState(InKey, false, false, Chars(k), "", props);
    assert Appended(LineStart(props), Chars(k)) == st1 by {
      assert "" + Chars(k) == Chars(k);
    }
    SeparatorThenValue(st1, v, rest);
  }

  lemma SeparatorThenValue(st1: LoadState, v: seq<byte>, rest: seq<byte>)
    requires st1.mode == InKey && !st1.comment && !st1.escLs && |st1.key| > 0 && st1.value == ""
    requires Plain(v)
    ensures Run(st1, [EQUALS] + v + [LF] + rest) ==
            Run(LineStart(st1.props[st1.key := Chars(v)]), rest)
  {
    var st2 := st1.(mode := InValue);
    assert Step(st1, CharToken(EQUALS)) == st2;
    assert ([EQUALS] + v + [LF] + rest)[1..] == v + ([LF] + rest);
    PlainAppends(st2, v, [LF] + rest);
    var st3 := st2.(value := Chars(v));
    assert Appended(st2, Chars(v)) == st3 by {
      assert "" + Chars(v) == Chars(v);
    }
    assert ([LF] + rest)[1..] == rest;
    assert Step(st3, CharToken(LF)) == LineStart(st1.props[st1.key := Chars(v)]);
  }

  predicate Separators(s: seq<byte>) {
    forall i :: 0 <= i < |s| ==> IsSeparator(s[i])
  }

  /** After an escaped line terminator, separators are dropped. */
  lemma {:induction false} SeparatorsSkipped(st: LoadState, ws: seq<byte>, rest: seq<byte>)
    requires st.mode == InValue && !st.comment && st.escLs && Separators(ws)
    ensures Run(st, ws + rest) == Run(st, rest)
    decreases |ws|
  {
    if |ws| == 0 {
      assert ws + rest == rest;
    } else {
      assert (ws + rest)[1..] == ws[1..] + rest;
      assert Separators(ws[1..]) by {
        forall i | 0 <= i < |ws[1..]| ensures ws[1..][i] == ws[i + 1] {}
      }
      assert Step(st, CharToken(ws[0])) == st;
      SeparatorsSkipped(st, ws[1..], rest);
    }
  }

  /** A backslash before the line terminator continues the value on the next
      line, without the continuation's leading separators. */
  lemma ContinuedLine(st: LoadState, ws: seq<byte>, rest: seq<byte>)
    requires st.mode == InValue && !st.comment && Separators(ws)
    ensures Run(st, [BACKSLASH, LF] + ws + rest) == Run(st.(escLs := true), rest)
  {
    var st1 := st.(escLs := true);
    assert Step(st, EscapeToken(LF)) == st1;
    assert ([BACKSLASH, LF] + ws + rest)[2..] == ws + rest;
    SeparatorsSkipped(st1, ws, rest);
  }

  predicate NoBackslash(s: seq<byte>) {
    forall i :: 0 <= i < |s| ==> s[i] != BACKSLASH
  }

  /** A line that starts with a comment character changes nothing. (A
      backslash at the end of a comment would escape the terminator and run
      the comment on into the next line.) */
  lemma CommentLine(props: PropertyMap, c: byte, s: seq<byte>, rest: seq<byte>)
    requires IsCommentStart(c) && NoLineEnd(s) && NoBackslash(s)
    ensures Run(LineStart(props), [c] + s + [LF] + rest) == Run(LineStart(props), rest)
  {
    var st := LineStart(props).(comment := true);
    assert ([c] + s + [LF] + rest)[1..] == s + ([LF] + rest);
    InComment(st, s, [LF] + rest);
    assert ([LF] + rest)[1..] == rest;
  }

  /** Inside a comment, everything up to the line terminator is skipped. */
  lemma {:induction false} InComment(st: LoadState, s: seq<byte>, rest: seq<byte>)
    requires st.comment && NoLineEnd(s) && NoBackslash(s)
    ensures exists e: bool :: Run(st, s + rest) == Run(st.(escLs := e), rest)
    decreases |s|
  {
    if |s| == 0 {
      assert s + rest == rest;
      assert st.(escLs := st.escLs) == st;
    } else {
      var t := CharToken(s[0]);
      assert (s + rest)[1..] == s[1..] + rest;
      assert NoLineEnd(s[1..]) && NoBackslash(s[1..]) by {
        forall i | 0 <= i < |s[1..]| ensures s[1..][i] == s[i + 1] {}
      }
      InComment(Step(st, t), s[1..], rest);
      var e :| Run(Step(st, t), s[1..] + rest) == Run(Step(st, t).(escLs := e), rest);
      assert Step(st, t).(escLs := e) == st.(escLs := e);
    }
  }
}

=== FILE: tlv.dfy ===
/** The field layout shared by composite elements and messages: a value
    buffer is a run of fields, each a type octet followed by one value octet
    (TV, type below 128) or by a length octet and that many value octets
    (TLV). */
module Tlv {
  import opened Bytes
  import opened IeTypes

  datatype Field = Field(ftype: byte, value: seq<byte>)

  /** A field the layout can carry: TV fields hold exactly one octet, TLV
      fields at most 255. */
  predicate ValidField(f: Field) {
    if IsTypeValue(f.ftype) then |f.value| == 1 else |f.value| <= 255
  }

  /** The octets one field occupies. */
  function EncodeField(f: Field): (v: seq<byte>)
    requires ValidField(f)
    ensures |v| == 2 + (if IsTypeValue(f.ftype) then 0 else |f.value|)
  {
    if IsTypeValue(f.ftype) then [f.ftype] + f.value
    else [f.ftype, Truncate(|f.value|)] + f.value
  }

  /** The fields written one after the other. */
  function Join(fs: seq<Field>): seq<byte>
    requires forall i :: 0 <= i < |fs| ==> ValidField(fs[i])
  {
    if |fs| == 0 then [] else EncodeField(fs[0]) + Join(fs[1..])
  }

  /** Fields always write octets: the join is empty only without fields. */
  lemma JoinEmpty(fs: seq<Field>)
    requires forall i :: 0 <= i < |fs| ==> ValidField(fs[i])
    ensures |Join(fs)| == 0 <==> |fs| == 0
  {
  }

  /** The octets the field starting a buffer spans: two for TV, two plus the
      length octet for TLV. */
  function SpanAt(buf: seq<byte>): nat
    requires |buf| >= 2
  {
    if IsTypeValue(buf[0]) then 2 else 2 + buf[1] as int
  }

  /** Where the value octets of a field begin. */
  function ValueStart(t: byte): nat {
    if IsTypeValue(t) then 1 else 2
  }

  /** The scan reads every field inside the buffer: the source's loops do not
      check a field against the end of the buffer, so a buffer that is not
      well framed makes them read past it. */
  predicate WellFramed(buf: seq<byte>)
    decreases |buf|
  {
    |buf| == 0 || (|buf| >= 2 && SpanAt(buf) <= |buf| && WellFramed(buf[SpanAt(buf)..]))
  }

  /** The fields of a well-framed buffer in order (the scanning loop of the
      decoding constructors). */
  function Split(buf: seq<byte>): (fs: seq<Field>)
    requires WellFramed(buf)
    ensures forall i :: 0 <= i < |fs| ==> ValidField(fs[i])
    ensures |fs| <= |buf| / 2
    decreases |buf|
  {
    if |buf| == 0 then []
    else
      var n := SpanAt(buf);
      [Field(buf[0], buf[ValueStart(buf[0])..n])] + Split(buf[n..])
  }

  /** Scanning the written fields recovers them. */
  lemma {:induction false} SplitJoin(fs: seq<Field>)
    requires forall i :: 0 <= i < |fs| ==> ValidField(fs[i])
    ensures WellFramed(Join(fs))
    ensures Split(Join(fs)) == fs
  {
    if |fs| > 0 {
      var buf, head := Join(fs), EncodeField(fs[0]);
      SplitJoin(fs[1..]);
      assert buf == head + Join(fs[1..]);
      assert SpanAt(buf) == |head|;
      assert buf[|head|..] == Join(fs[1..]);
      assert buf[ValueStart(buf[0])..|head|] == fs[0].value;
    }
  }

  /** The first field of a well-framed buffer is written as the octets it
      spans. */
  lemma FirstFieldEncoding(buf: seq<byte>)
    requires |buf| > 0 && WellFramed(buf)
    ensures ValidField(Field(buf[0], buf[ValueStart(buf[0])..SpanAt(buf)]))
    ensures EncodeField(Field(buf[0], buf[ValueStart(buf[0])..SpanAt(buf)])) == buf[..SpanAt(buf)]
  {
    var n := SpanAt(buf);
    var f := Field(buf[0], buf[ValueStart(buf[0])..n]);
    if IsTypeValue(buf[0]) {
      assert EncodeField(f) == [buf[0]] + buf[1..n];
      assert buf[..n] == [buf[0]] + buf[1..n];
    } else {
      assert Truncate(|f.value|) == buf[1];
      assert EncodeField(f) == [buf[0], buf[1]] + buf[2..n];
      assert buf[..n] == [buf[0], buf[1]] + buf[2..n];
    }
  }

  /** Writing the scanned fields reproduces the buffer. */
  lemma {:induction false} JoinSplit(buf: seq<byte>)
    requires WellFramed(buf)
    ensures Join(Split(buf)) == buf
    decreases |buf|
  {
    if |buf| > 0 {
      var n := SpanAt(buf);
      var f := Field(buf[0], buf[ValueStart(buf[0])..n]);
      var fs := Split(buf);
      JoinSplit(buf[n..]);
      FirstFieldEncoding(buf);
      assert fs == [f] + Split(buf[n..]);
      assert fs[0] == f && fs[1..] == Split(buf[n..]);
      assert Join(fs) == EncodeField(f) + Join(Split(buf[n..]));
      assert buf == buf[..n] + buf[n..];
    }
  }

  /** The type codes in a set from `from` upward, in ascending order: the
      iteration order of a `std::map` keyed by type. */
  function KeysFrom(keys: set<byte>, from: nat): (ks: seq<byte>)
    ensures forall i :: 0 <= i < |ks| ==> ks[i] in keys && ks[i] >= from
    decreases 256 - from
  {
    if from >= 256 then []
    else (if from as byte in keys then [from as byte] else []) + KeysFrom(keys, from + 1)
  }

  function AscendingKeys(keys: set<byte>): seq<byte> {
    KeysFrom(keys, 0)
  }

  predicate StrictlyAscending(ks: seq<byte>) {
    forall i, j :: 0 <= i < j < |ks| ==> ks[i] < ks[j]
  }

  lemma {:induction false} KeysFromComplete(keys: set<byte>, from: nat)
    ensures StrictlyAscending(KeysFrom(keys, from))
    ensures forall k :: k in keys && k >= from ==> k in KeysFrom(keys, from)
    decreases 256 - from
  {
    if from < 256 {
      KeysFromComplete(keys, from + 1);
      var rest := KeysFrom(keys, from + 1);
      if from as byte in keys {
        assert KeysFrom(keys, from) == [from as byte] + rest;
        assert forall i :: 0 <= i < |rest| ==> from as byte < rest[i];
      } else {
        assert KeysFrom(keys, from) == rest;
      }
    }
  }

  /** An empty set has no keys to list. */
  lemma {:induction false} KeysFromEmpty(from: nat)
    ensures KeysFrom({}, from) == []
    decreases 256 - from
  {
    if from < 256 {
      KeysFromEmpty(from + 1);
    }
  }

  /** Only the empty set has no keys to list. */
  lemma AscendingKeysEmpty(keys: set<byte>)
    ensures |AscendingKeys(keys)| == 0 <==> keys == {}
  {
    if keys == {} {
      KeysFromEmpty(0);
    } else {
      var k :| k in keys;
      KeysFromComplete(keys, 0);
      assert k in AscendingKeys(keys);
    }
  }

  /** The ascending keys list every key exactly once, in increasing order. */
  lemma AscendingKeysSpec(keys: set<byte>)
    ensures StrictlyAscending(AscendingKeys(keys))
    ensures forall k :: k in keys <==> k in AscendingKeys(keys)
  {
    KeysFromComplete(keys, 0);
  }
}

=== FILE: wrappers.dfy ===
/** The optional value used wherever the repository returns NULL
    or an "absent" marker. */
module Wrappers {

  datatype Option<+T> = None | Some(value: T) {

    /** Returns the value held in Some, or the default when None. */
    function GetOr(default: T): T {
      match this
      case Some(v) => v
      case None => default
    }
  }

  /** The value filed under a key, or None: `find` on a `std::map`, as every
      getter of a keyed collection in the repository does it. */
  function Find<K, V>(m: map<K, V>, k: K): (r: Option<V>)
    ensures r.Some? <==> k in m
    ensures r.Some? ==> r.value == m[k]
  {
    if k in m then Some(m[k]) else None
  }

  /** Maps with the same keys and the same values under them are equal. */
  lemma MapsEqual<K, V>(a: map<K, V>, b: map<K, V>)
    requires forall k :: k in a <==> k in b
    requires forall k :: k in a ==> a[k] == b[k]
    ensures a == b
  {
  }
}
